=== FILE: README.md ===
# Solid attenuator configuration search, in Dafny

A solid attenuator puts a set of filter blades, each with a known
transmission at the current photon energy, into or out of an X-ray beam. This
project models how the attenuator IOCs choose blades:

- the configuration search of `solid_attenuator/calculator.py`:
  - every in/out combination;
  - the floor and ceiling configurations around a desired transmission;
  - the mode projection;
  - the material-priority composition used by AT2L0;
  - the ladder search;
  - the nearest tabulated photon energy.
- the early copies of the same search: `ioc-satt-dev/calculator.py`,
  `ioc-satt-dev/satt_app.py`, `caproto/ioc-satt-dev/satt_app.py`, and the
  table written by `configurations.py`;
- the bookkeeping of the AT2L0 IOC, in `solid_attenuator/ioc_lfe_at2l0_calc/db/system.py`
  and `solid_attenuator/ioc_lfe_at2l0_calc/at2l0.py`:
  - motor state mapping and the state bitmask;
  - the active configuration and transmission;
  - the material check;
  - the move planner;
  - the PV names derived from the filter group.

Transmissions are `real`s. A NaN (a stuck blade, or a removed one in the
NaN/1 tables) is `None` in an `Option<real>`, and `nanprod` is
`Common.NanProd`, which skips `None` entries. numpy's `argsort` is quicksort
and leaves the order of equal values open. The model therefore takes any
ascending permutation (`Sequences.SortsBy`) as a parameter and proves that
the transmissions chosen do not depend on it. Python's `sorted` is
`Sequences.StableArgsort`, which is ascending and stable. `np.rint` is
`Common.Rint`, the nearest integer with ties to even. Casting NaN to an
integer (`astype(np.int)`) gives the smallest int64, `Common.Int64Min`, as on
x86-64. Raised exceptions are the `Failure` side of `Common.Result`, with
the exception's class (`ValueError`, `KeyError`, `IndexError`,
`OverflowError`).

Modules follow the source:

| module | file | models |
|---|---|---|
| `Common`, `Sequences`, `Bits`, `Cartesian`, `Text` | common.dfy, sequences.dfy, bits.dfy, products.dfy, text.dfy | numpy, `itertools.product`, `str`/`int` conversions |
| `Calculator` | calculator.dfy | `in_out_combinations`, `find_configs`, `get_best_config` |
| `MaterialPriority` | material_priority.dfy | `get_best_config_with_material_priority` |
| `Ladder` | ladder.dfy | `get_ladder_configs`, `get_ladder_config` |
| `Energy` | energy.dfy | `find_closest_energy` |
| `Configurations` | configurations.dfy | `in_out_attenuator` |
| `LegacyCalculator` | legacy_calculator.dfy | `ioc-satt-dev/calculator.py` |
| `SattApp` | satt_app.dfy | `ioc-satt-dev/satt_app.py` |
| `CaprotoSattApp` | caproto_satt_app.dfy | `caproto/ioc-satt-dev/satt_app.py` |
| `At2l0System` | at2l0_system.dfy | `solid_attenuator/ioc_lfe_at2l0_calc/db/system.py` |
| `At2l0Ioc` | at2l0_ioc.dfy | `solid_attenuator/ioc_lfe_at2l0_calc/at2l0.py` |

With three blades of transmissions 0.5 and 0.8 and one stuck blade, and a
target of 0.3, `find_configs` returns 0.4 for both the floor and the ceiling
(`Calculator.ThreeBladeExample`). The product nearest 0.3 is 0.4, the
smallest, and it lies above the target. That makes it the ceiling. The floor
is the previous sorted position clamped at 0 (solid_attenuator/calculator.py:132-134),
which is the same row.

## Model

| member | source | states |
|---|---|---|
| Common.Rint | solid_attenuator/calculator.py:415 | `np.rint`: within 0.5 of its argument, and even on a tie |
| Common.RintNearest | solid_attenuator/calculator.py:415 | no integer is closer to the argument than its rounding |
| Common.NanProdUpdate | solid_attenuator/ioc_lfe_at2l0_calc/db/system.py:87-95 | filling one NaN entry with `v` multiplies the `nanprod` by `v` |
| Common.NanProdUnit | solid_attenuator/calculator.py:104-105 | a `nanprod` of transmissions in (0, 1] lies in (0, 1] |
| Sequences.StableArgsort | ioc-satt-dev/satt_app.py:141-143 | Python's `sorted` by key: an ascending permutation that keeps equal keys in index order |
| Sequences.SortsByUnique | solid_attenuator/calculator.py:112-113 | any two ascending orders of the same keys give the same sorted values |
| Sequences.FirstArgmin | solid_attenuator/calculator.py:117 | `np.argmin`: a minimum, and the first one |
| Cartesian.CartesianProduct | solid_attenuator/calculator.py:53 | `itertools.product`: one row per choice, each entry drawn from its list |
| Cartesian.ProductComplete | solid_attenuator/calculator.py:53 | every choice of one entry per list occurs as a row |
| Cartesian.BinaryRows | solid_attenuator/calculator.py:53 | over `repeat=n` of a two-entry list, row `k` is the `n`-digit binary spelling of `k`, most significant first |
| Cartesian.BinaryProductAt | solid_attenuator/calculator.py:53 | over `repeat=n` of a two-entry list, entry `j` of row `k` is chosen by bit `n-1-j` of `k` |
| Text.Pad2 | ioc-satt-dev/satt_app.py:99 | `str(i).zfill(2)`: single digits get a leading zero, other integers print as they are |
| Text.Pad2Injective | ioc-satt-dev/satt_app.py:95-100 | distinct indices give distinct two-digit keys |
| Text.ParseBinary | solid_attenuator/ioc_lfe_at2l0_calc/db/system.py:38 | `int(s, 2)`: a binary literal with an optional sign; `ValueError` when empty or when any digit is 2 to 9 |
| Calculator.ResolveMode | solid_attenuator/calculator.py:182-183 | `ConfigMode[name]` for a string, `KeyError` unless the name is `Floor` or `Ceiling` |
| Calculator.InOutCombinations | solid_attenuator/calculator.py:42-53 | 2^n rows of n blades each |
| Calculator.CombinationsAreProduct | solid_attenuator/calculator.py:53 | the rows are `itertools.product([nan, 1], repeat=n)` in product order |
| Calculator.CombinationComplete | solid_attenuator/calculator.py:42-53 | every in/out pattern occurs, at the row given by its big-endian value |
| Calculator.CombinationsDistinct | solid_attenuator/calculator.py:42-53 | no pattern occurs twice |
| Calculator.CombinationEnds | solid_attenuator/calculator.py:42-53 | row 0 is all out and the last row all in |
| Calculator.ProductIs | solid_attenuator/calculator.py:104-105 | table entry `k` is the `nanprod` of the transmissions masked by row `k` |
| Calculator.FilterStates | solid_attenuator/calculator.py:145 | `nan_to_num(row).astype(int)`: 1 for an inserted blade, 0 for a removed one |
| Calculator.MakeConfig | solid_attenuator/calculator.py:119-122 | a returned configuration's transmission is the product over the blades its states insert |
| Calculator.Closest | solid_attenuator/calculator.py:117 | the first position of a sorted product nearest the target |
| Calculator.Neighbours | solid_attenuator/calculator.py:129-138 | below the target the floor is the closest row and the ceiling the next one, clamped to the end; above it the floor is the previous row, clamped to 0, and the ceiling the closest; on the target both are the closest |
| Calculator.FindConfigsWith | solid_attenuator/calculator.py:79-150 | both results are reachable configurations, and floor transmission ≤ ceiling transmission |
| Calculator.FindConfigs | solid_attenuator/calculator.py:112 | the same for a stable ascending order (`Sequences.StableArgsort`), which is one of the orders numpy's argsort may produce; `Calculator.TieIndependent` shows every such order gives the same transmissions |
| Calculator.SelectedPositions | solid_attenuator/calculator.py:109-141 | the results are the products at the floor and ceiling positions around the nearest one |
| Calculator.NothingBetween | solid_attenuator/calculator.py:129-138 | no product lies strictly between the floor and the ceiling |
| Calculator.OneIsNearest | solid_attenuator/calculator.py:117-125 | one of the two results is as close to the target as every product |
| Calculator.ExactMatch | solid_attenuator/calculator.py:135-138 | a product equal to the target is returned as floor and ceiling |
| Calculator.FloorAbove | solid_attenuator/calculator.py:132-134 | the floor is above the target only when every product is, and then floor = ceiling |
| Calculator.CeilingBelow | solid_attenuator/calculator.py:129-131 | a ceiling below the target comes with floor = ceiling |
| Calculator.AllBelow | solid_attenuator/calculator.py:129-131 | with every product below the target, floor and ceiling are the largest product |
| Calculator.CeilingBelowDistinct | solid_attenuator/calculator.py:129-131 | with distinct products, the ceiling is below the target only when every product is |
| Calculator.Bracket | solid_attenuator/calculator.py:112-141 | with distinct products and the target in their range, floor ≤ target ≤ ceiling |
| Calculator.TieIndependent | solid_attenuator/calculator.py:112-113 | the transmissions returned do not depend on how the sort orders equal products |
| Calculator.AllStuck | solid_attenuator/calculator.py:100-105 | with every blade stuck, both results transmit 1.0 |
| Calculator.MaskBounds | solid_attenuator/calculator.py:104-105 | every product lies between the all-in product and 1.0 |
| Calculator.AllInLast | solid_attenuator/calculator.py:53 | the last row's product is that of every working blade |
| Calculator.AllInBelow | solid_attenuator/calculator.py:104-105 | no product is below the all-in product |
| Calculator.BelowReach | solid_attenuator/calculator.py:129-141 | a target below the all-in product yields the all-in product as floor and ceiling |
| Calculator.AllInFirst | solid_attenuator/calculator.py:112-113 | every ascending order starts at the all-in product |
| Calculator.LeastFirst | solid_attenuator/calculator.py:129-134 | with the least product above the target, the nearest is at position 0 and both neighbours are it |
| Calculator.ThreeBladeExample | solid_attenuator/calculator.py:79-150 | blades 0.5, 0.8 and a stuck one, target 0.3: floor and ceiling are both 0.4 |
| Calculator.GetBestConfig | solid_attenuator/calculator.py:153-187 | `KeyError` for an unknown mode name; otherwise the floor in `Floor` mode and the ceiling otherwise |
| Calculator.FloorBelowCeiling | solid_attenuator/calculator.py:182-187 | the `Floor` result never transmits more than the `Ceiling` one, and the name `"Floor"` acts as the enum member |
| MaterialPriority.IndicesOf | solid_attenuator/calculator.py:242-246 | the positions of one material's blades, ascending, all of them |
| MaterialPriority.Solve | solid_attenuator/calculator.py:249-253 | the partial search returns a reachable configuration with positive transmission |
| MaterialPriority.Step | solid_attenuator/calculator.py:240-266 | one pass keeps the list lengths and a positive transmission |
| MaterialPriority.PriorityConfig | solid_attenuator/calculator.py:190-268 | `ValueError` when the list lengths differ, `KeyError` for an unknown mode name, otherwise one state per blade |
| MaterialPriority.ScatterProduct | solid_attenuator/calculator.py:255-261 | writing a partial configuration onto removed blades multiplies the transmission by the partial one |
| MaterialPriority.MergeConsistent | solid_attenuator/calculator.py:255-261 | merging a partial configuration keeps the states 0/1 and the transmission equal to their product |
| MaterialPriority.StepKeeps | solid_attenuator/calculator.py:248-266 | one pass writes only the current material's blades, and stops the loop unless all of them are inserted |
| MaterialPriority.PriorityFrame | solid_attenuator/calculator.py:240-261 | blades of materials the order does not name keep their state, for any order, repeated materials included |
| MaterialPriority.PriorityConsistent | solid_attenuator/calculator.py:255-261 | the result's transmission is the product over the blades it inserts |
| MaterialPriority.PriorityOrder | solid_attenuator/calculator.py:263-266 | a blade of a later material is inserted only when every blade of each earlier material is |
| MaterialPriority.RepeatedMaterialCountsTwice | solid_attenuator/calculator.py:240-261 | one blade of 0.5 and the order `["Si", "Si"]`: the second pass takes the blade out again but keeps the first pass's factor 0.5, so the result is not consistent |
| MaterialPriority.PriorityConfigSound | solid_attenuator/calculator.py:197-268 | the three promises together for an order naming each material once |
| MaterialPriority.SingleMaterial | solid_attenuator/calculator.py:240-268 | with one material for every blade, the result is `get_best_config`'s |
| Ladder.BladeOptions | solid_attenuator/calculator.py:301-304 | a blade offers the open slot (transmission 1) and each of its filters |
| Ladder.Table | solid_attenuator/calculator.py:307-309 | every row picks one allowed slot per blade |
| Ladder.RowProducts | solid_attenuator/calculator.py:316 | one product per row |
| Ladder.LadderConfigsWith | solid_attenuator/calculator.py:271-349 | `IndexError` with no blades, otherwise two configurations the blades can reach |
| Ladder.LadderConfigs | solid_attenuator/calculator.py:329 | the same for a stable ascending order of the distances (`Sequences.StableArgsort`), which is one of the orders numpy's argsort may produce; `Ladder.LadderTieIndependent` shows every such order gives the same transmissions |
| Ladder.GetLadderConfig | solid_attenuator/calculator.py:352-388 | `KeyError` for an unknown mode name, `IndexError` with no blades, otherwise the low configuration for `Floor` and the high one for `Ceiling` |
| Ladder.GetLadderConfigBest | solid_attenuator/calculator.py:352-388 | in `Floor` mode no reachable configuration at or below the target comes closer to it than the result; in `Ceiling` mode the same above the target |
| Ladder.RowValid | solid_attenuator/calculator.py:318-325 | every row converts to a reachable configuration |
| Ladder.Reachable | solid_attenuator/calculator.py:307-316 | every reachable configuration's transmission is some row's product |
| Ladder.SortedByDistance | solid_attenuator/calculator.py:329-333 | along the sort, distances to the target do not decrease |
| Ladder.PickedProduct | solid_attenuator/calculator.py:333-348 | the configuration at a sorted position carries that position's product |
| Ladder.LadderFloor | solid_attenuator/calculator.py:334-347 | when some configuration is at or below the target, the low result is too, and is the largest such |
| Ladder.LadderCeiling | solid_attenuator/calculator.py:335-348 | when some configuration is at or above the target, the high result is too, and is the smallest such |
| Ladder.LadderFloorFallback | solid_attenuator/calculator.py:339-341 | with nothing at or below the target, low = high = the smallest product |
| Ladder.LadderCeilingFallback | solid_attenuator/calculator.py:342-344 | with nothing at or above the target, high = low = the largest product |
| Ladder.LadderTieIndependent | solid_attenuator/calculator.py:329 | the transmissions returned do not depend on how the sort orders equal distances |
| Energy.RawIndex | solid_attenuator/calculator.py:414-415 | the nearest integer to the offset over the increment; a zero increment fails as numpy's division would |
| Energy.Clamp | solid_attenuator/calculator.py:416-419 | a negative index becomes 0 and one at or past the end becomes -1, always a valid index |
| Energy.FindClosestEnergy | solid_attenuator/calculator.py:391-422 | `IndexError` on an empty table; otherwise a valid index and the energy in that row |
| Energy.BelowTable | solid_attenuator/calculator.py:416-417 | at or below the first energy of an ascending table, row 0 |
| Energy.AboveTable | solid_attenuator/calculator.py:418-419 | at or above the last energy, the last row as index -1 |
| Energy.IncrementAsWritten | solid_attenuator/calculator.py:414 | 20 eV in a table of 10, 20 and 30 eV finds 30 eV |
| Energy.FindClosestEnergyCorrected | solid_attenuator/calculator.py:412-422 | the lookup with the span divided by the number of gaps |
| Energy.CorrectedNearest | solid_attenuator/calculator.py:393-394 | on an evenly spaced table the corrected lookup finds a nearest row |
| Energy.CorrectedExact | solid_attenuator/calculator.py:393-394 | a tabulated energy finds its own row |
| Configurations.InOutAttenuator | configurations.py:11-16 | 2^N rows of N entries, each NaN or 1 |
| Configurations.AttenuatorIsCombinations | configurations.py:16 | the table is `in_out_combinations` with NaN for out and 1 for in |
| Configurations.AttenuatorAt | configurations.py:16 | entry `j` of row `k` is 1 exactly when bit `N-1-j` of `k` is set |
| Configurations.AttenuatorEnds | configurations.py:16 | the first row is all NaN and the last all 1 |
| LegacyCalculator.MaterialConstants | ioc-satt-dev/calculator.py:296-300 | explicit constants win; missing ones resolve only for `Si` and `C`, otherwise `KeyError` |
| LegacyCalculator.LowerCaseNeedsConstants | ioc-satt-dev/calculator.py:27-40 | the lookup is by exact formula: `si` needs both constants given |
| LegacyCalculator.RowConfig | ioc-satt-dev/calculator.py:124-125 | a NaN/1 row weighted by the transmissions gives the main calculator's configuration |
| LegacyCalculator.WeightedRow | ioc-satt-dev/calculator.py:108-109 | the legacy products are the main calculator's |
| LegacyCalculator.FindConfigsWith | ioc-satt-dev/calculator.py:83-153 | one state per blade in each result |
| LegacyCalculator.FindConfigs | ioc-satt-dev/calculator.py:113-116 | the same for a stable ascending order (`Sequences.StableArgsort`), one of the orders numpy's argsort may produce; `LegacyCalculator.AsWrittenAgreement` relates every such order to the main calculator |
| LegacyCalculator.AsWrittenAgreement | ioc-satt-dev/calculator.py:121-144 | floor and ceiling transmission agree with the main calculator |
| LegacyCalculator.AsWrittenCeilingStates | ioc-satt-dev/calculator.py:139-151 | above the target, the ceiling's removed blades read as the smallest int64 instead of 0 |
| LegacyCalculator.CeilingStatesAsWritten | ioc-satt-dev/calculator.py:141 | one blade 0.5, target 0.9: the ceiling's state is the smallest int64 |
| LegacyCalculator.FindConfigsCorrected | ioc-satt-dev/calculator.py:121-153 | the search with NaN mapped to 0 before the cast |
| LegacyCalculator.CorrectedIsMain | ioc-satt-dev/calculator.py:83-153 | the corrected search is the main calculator's `find_configs` |
| LegacyCalculator.GetBestConfig | ioc-satt-dev/calculator.py:156-172 | `KeyError` for an unknown mode name; the floor is the main calculator's floor; the ceiling is the as-written ceiling configuration, with the main calculator's transmission and its states except that removed blades read as the smallest int64 when the nearest product lies above the target |
| LegacyCalculator.AllCeilingStates | ioc-satt-dev/calculator.py:139-151 | at every blade, the as-written ceiling state is the main calculator's, or the smallest int64 for a removed blade when the nearest product lies above the target |
| LegacyCalculator.Lookup | ioc-satt-dev/calculator.py:200-205 | `IndexError` exactly when the raw index equals the table length |
| LegacyCalculator.LookupAgrees | ioc-satt-dev/calculator.py:200-203 | the `>` clamp agrees with the main calculator's `>=` except at the table length |
| LegacyCalculator.FindClosestEnergy | ioc-satt-dev/calculator.py:175-206 | when it succeeds, a valid index and the energy in that row |
| LegacyCalculator.EnergyAgreement | ioc-satt-dev/calculator.py:196-206 | the legacy lookup gives the main one's answer, or `IndexError` where that uses the last row |
| LegacyCalculator.EnergyPastEnd | ioc-satt-dev/calculator.py:202 | 20 eV in a table of 10 and 20 eV raises `IndexError` |
| SattApp.FilterAt | ioc-satt-dev/satt_app.py:95-100 | the group keyed by the zero-padded index, `KeyError` when absent |
| SattApp.FilterKeysDistinct | ioc-satt-dev/satt_app.py:99 | distinct indices name distinct groups |
| SattApp.TCalc | ioc-satt-dev/satt_app.py:48-61 | `KeyError` exactly when a filter group is missing |
| SattApp.TCalc3Omega | ioc-satt-dev/satt_app.py:63-76 | the same at the third harmonic |
| SattApp.UnstuckIsNanProd | ioc-satt-dev/satt_app.py:55-61 | for any reading of a filter, the loop's product over unstuck filters is the `nanprod` of the readings with NaN at the stuck ones |
| SattApp.TCalc3OmegaIsNanProd | ioc-satt-dev/satt_app.py:68-76 | `t_calc_3omega` is the `nanprod` of the third-harmonic readings, NaN exactly at the stuck filters |
| SattApp.AllTransmissions | ioc-satt-dev/satt_app.py:78-93 | length N, NaN exactly at stuck filters and the transmission elsewhere |
| SattApp.TCalcIsNanProd | ioc-satt-dev/satt_app.py:55-61 | `t_calc` is the `nanprod` of `all_transmissions`: stuck blades count as out |
| SattApp.CalcClosestEv | ioc-satt-dev/satt_app.py:102-109 | `IndexError` exactly when the table is empty or the raw index equals its length |
| SattApp.CalcClosestEvPastEnd | ioc-satt-dev/satt_app.py:106 | 20 eV with minimum 10 and increment 5 in a two-row table raises `IndexError` |
| SattApp.Target | ioc-satt-dev/satt_app.py:126-127 | a missing or zero target is replaced by the system's |
| SattApp.TableScores | ioc-satt-dev/satt_app.py:136-137 | one `nanprod` per table row |
| SattApp.SelectAt | ioc-satt-dev/satt_app.py:149-174 | `IndexError` exactly when the nearest row lies below the target at the last position; otherwise both results have one state per filter |
| SattApp.SelectAgreement | ioc-satt-dev/satt_app.py:156-174 | against the clamped neighbours: the ceiling's transmission agrees, the floor differs only at the wrap from position 0, and `IndexError` only at the last position below the target |
| SattApp.FindConfigs | ioc-satt-dev/satt_app.py:116-174 | `IndexError` on an empty table, whose sorted form cannot be indexed by column, and `IndexError` for every other failure; `AsWrittenAgreement`, `AsWrittenLowStates` and `AsWrittenHighStates` relate its results to the corrected search |
| SattApp.FindConfigsCorrected | ioc-satt-dev/satt_app.py:156-174 | fails only on an empty table |
| SattApp.CorrectedOrdered | ioc-satt-dev/satt_app.py:156-174 | the corrected floor never lies above the corrected ceiling |
| SattApp.CorrectedIsMain | ioc-satt-dev/satt_app.py:116-174 | on the full in/out table, the corrected search is the main calculator's |
| SattApp.ScoresAreProducts | ioc-satt-dev/satt_app.py:136-137 | the table's products are the main calculator's |
| SattApp.AsWrittenAgreement | ioc-satt-dev/satt_app.py:156-174 | the ceiling's transmission agrees; the floor differs only when the nearest product is first and above the target, and then it is the largest product; `IndexError` only when the nearest is last and below |
| SattApp.FloorWraps | ioc-satt-dev/satt_app.py:168-172 | one blade 0.5, target 0.2: floor 1.0 above ceiling 0.5 |
| SattApp.AsWrittenLowStates | ioc-satt-dev/satt_app.py:156-174 | outside the wrap-round case the floor's states are the corrected search's |
| SattApp.AsWrittenHighStates | ioc-satt-dev/satt_app.py:156-174 | the ceiling's states are the corrected search's, except that when the nearest product lies above the target the ceiling row's NaN entries read as the smallest int64 |
| SattApp.AsWrittenHighRow | ioc-satt-dev/satt_app.py:160-172 | the ceiling row is cast directly when the nearest product lies above the target and through `nan_to_num` otherwise |
| SattApp.AboveCase | ioc-satt-dev/satt_app.py:168-172 | nearest product above the target and not first: the floor is the previous sorted row and the ceiling the nearest row cast directly |
| SattApp.CeilingCastAsWritten | ioc-satt-dev/satt_app.py:169 | one blade 0.5, target 0.9: ceiling states `[-9223372036854775808]` |
| SattApp.GetConfig | ioc-satt-dev/satt_app.py:176-189 | searches with the system's target and echoes the argument; the floor's states and transmission for `"Floor"`, the ceiling's otherwise |
| SattApp.GetConfigIgnoresTarget | ioc-satt-dev/satt_app.py:182-185 | the configuration returned does not depend on the argument |
| CaprotoSattApp.TCalc | caproto/ioc-satt-dev/satt_app.py:39-44 | `KeyError` exactly when a group or its `T` PV is missing |
| CaprotoSattApp.Readings | caproto/ioc-satt-dev/satt_app.py:42 | each filter's `T` reading |
| CaprotoSattApp.TCalcIsProduct | caproto/ioc-satt-dev/satt_app.py:39-44 | the total is the product of every reading, with no stuck exclusion |
| CaprotoSattApp.TCalcBounds | caproto/ioc-satt-dev/satt_app.py:39-44 | readings in (0, 1] give a total in (0, 1] |
| At2l0System.StateFromMotor | solid_attenuator/ioc_lfe_at2l0_calc/db/system.py:19-23 | raw 0 and 1 read as `Out`, raw 2 as `In`, any other raw value unchanged |
| At2l0System.StateToMotor | solid_attenuator/ioc_lfe_at2l0_calc/db/system.py:25-28 | the raw value requesting a state is 1 or 2 |
| At2l0System.MotorRoundTrip | solid_attenuator/ioc_lfe_at2l0_calc/db/system.py:19-28 | requesting a state and reading it back gives that state |
| At2l0System.StateToMotorInjective | solid_attenuator/ioc_lfe_at2l0_calc/db/system.py:25-28 | the two states request different raw values |
| At2l0System.IntArrayToBitString | solid_attenuator/ioc_lfe_at2l0_calc/db/system.py:31-40 | an empty list gives 0 |
| At2l0System.StrayDigitGivesZero | solid_attenuator/ioc_lfe_at2l0_calc/db/system.py:37-40 | an entry from 2 to 9 gives 0 |
| At2l0System.BitStringOfZeroOne | solid_attenuator/ioc_lfe_at2l0_calc/db/system.py:31-38 | a non-empty 0/1 list reads big-endian, first entry most significant |
| At2l0System.EightExample | solid_attenuator/ioc_lfe_at2l0_calc/db/system.py:33 | `[1, 0, 0, 0]` gives 8 |
| At2l0System.NegativeLeadAsWritten | solid_attenuator/ioc_lfe_at2l0_calc/db/system.py:38 | `[-1, 0, 1]` gives -5 |
| At2l0System.WideEntryAsWritten | solid_attenuator/ioc_lfe_at2l0_calc/db/system.py:38 | `[1, 10]` gives 6 |
| At2l0System.BitmaskCorrected | solid_attenuator/ioc_lfe_at2l0_calc/db/system.py:35 | 0 whenever an entry is not 0 or 1; otherwise the value as written |
| At2l0System.BitmaskCorrectedValue | solid_attenuator/ioc_lfe_at2l0_calc/db/system.py:33-35 | the corrected bitmask of a 0/1 list is its big-endian value |
| At2l0System.MotorHasMoved | solid_attenuator/ioc_lfe_at2l0_calc/db/system.py:50-96 | only position `idx` changes, in both lists; the reported state and the moving flag are set there; each bitmask is written, as the list's bit string, exactly when its list changed; a changed configuration has its actual transmissions recomputed and written; an index outside the configuration raises `IndexError` before any write, a failing recomputation raises it after the configuration is written and before the moving flags, and an index outside only the moving flags raises it last |
| At2l0System.MotorHasMovedIdempotent | solid_attenuator/ioc_lfe_at2l0_calc/db/system.py:64-80 | a repeated report writes no configuration, bitmask or transmission and raises exactly when the index is outside a list; after a report that raised nothing it writes nothing; a third report writes nothing |
| At2l0System.SettledReport | solid_attenuator/ioc_lfe_at2l0_calc/db/system.py:64-80 | reporting the state the configuration already holds writes only the moving flags |
| At2l0System.ActiveArray | solid_attenuator/ioc_lfe_at2l0_calc/db/system.py:87-93 | `IndexError` exactly when a working filter's position is outside the configuration |
| At2l0System.ActiveTransmission | solid_attenuator/ioc_lfe_at2l0_calc/db/system.py:82-96 | `IndexError` exactly when a working filter's position is outside the configuration |
| At2l0System.ActiveArrayUntouched | solid_attenuator/ioc_lfe_at2l0_calc/db/system.py:87-93 | positions no working filter maps to stay NaN |
| At2l0System.ActiveIsInsertedProduct | solid_attenuator/ioc_lfe_at2l0_calc/db/system.py:82-96 | the actual transmission is the product over the inserted working filters |
| At2l0System.NoneInserted | solid_attenuator/ioc_lfe_at2l0_calc/db/system.py:89-95 | with no working filter inserted the transmission is 1.0 |
| At2l0System.RunCalculation | solid_attenuator/ioc_lfe_at2l0_calc/db/system.py:99-154 | `KeyError` for an unknown energy source; no calculation when the material check fails; otherwise the material-priority search with AT2L0's order and its error from the target |
| At2l0System.RunCalculationSound | solid_attenuator/ioc_lfe_at2l0_calc/db/system.py:142-154 | the best configuration has 0/1 states, its bitmask is their big-endian value, and its error is the inserted blades' product minus the target |
| At2l0System.ToMove | solid_attenuator/ioc_lfe_at2l0_calc/db/system.py:183-188 | every entry is the set PV of a blade whose active and best states call for the move, and every such blade's PV is an entry |
| At2l0System.ToMoveIndices | solid_attenuator/ioc_lfe_at2l0_calc/db/system.py:183-188 | the entries are the set PVs of the wanted blades, drawn at strictly increasing positions that cover every wanted blade: the in-order filter of the zipped lists |
| At2l0System.PositionsDrawn | solid_attenuator/ioc_lfe_at2l0_calc/db/system.py:183-188 | entry `k` of the list is the set PV of the `k`-th wanted blade position, and the list is as long as the positions |
| At2l0System.PositionsIncreasing | solid_attenuator/ioc_lfe_at2l0_calc/db/system.py:183-188 | the wanted positions come in blade order |
| At2l0System.PositionsCover | solid_attenuator/ioc_lfe_at2l0_calc/db/system.py:183-188 | no wanted blade of the zipped lists is skipped |
| At2l0System.IssuePuts | solid_attenuator/ioc_lfe_at2l0_calc/db/system.py:191-207 | puts a prefix of the PVs and records each with the target; no PV put was recorded with the target before, and the pass stops exactly at the first PV that was, or that it already put |
| At2l0System.Puts | solid_attenuator/ioc_lfe_at2l0_calc/db/system.py:196-206 | each put sends the target's raw motor value |
| At2l0System.MoveBladeStep | solid_attenuator/ioc_lfe_at2l0_calc/db/system.py:165-209 | blades go in first, and out only when none go in: the puts and recorded state are one pass over the blades to insert, else over the blades to remove, else nothing; returns whether any blade needs moving |
| At2l0System.MoveBladeStepIssues | solid_attenuator/ioc_lfe_at2l0_calc/db/system.py:189-207 | the first blade to move is put first unless it is already recorded with its target, and every put is recorded with the state it requests |
| At2l0System.MoveBladeStepSettles | solid_attenuator/ioc_lfe_at2l0_calc/db/system.py:189-207 | a repeat call with the recorded state issues no puts |
| At2l0Ioc.CheckMaterials | solid_attenuator/ioc_lfe_at2l0_calc/at2l0.py:29-39 | true exactly when every filter material is C or Si and both occur |
| At2l0Ioc.CheckMaterialsExamples | solid_attenuator/ioc_lfe_at2l0_calc/at2l0.py:31-33 | repeats and order do not matter; a missing or extra material fails |
| At2l0Ioc.FilterIndexToAttribute | solid_attenuator/ioc_lfe_at2l0_calc/at2l0.py:146-149 | each index maps to `filter_` + its suffix, and no other key exists |
| At2l0Ioc.Lowest | solid_attenuator/ioc_lfe_at2l0_calc/at2l0.py:157 | the smallest index of the group |
| At2l0Ioc.Highest | solid_attenuator/ioc_lfe_at2l0_calc/at2l0.py:158 | the largest index of the group |
| At2l0Ioc.MotorPvs | solid_attenuator/ioc_lfe_at2l0_calc/at2l0.py:159-168 | one motor PV per index from the lowest up |
| At2l0Ioc.CreateIoc | solid_attenuator/ioc_lfe_at2l0_calc/at2l0.py:146-172 | `ValueError` on an empty group; the attribute map has exactly the group's indices, each naming `filter_` + its suffix; the get, set and error lists name the motor of every index from the lowest to the highest, gaps included; the filter count and first filter |
| At2l0Ioc.MotorOfFilter | solid_attenuator/ioc_lfe_at2l0_calc/at2l0.py:157-172 | each filter's motor PVs sit at its index minus `first_filter` |
| At2l0Ioc.MotorPvsDistinct | solid_attenuator/ioc_lfe_at2l0_calc/at2l0.py:159-162 | distinct indices give distinct motor PVs |

## Left out

- The caproto copy of `calc_closest_eV` (caproto/ioc-satt-dev/satt_app.py:46-53) is the same text as ioc-satt-dev/satt_app.py:102-109, so it has no member of its own: SattApp.CalcClosestEv models both.
- Absorption tables and transmission physics are left out. This covers `get_absorption_table`'s μ formula, `_fill_data_linear`, `nff_to_npy`, `get_transmission`, the CXRO files, scipy interpolation and floating-point constants. Per-blade transmissions are inputs. Of `get_absorption_table`, only the material lookup is modelled.
- I/O is not modelled: HDF5 reading and writing (`load_configs`, `write_h5`), command-line arguments of `configurations.py`, printing, and logging.
- caproto PV plumbing is not modelled: PV reads and writes, alarms, the put queue, autosave and reentry guards. Operations take PV values as arguments and return the values they would write.
- `transmission_value_error` is not modelled. It is never called by the modelled code.
- `lru_cache` is not modelled; it has no effect on results.
- `Config.__repr__`/`__str__` and `print_config` are not modelled; they only format text.
- `SystemGroup.run_calculation` in `at2l0.py` is not modelled. It repeats the `system.py` version but converts states through `State.from_filter_index` and `util.int_array_to_bit_string`, and `solid_attenuator/util.py` is not part of this model.
- `run_calculation` is modelled without the per-filter `set_photon_energy` updates, which read absorption tables.
- `Calculator.FindConfigsWith`, `Ladder.LadderConfigsWith`, `LegacyCalculator.FindConfigsWith`: which of several equal products numpy's quicksort puts first is left open. These take the sort order as a parameter, and the transmissions are proved independent of it.
- `Calculator.FindConfigs`, `Ladder.LadderConfigs`, `LegacyCalculator.FindConfigs`: fix `Sequences.StableArgsort` as that order. This is one admissible order, not numpy's.
- `MaterialPriority.PriorityConfig`: requires every working transmission to lie in (0, 1] (`Common.Fractions`). A zero transmission would make the next target a division by zero.
- `At2l0System.RunCalculation`: requires every working transmission to lie in (0, 1] (`Common.Fractions`), for the same reason.
- `MaterialPriority.PriorityConfigSound`: stated for an order that names each material once. With a repeated material the second pass solves the same blades again, so the transmission can count a blade twice (`MaterialPriority.RepeatedMaterialCountsTwice`).
- `MaterialPriority.PriorityConsistent`: stated for an order that names each material once, for the same reason; `MaterialPriority.RepeatedMaterialCountsTwice` shows a repeated material leaving a transmission that no longer matches the states.
- `MaterialPriority.PriorityOrder`: stated for an order that names each material once. With `[m, n, m]` a partial pass of `n` leaves `m` inserted from the first pass, so a material named after `n` is in while `n` is not fully in.
- `SattApp.CalcClosestEv`: requires a non-zero energy increment. The source's division by zero depends on whether the arguments are numpy or Python floats, which the model does not track.
- `SattApp.FindConfigs`, `SattApp.TableScores`, `SattApp.GetConfig`: the model restricts the table to one column per filter. numpy also broadcasts a table of width 1, or a single filter against a wider table, without error. Those shapes multiply every column by the same value; the model does not cover them, to keep one state per filter in each result.
- `At2l0Ioc.CreateIoc`, `At2l0Ioc.FilterIndexToAttribute`: take the filter group as a list of (index, suffix) pairs with distinct indices, which is what a dictionary guarantees.
- `At2l0System.ActiveTransmission`: the working filters are a list of (index, blade) pairs.
- `At2l0System.ActiveIsInsertedProduct` is stated for filters at distinct positions, which a dictionary keyed by index guarantees.
- Integer widths are not modelled except where the source casts NaN to int64. Python integers are unbounded, and numpy float64 rounding is not modelled: transmissions are exact reals.

## Findings

| source | as written | input that shows it | evidently intended | confidence | as-written member | corrected member |
|---|---|---|---|---|---|---|
| solid_attenuator/calculator.py:414 | the energy increment is the span divided by the number of rows | table 10, 20, 30 eV and 20 eV: increment 20/3, raw index 1.5 rounds to 2, giving 30 eV | divide by the number of gaps, so a tabulated energy finds its own row | not executed | Energy.IncrementAsWritten | Energy.FindClosestEnergyCorrected |
| ioc-satt-dev/calculator.py:141 | above the target the ceiling is `closest.astype(np.int)`, so removed blades (NaN) become the smallest int64 before `nan_to_num` | one blade of 0.5, target 0.9: ceiling states `[-9223372036854775808]` | states 0 for removed blades, as on the floor side and in the main calculator | not executed | LegacyCalculator.CeilingStatesAsWritten | LegacyCalculator.FindConfigsCorrected |
| ioc-satt-dev/calculator.py:202 | the end clamp tests `>` the table length | table 10 and 20 eV and 20 eV: raw index 2 equals the length, and `table[2, 0]` raises `IndexError` | `>=`, as in solid_attenuator/calculator.py:418 | not executed | LegacyCalculator.EnergyPastEnd | Energy.FindClosestEnergy |
| ioc-satt-dev/satt_app.py:106 | `calc_closest_eV` tests `>` the table length (the caproto copy does too, at caproto/ioc-satt-dev/satt_app.py:50) | table 10 and 15 eV, minimum 10, increment 5, 20 eV: raw index 2 raises `IndexError` | `>=`, so the last row is used | not executed | SattApp.CalcClosestEvPastEnd | Energy.Clamp |
| ioc-satt-dev/satt_app.py:169 | above the target the ceiling is `closest.astype(np.int)`, so removed blades (NaN) become the smallest int64 before `nan_to_num` | one blade of 0.5, target 0.9: nearest 1.0 is above the target, and the ceiling states are `[-9223372036854775808]` | states 0 for removed blades, as on the floor side | not executed | SattApp.CeilingCastAsWritten | SattApp.FindConfigsCorrected |
| ioc-satt-dev/satt_app.py:170 | the floor is row `i-1` with no clamp, and position -1 is the largest product | one blade of 0.5 and target 0.2: nearest 0.5 is above the target at position 0, so the floor is 1.0 and lies above the ceiling of 0.5 | clamp to position 0, as the main calculator does | not executed | SattApp.FloorWraps | SattApp.FindConfigsCorrected |
| solid_attenuator/ioc_lfe_at2l0_calc/db/system.py:38 | non-binary entries are caught only when their printed digits fail `int(s, 2)` | `[-1, 0, 1]` prints `-101` and gives -5; `[1, 10]` prints `110` and gives 6 | 0 whenever an entry is not 0 or 1, as the docstring says | not executed | At2l0System.NegativeLeadAsWritten | At2l0System.BitmaskCorrected |

The corrected energy lookup is proved to find a nearest row
(`Energy.CorrectedNearest`) and to find a tabulated energy's own row
(`Energy.CorrectedExact`). The corrected legacy search is the main
calculator's (`LegacyCalculator.CorrectedIsMain`). The corrected `satt_app`
search keeps floor ≤ ceiling (`SattApp.CorrectedOrdered`) and equals the main
calculator on the full table (`SattApp.CorrectedIsMain`). `Energy.Clamp`
always gives a valid index. The corrected bitmask is the big-endian value of
a 0/1 list (`At2l0System.BitmaskCorrectedValue`).

For every table, `SattApp.AsWrittenHighStates` states which ceiling states
the cast at `ioc-satt-dev/satt_app.py:169` changes. The
`IndexError` of `satt_app`'s `find_configs` at `i+1` (line 163) is
characterised by `SattApp.AsWrittenAgreement`.

=== FILE: at2l0_ioc.dfy ===
/** The AT2L0 IOC set-up (`solid_attenuator/ioc_lfe_at2l0_calc/at2l0.py`):
    its fixed material order and material check, and the names `create_ioc`
    derives from the filter group: one attribute per filter, and one motor
    state PV triple per index from the lowest to the highest filter. The
    caproto groups themselves are not modelled. */
module At2l0Ioc {

  import opened Common
  import opened Text

  /** The material priority of AT2L0, diamond before silicon. */
  const MaterialOrder: seq<string> := ["C", "Si"]

  /** `check_materials`: the materials of the filters are exactly those of
      the material order, as sets (the symmetric difference is empty). */
  function CheckMaterials(materials: seq<string>): (ok: bool)
    ensures ok <==> (forall k :: 0 <= k < |materials| ==> materials[k] in MaterialOrder) &&
                    (forall m :: m in MaterialOrder ==> m in materials)
  {
    var have := set k | 0 <= k < |materials| :: materials[k];
    var want := set m | m in MaterialOrder;
    assert forall m :: m in have <==> m in materials by {
      forall m | m in materials
        ensures m in have
      {
        var k :| 0 <= k < |materials| && materials[k] == m;
      }
    }
    assert forall k :: 0 <= k < |materials| ==> materials[k] in have;
    assert forall m :: m in want <==> m in MaterialOrder;
    assert have != want ==> exists m :: (m in have && m !in want) || (m in want && m !in have);
    have == want
  }

  /** Repeating a material or listing them in another order does not
      change the check, but a third material or a missing one fails it. */
  lemma CheckMaterialsExamples()
    ensures CheckMaterials(["Si", "C", "C", "Si"])
    ensures !CheckMaterials(["C"])
    ensures !CheckMaterials(["C", "Si", "B4C"])
  {
    var xs := ["Si", "C", "C", "Si"];
    assert xs[1] == "C" && xs[0] == "Si";
    assert MaterialOrder[0] == "C" && MaterialOrder[1] == "Si";
    assert "Si" !in ["C"];
    assert "B4C" !in MaterialOrder;
    assert ["C", "Si", "B4C"][2] == "B4C";
  }

  /** The filter group: filter index and the suffix of its PV group, in
      dictionary order. */
  type FilterGroup = seq<(int, string)>

  predicate DistinctKeys(group: FilterGroup) {
    forall a, b :: 0 <= a < b < |group| ==> group[a].0 != group[b].0
  }

  predicate HasKey(group: FilterGroup, index: int) {
    exists a :: 0 <= a < |group| && group[a].0 == index
  }

  /** `filter_index_to_attribute`: each index names its attribute
      `filter_<suffix>`. */
  function FilterIndexToAttribute(group: FilterGroup): (m: map<int, string>)
    requires DistinctKeys(group)
    ensures forall index :: index in m <==> HasKey(group, index)
    ensures forall a :: 0 <= a < |group| ==> group[a].0 in m && m[group[a].0] == "filter_" + group[a].1
  {
    if |group| == 0 then map[]
    else
      var last := |group| - 1;
      var init := group[..last];
      assert forall a :: 0 <= a < last ==> init[a] == group[a];
      var m := FilterIndexToAttribute(init);
      m[group[last].0 := "filter_" + group[last].1]
  }

  /** The smallest and largest index of a non-empty group. */
  function Lowest(group: FilterGroup): (low: int)
    requires |group| > 0
    ensures HasKey(group, low)
    ensures forall a :: 0 <= a < |group| ==> low <= group[a].0
  {
    if |group| == 1 then group[0].0
    else
      var rest := Lowest(group[1..]);
      assert forall a :: 1 <= a < |group| ==> group[a] == group[1..][a - 1];
      Common.Min(group[0].0, rest)
  }

  function Highest(group: FilterGroup): (high: int)
    requires |group| > 0
    ensures HasKey(group, high)
    ensures forall a :: 0 <= a < |group| ==> group[a].0 <= high
  {
    if |group| == 1 then group[0].0
    else
      var rest := Highest(group[1..]);
      assert forall a :: 1 <= a < |group| ==> group[a] == group[1..][a - 1];
      Common.Max(group[0].0, rest)
  }

  /** The state PV of motor `index`: the index printed with at least two
      digits (`{idx:02d}`). */
  function MotorPrefix(motorPrefix: string, index: int): string {
    motorPrefix + Pad2(index) + ":STATE"
  }

  /** What `create_ioc` derives from its arguments. */
  datatype Setup = Setup(attributes: map<int, string>, getPvs: seq<string>, setPvs: seq<string>, errorPvs: seq<string>,
                         numFilters: nat, firstFilter: int)

  /** The motor PVs with one suffix, for the indices `low` upward. The
      ensures only spells out the names; `MotorOfFilter` and
      `MotorPvsDistinct` give them their meaning, one distinct PV per
      motor at its offset. */
  function MotorPvs(motorPrefix: string, low: int, count: nat, suffix: string): (r: seq<string>)
    ensures |r| == count
    ensures forall k :: 0 <= k < count ==> r[k] == MotorPrefix(motorPrefix, low + k) + suffix
  {
    seq(count, k requires 0 <= k < count => MotorPrefix(motorPrefix, low + k) + suffix)
  }

  /** `create_ioc`: the attribute map, the get/set/error motor PVs for every
      index from the lowest to the highest (present in the group or not),
      the number of filters and the first filter index. An empty group has
      no minimum, a `ValueError`. */
  function CreateIoc(motorPrefix: string, group: FilterGroup): (r: Result<Setup>)
    requires DistinctKeys(group)
    ensures r.Success? <==> |group| > 0
    ensures r.Failure? ==> r.error == ValueError
    ensures r.Success? ==> r.value.numFilters == |group| && r.value.firstFilter == Lowest(group)
    ensures r.Success? ==> |r.value.getPvs| == |r.value.setPvs| == |r.value.errorPvs| == Highest(group) - Lowest(group) + 1
    ensures r.Success? ==> forall k :: 0 <= k < |r.value.getPvs| ==>
      r.value.getPvs[k] == MotorPrefix(motorPrefix, Lowest(group) + k) + ":GET_RBV" &&
      r.value.setPvs[k] == MotorPrefix(motorPrefix, Lowest(group) + k) + ":SET" &&
      r.value.errorPvs[k] == MotorPrefix(motorPrefix, Lowest(group) + k) + ":ERR_RBV"
    ensures r.Success? ==> forall index :: index in r.value.attributes <==> HasKey(group, index)
    ensures r.Success? ==> forall a :: 0 <= a < |group| ==>
      group[a].0 in r.value.attributes && r.value.attributes[group[a].0] == "filter_" + group[a].1
  {
    if |group| == 0 then Failure(ValueError)
    else
      var attributes := FilterIndexToAttribute(group);
      var low := Lowest(group);
      var count := Highest(group) - low + 1;
      Success(Setup(attributes,
                    MotorPvs(motorPrefix, low, count, ":GET_RBV"),
                    MotorPvs(motorPrefix, low, count, ":SET"),
                    MotorPvs(motorPrefix, low, count, ":ERR_RBV"),
                    |group|, low))
  }

  /** The motor of filter `group[a]` sits at position `index - first_filter`
      of each motor list, the offset the system group subtracts. */
  lemma MotorOfFilter(motorPrefix: string, group: FilterGroup, a: nat)
    requires DistinctKeys(group) && a < |group|
    ensures var s := CreateIoc(motorPrefix, group).value;
            var p := group[a].0 - s.firstFilter;
            0 <= p < |s.getPvs| &&
            s.getPvs[p] == MotorPrefix(motorPrefix, group[a].0) + ":GET_RBV" &&
            s.setPvs[p] == MotorPrefix(motorPrefix, group[a].0) + ":SET" &&
            s.errorPvs[p] == MotorPrefix(motorPrefix, group[a].0) + ":ERR_RBV"
  {
  }

  /** A string followed by the same suffix determines it. */
  lemma CancelSuffix(x: string, y: string, suffix: string)
    requires x + suffix == y + suffix
    ensures x == y
  {
    assert |x| == |y|;
    assert forall k :: 0 <= k < |x| ==> x[k] == (x + suffix)[k] == (y + suffix)[k] == y[k];
  }

  /** A string preceded by the same prefix determines it. */
  lemma CancelPrefix(prefix: string, x: string, y: string)
    requires prefix + x == prefix + y
    ensures x == y
  {
    assert x == (prefix + x)[|prefix|..];
  }

  /** Different positions of a motor list name different PVs. */
  lemma {:induction false} MotorPvsDistinct(motorPrefix: string, low: int, count: nat, suffix: string, k: nat, l: nat)
    requires k < count && l < count && k != l
    ensures MotorPvs(motorPrefix, low, count, suffix)[k] != MotorPvs(motorPrefix, low, count, suffix)[l]
  {
    var r := MotorPvs(motorPrefix, low, count, suffix);
    if r[k] == r[l] {
      var x := Pad2(low + k);
      var y := Pad2(low + l);
      CancelSuffix(MotorPrefix(motorPrefix, low + k), MotorPrefix(motorPrefix, low + l), suffix);
      CancelSuffix(motorPrefix + x, motorPrefix + y, ":STATE");
      CancelPrefix(motorPrefix, x, y);
      Pad2Injective(low + k, low + l);
    }
  }
}

=== FILE: at2l0_system.dfy ===
/** The blade bookkeeping of the AT2L0 system group
    (`solid_attenuator/ioc_lfe_at2l0_calc/db/system.py`): motor states and
    blade states, the bitmask of a state list, the update when a motor
    reports, the transmission of the inserted blades, the calculation of
    the best configuration, and one step of moving blades toward it. The
    PV writes themselves are
    not modelled; the functions return what would be written. */
module At2l0System {

  import opened Common
  import opened Bits
  import opened Text
  import Sequences
  import Calculator
  import MaterialPriority
  import At2l0Ioc

  /** A blade state; as an `IntEnum` it compares equal to 0 (`Out`) and
      1 (`In`). */
  datatype State = Out | In

  function Value(s: State): int {
    match s
    case Out => 0
    case In => 1
  }

  /** `STATE_FROM_MOTOR.get(value, value)`: raw 0 (unknown) and 1 (out) read
      as `Out`, raw 2 as `In`, and any other raw value is kept as it is. */
  function StateFromMotor(raw: int): (s: int)
    ensures raw in {0, 1} ==> s == Value(Out)
    ensures raw == 2 ==> s == Value(In)
    ensures raw !in {0, 1, 2} ==> s == raw
  {
    if raw == 0 || raw == 1 then Value(Out)
    else if raw == 2 then Value(In)
    else raw
  }

  /** `STATE_TO_MOTOR`: the raw value that requests a state. */
  function StateToMotor(s: State): (raw: int)
    ensures raw in {1, 2}
  {
    match s
    case Out => 1
    case In => 2
  }

  /** Requesting a state and reading the motor back gives that state. */
  lemma MotorRoundTrip(s: State)
    ensures StateFromMotor(StateToMotor(s)) == Value(s)
  {
  }

  /** The two states request different raw values. */
  lemma StateToMotorInjective(s: State, t: State)
    requires StateToMotor(s) == StateToMotor(t)
    ensures s == t
  {
  }

  // ---- bitmask ----

  /** `int_array_to_bit_string`: the entries printed and joined are read as
      a base-2 literal; when that is not one, the result is 0. */
  function IntArrayToBitString(xs: seq<int>): (r: int)
    ensures |xs| == 0 ==> r == 0
  {
    match ParseBinary(JoinDecimal(xs))
    case Success(v) => v
    case Failure(_) => 0
  }

  /** The printed entries include every single-digit entry's digit. */
  lemma {:induction false} JoinedDigit(xs: seq<int>, k: nat)
    requires k < |xs| && 0 <= xs[k] < 10
    ensures exists i :: 0 <= i < |JoinDecimal(xs)| && JoinDecimal(xs)[i] == DigitChar(xs[k])
  {
    var head := Decimal(xs[0]);
    if k == 0 {
      assert head == [DigitChar(xs[0])] by {
        assert JoinDecimal([xs[0]]) == head + JoinDecimal([]);
      }
      assert JoinDecimal(xs)[0] == DigitChar(xs[k]);
    } else {
      JoinedDigit(xs[1..], k - 1);
      var i :| 0 <= i < |JoinDecimal(xs[1..])| && JoinDecimal(xs[1..])[i] == DigitChar(xs[1..][k - 1]);
      assert JoinDecimal(xs)[|head| + i] == DigitChar(xs[k]);
    }
  }

  /** A state list with an entry from 2 to 9 prints a digit that is not
      binary, so the bitmask is 0. */
  lemma StrayDigitGivesZero(xs: seq<int>, k: nat)
    requires k < |xs| && 2 <= xs[k] < 10
    ensures IntArrayToBitString(xs) == 0
  {
    JoinedDigit(xs, k);
    var i :| 0 <= i < |JoinDecimal(xs)| && JoinDecimal(xs)[i] == DigitChar(xs[k]);
    assert '2' <= JoinDecimal(xs)[i] <= '9';
  }

  /** The 0/1 entries of a state list as bits. */
  function AsBits(xs: seq<int>): (bits: seq<bool>)
    ensures |bits| == |xs|
    ensures forall k :: 0 <= k < |xs| ==> bits[k] == (xs[k] == 1)
  {
    seq(|xs|, k requires 0 <= k < |xs| => xs[k] == 1)
  }

  predicate ZeroOne(xs: seq<int>) {
    forall k :: 0 <= k < |xs| ==> xs[k] == 0 || xs[k] == 1
  }

  /** A non-empty list of 0s and 1s reads big-endian, first entry most
      significant: `[1, 0, 0, 0]` gives 8. */
  lemma {:induction false} BitStringOfZeroOne(xs: seq<int>)
    requires |xs| > 0 && ZeroOne(xs)
    ensures IntArrayToBitString(xs) == BigEndian(AsBits(xs))
  {
    var s := JoinDecimal(xs);
    forall k | 0 <= k < |xs|
      ensures s[k] == (if AsBits(xs)[k] then '1' else '0')
    {
      assert s[k] == DigitChar(xs[k]);
    }
    assert forall k :: 0 <= k < |s| ==> IsBinaryDigit(s[k]);
    BinaryValueBits(s, AsBits(xs));
  }

  /** A string of binary digits has the value of the bits it spells. */
  lemma {:induction false} BinaryValueBits(s: string, bits: seq<bool>)
    requires |s| == |bits|
    requires forall k :: 0 <= k < |s| ==> s[k] == if bits[k] then '1' else '0'
    ensures forall k :: 0 <= k < |s| ==> IsBinaryDigit(s[k])
    ensures BinaryValue(s) == BigEndian(bits)
  {
    if |s| > 0 {
      BinaryValueBits(s[1..], bits[1..]);
    }
  }

  lemma EightExample()
    ensures IntArrayToBitString([1, 0, 0, 0]) == 8
  {
    BitStringOfZeroOne([1, 0, 0, 0]);
    EightBits();
  }

  lemma EightBits()
    ensures BigEndian(AsBits([1, 0, 0, 0])) == 8
  {
    var bits := AsBits([1, 0, 0, 0]);
    assert bits == [true, false, false, false];
    assert BigEndian(bits) == Pow2(3);
  }

  /** A leading `-1` prints a minus sign, which `int(s, 2)` accepts as the
      sign of the literal: `[-1, 0, 1]` gives -5 rather than 0. */
  lemma NegativeLeadAsWritten()
    ensures IntArrayToBitString([-1, 0, 1]) == -5
  {
    NegativeLeadJoined();
    NegativeLeadParsed();
  }

  lemma NegativeLeadJoined()
    ensures JoinDecimal([-1, 0, 1]) == "-101"
  {
    assert Decimal(-1) == "-1" && Decimal(0) == "0" && Decimal(1) == "1";
    assert JoinDecimal([1]) == "1" + JoinDecimal([]);
    assert JoinDecimal([0, 1]) == "0" + JoinDecimal([1]);
  }

  lemma NegativeLeadParsed()
    ensures ParseBinary("-101") == Success(-5)
  {
    var body := "-101"[1..];
    assert body == "101";
    assert forall k :: 0 <= k < |body| ==> IsBinaryDigit(body[k]);
    BinaryExamples();
  }

  /** The values of the binary literals the examples spell. */
  lemma BinaryExamples()
    ensures BinaryValue("101") == 5 && BinaryValue("110") == 6
  {
    assert BinaryValue("1") == 1 && BinaryValue("0") == 0;
    assert BinaryValue("01") == 1 && BinaryValue("10") == 2;
  }

  /** An entry of 10 prints two binary digits: `[1, 10]` reads as the
      literal `110` and gives 6 rather than 0. */
  lemma WideEntryAsWritten()
    ensures IntArrayToBitString([1, 10]) == 6
  {
    WideEntryJoined();
    WideEntryParsed();
  }

  lemma WideEntryJoined()
    ensures JoinDecimal([1, 10]) == "110"
  {
    assert Decimal(10) == "10";
    assert JoinDecimal([10]) == "10" + JoinDecimal([]);
    assert JoinDecimal([1, 10]) == "1" + JoinDecimal([10]);
  }

  lemma WideEntryParsed()
    ensures ParseBinary("110") == Success(6)
  {
    assert forall k :: 0 <= k < |"110"| ==> IsBinaryDigit("110"[k]);
    BinaryExamples();
  }

  /** The bitmask as documented: 0 unless every entry is 0 or 1. */
  function BitmaskCorrected(xs: seq<int>): (r: int)
    ensures r >= 0
    ensures !ZeroOne(xs) ==> r == 0
    ensures ZeroOne(xs) && |xs| > 0 ==> r == IntArrayToBitString(xs)
  {
    if ZeroOne(xs) && |xs| > 0 then
      BitStringOfZeroOne(xs);
      BigEndian(AsBits(xs))
    else 0
  }

  /** The corrected bitmask of a 0/1 list is its big-endian value, and it
      never goes below zero. */
  lemma BitmaskCorrectedValue(xs: seq<int>)
    requires ZeroOne(xs)
    ensures BitmaskCorrected(xs) == BigEndian(AsBits(xs))
  {
  }

  // ---- motor_has_moved ----

  /** The state after `motor_has_moved`: the active configuration and the
      moving flags, each bitmask written (`Some`) or not, the actual
      transmissions at the fundamental and the third harmonic if they were
      written, and the error raised, if any. The writes happen in that
      order, so an error leaves the earlier ones in place. */
  datatype Moved = Moved(config: seq<int>, configBitmask: Option<int>, moving: seq<int>, movingBitmask: Option<int>,
                         actual: Option<(real, real)>, raised: Option<Error>)

  /** The configuration changed and recomputing its transmission raises. */
  predicate UpdateFails(config: seq<int>, active: seq<int>, offset: int, working: seq<(int, Blade)>) {
    config != active && ActiveTransmission(config, offset, working).Failure?
  }

  /** `motor_has_moved(idx, value)`: position `idx` (a Python index) of the
      active configuration takes the state the raw value reads as; when
      that changes the configuration, it and its bitmask are written and
      `_update_active_transmission` recomputes the actual transmissions
      with the first filter's index `offset` and the working filters.
      Then position `idx` of the moving flags becomes 1 when the raw value
      is 0 and 0 otherwise. An index outside the active configuration
      raises `IndexError` before anything is written; a failing update
      raises its `IndexError` after the configuration is written; an index
      outside the moving flags raises `IndexError` last. */
  function MotorHasMoved(active: seq<int>, moving: seq<int>, idx: int, raw: int, offset: int, working: seq<(int, Blade)>)
    : (r: Moved)
    ensures r.raised.Some? <==>
      !PyIndexValid(idx, |active|) || UpdateFails(r.config, active, offset, working) || !PyIndexValid(idx, |moving|)
    ensures r.raised.Some? ==> r.raised.value == IndexError
    ensures |r.config| == |active| && |r.moving| == |moving|
    ensures !PyIndexValid(idx, |active|) ==> r.config == active && r.moving == moving
    ensures PyIndexValid(idx, |active|) ==>
      r.config[PyIndex(idx, |active|)] == StateFromMotor(raw) &&
      forall j :: 0 <= j < |active| && j != PyIndex(idx, |active|) ==> r.config[j] == active[j]
    ensures r.configBitmask.Some? <==> r.config != active
    ensures r.configBitmask.Some? ==> r.configBitmask.value == IntArrayToBitString(r.config)
    ensures r.actual.Some? <==> r.config != active && ActiveTransmission(r.config, offset, working).Success?
    ensures r.actual.Some? ==> r.actual.value == ActiveTransmission(r.config, offset, working).value
    ensures !PyIndexValid(idx, |moving|) || UpdateFails(r.config, active, offset, working) ==> r.moving == moving
    ensures PyIndexValid(idx, |active|) && PyIndexValid(idx, |moving|) && !UpdateFails(r.config, active, offset, working) ==>
      r.moving[PyIndex(idx, |moving|)] == (if raw == 0 then 1 else 0) &&
      forall j :: 0 <= j < |moving| && j != PyIndex(idx, |moving|) ==> r.moving[j] == moving[j]
    ensures r.movingBitmask.Some? <==> r.moving != moving
    ensures r.movingBitmask.Some? ==> r.movingBitmask.value == IntArrayToBitString(r.moving)
  {
    if !PyIndexValid(idx, |active|) then Moved(active, None, moving, None, None, Some(IndexError))
    else
      var config := active[PyIndex(idx, |active|) := StateFromMotor(raw)];
      var configMask := if config != active then Some(IntArrayToBitString(config)) else None;
      var update := if config != active then Some(ActiveTransmission(config, offset, working)) else None;
      if update.Some? && update.value.Failure? then
        Moved(config, configMask, moving, None, None, Some(update.value.error))
      else
        var actual := if update.Some? then Some(update.value.value) else None;
        if !PyIndexValid(idx, |moving|) then Moved(config, configMask, moving, None, actual, Some(IndexError))
        else
          var flags := moving[PyIndex(idx, |moving|) := if raw == 0 then 1 else 0];
          var movingMask := if flags != moving then Some(IntArrayToBitString(flags)) else None;
          Moved(config, configMask, flags, movingMask, actual, None)
  }

  /** Reporting the same motor value again leaves the configuration as it
      is: no configuration, bitmask or transmission is written, and it
      raises exactly when the index is outside either list. After a report
      that raised nothing the repeat writes nothing at all, and after any
      two reports a third writes nothing. */
  lemma MotorHasMovedIdempotent(active: seq<int>, moving: seq<int>, idx: int, raw: int, offset: int,
                                working: seq<(int, Blade)>)
    ensures var m := MotorHasMoved(active, moving, idx, raw, offset, working);
            var again := MotorHasMoved(m.config, m.moving, idx, raw, offset, working);
            again.config == m.config && again.configBitmask.None? && again.actual.None? &&
            (again.raised.Some? <==> !PyIndexValid(idx, |active|) || !PyIndexValid(idx, |moving|)) &&
            (m.raised.None? ==> again.moving == m.moving && again.movingBitmask.None?)
    ensures var m := MotorHasMoved(active, moving, idx, raw, offset, working);
            var again := MotorHasMoved(m.config, m.moving, idx, raw, offset, working);
            var third := MotorHasMoved(again.config, again.moving, idx, raw, offset, working);
            third == Moved(again.config, None, again.moving, None, None, again.raised)
  {
    var m := MotorHasMoved(active, moving, idx, raw, offset, working);
    SettledReport(m.config, m.moving, idx, raw, offset, working);
    var again := MotorHasMoved(m.config, m.moving, idx, raw, offset, working);
    if m.raised.None? {
      var q := PyIndex(idx, |moving|);
      assert m.moving[q := if raw == 0 then 1 else 0] == m.moving;
    }
    SettledReport(again.config, again.moving, idx, raw, offset, working);
    if again.raised.None? {
      var q := PyIndex(idx, |moving|);
      assert again.moving[q := if raw == 0 then 1 else 0] == again.moving;
    }
  }

  /** A report of the state the configuration already holds at `idx`
      writes no configuration and no transmission; only the moving flags
      can change. */
  lemma SettledReport(config: seq<int>, moving: seq<int>, idx: int, raw: int, offset: int, working: seq<(int, Blade)>)
    requires PyIndexValid(idx, |config|) ==> config[PyIndex(idx, |config|)] == StateFromMotor(raw)
    ensures MotorHasMoved(config, moving, idx, raw, offset, working) ==
      if !PyIndexValid(idx, |config|) || !PyIndexValid(idx, |moving|) then
        Moved(config, None, moving, None, None, Some(IndexError))
      else
        var flags := moving[PyIndex(idx, |moving|) := if raw == 0 then 1 else 0];
        Moved(config, None, flags, if flags != moving then Some(IntArrayToBitString(flags)) else None, None, None)
  {
    if PyIndexValid(idx, |config|) {
      assert config[PyIndex(idx, |config|) := StateFromMotor(raw)] == config;
    }
  }

  // ---- _update_active_transmission ----

  /** A working filter's transmissions at the fundamental and the third
      harmonic. */
  datatype Blade = Blade(transmission: real, transmission3Omega: real)

  /** The transmission array of `_update_active_transmission`: NaN
      everywhere, then, for each working filter in order, its value
      `pick` at position `idx - first_filter` when the configuration has it
      `In` there. The position is a Python index: one outside the list
      raises `IndexError`. */
  function ActiveArray(config: seq<int>, offset: int, working: seq<(int, Blade)>, pick: Blade -> real)
    : (r: Result<seq<Option<real>>>)
    ensures r.Success? <==> forall w :: 0 <= w < |working| ==> PyIndexValid(working[w].0 - offset, |config|)
    ensures r.Failure? ==> r.error == IndexError
    ensures r.Success? ==> |r.value| == |config|
  {
    if |working| == 0 then Success(seq(|config|, _ => None))
    else
      var last := working[|working| - 1];
      match ActiveArray(config, offset, working[..|working| - 1], pick)
      case Failure(e) => Failure(e)
      case Success(transm) =>
        var zero := last.0 - offset;
        if !PyIndexValid(zero, |config|) then Failure(IndexError)
        else
          var p := PyIndex(zero, |config|);
          Success(if config[p] == Value(In) then transm[p := Some(pick(last.1))] else transm)
  }

  /** `_update_active_transmission`: the `nanprod` of the transmission and
      third-harmonic arrays. */
  function ActiveTransmission(config: seq<int>, offset: int, working: seq<(int, Blade)>): (r: Result<(real, real)>)
    ensures r.Success? <==> forall w :: 0 <= w < |working| ==> PyIndexValid(working[w].0 - offset, |config|)
    ensures r.Failure? ==> r.error == IndexError
  {
    match ActiveArray(config, offset, working, (b: Blade) => b.transmission)
    case Failure(e) => Failure(e)
    case Success(transm) =>
      match ActiveArray(config, offset, working, (b: Blade) => b.transmission3Omega)
      case Failure(e) => Failure(e)
      case Success(transm3) => Success((NanProd(transm), NanProd(transm3)))
  }

  /** The position of working filter `w` in the configuration. */
  function Position(config: seq<int>, offset: int, working: seq<(int, Blade)>, w: nat): (p: nat)
    requires w < |working| && PyIndexValid(working[w].0 - offset, |config|)
    ensures p < |config|
  {
    PyIndex(working[w].0 - offset, |config|)
  }

  /** No two working filters share a position. */
  predicate Separate(config: seq<int>, offset: int, working: seq<(int, Blade)>)
    requires forall w :: 0 <= w < |working| ==> PyIndexValid(working[w].0 - offset, |config|)
  {
    forall v, w :: 0 <= v < w < |working| ==> Position(config, offset, working, v) != Position(config, offset, working, w)
  }

  /** The product of `pick` over the working filters inserted in the
      configuration. */
  function InsertedProduct(config: seq<int>, offset: int, working: seq<(int, Blade)>, pick: Blade -> real): real
    requires forall w :: 0 <= w < |working| ==> PyIndexValid(working[w].0 - offset, |config|)
  {
    if |working| == 0 then 1.0
    else
      var w := |working| - 1;
      var rest := InsertedProduct(config, offset, working[..w], pick);
      if config[Position(config, offset, working, w)] == Value(In) then Mul(rest, pick(working[w].1)) else rest
  }

  /** An array position no working filter maps to stays NaN. */
  lemma {:induction false} ActiveArrayUntouched(config: seq<int>, offset: int, working: seq<(int, Blade)>,
                                                pick: Blade -> real, p: nat)
    requires ActiveArray(config, offset, working, pick).Success? && p < |config|
    requires forall w :: 0 <= w < |working| ==> Position(config, offset, working, w) != p
    ensures ActiveArray(config, offset, working, pick).value[p] == None
  {
    if |working| > 0 {
      var init := working[..|working| - 1];
      forall w | 0 <= w < |init|
        ensures Position(config, offset, init, w) != p
      {
        assert init[w] == working[w];
        assert Position(config, offset, init, w) == Position(config, offset, working, w);
      }
      ActiveArrayUntouched(config, offset, init, pick, p);
      var q := Position(config, offset, working, |working| - 1);
      assert q != p;
      var transm := ActiveArray(config, offset, init, pick).value;
      assert ActiveArray(config, offset, working, pick).value ==
        if config[q] == Value(In) then transm[q := Some(pick(working[|working| - 1].1))] else transm;
    }
  }

  /** Dropping the last working filter keeps the positions of the others. */
  lemma InitPositions(config: seq<int>, offset: int, working: seq<(int, Blade)>)
    requires |working| > 0
    requires forall w :: 0 <= w < |working| ==> PyIndexValid(working[w].0 - offset, |config|)
    ensures forall w :: 0 <= w < |working| - 1 ==>
      working[..|working| - 1][w] == working[w] && PyIndexValid(working[..|working| - 1][w].0 - offset, |config|)
    ensures forall w :: 0 <= w < |working| - 1 ==>
      Position(config, offset, working[..|working| - 1], w) == Position(config, offset, working, w)
    ensures Separate(config, offset, working) ==> Separate(config, offset, working[..|working| - 1])
  {
    var init := working[..|working| - 1];
    forall w | 0 <= w < |init|
      ensures init[w] == working[w] && PyIndexValid(init[w].0 - offset, |config|)
      ensures Position(config, offset, init, w) == Position(config, offset, working, w)
    {
      assert init[w] == working[w];
    }
  }

  /** With the working filters on separate positions, the actual
      transmission is the product over the inserted working filters, and
      1.0 when none is inserted. */
  lemma {:induction false} ActiveIsInsertedProduct(config: seq<int>, offset: int, working: seq<(int, Blade)>,
                                                   pick: Blade -> real)
    requires forall w :: 0 <= w < |working| ==> PyIndexValid(working[w].0 - offset, |config|)
    requires Separate(config, offset, working)
    ensures NanProd(ActiveArray(config, offset, working, pick).value) == InsertedProduct(config, offset, working, pick)
  {
    if |working| == 0 {
      NanProdAllNaN(seq(|config|, _ => None));
    } else {
      var n := |working| - 1;
      var init := working[..n];
      InitPositions(config, offset, working);
      ActiveIsInsertedProduct(config, offset, init, pick);
      var p := Position(config, offset, working, n);
      var transm := ActiveArray(config, offset, init, pick).value;
      if config[p] == Value(In) {
        forall w | 0 <= w < |init|
          ensures Position(config, offset, init, w) != p
        {
          assert Position(config, offset, init, w) == Position(config, offset, working, w);
        }
        ActiveArrayUntouched(config, offset, init, pick, p);
        NanProdUpdate(transm, p, Some(pick(working[n].1)));
      }
    }
  }

  /** When no working filter is inserted the actual transmission is 1.0. */
  lemma {:induction false} NoneInserted(config: seq<int>, offset: int, working: seq<(int, Blade)>, pick: Blade -> real)
    requires forall w :: 0 <= w < |working| ==> PyIndexValid(working[w].0 - offset, |config|)
    requires forall w :: 0 <= w < |working| ==> config[Position(config, offset, working, w)] != Value(In)
    ensures InsertedProduct(config, offset, working, pick) == 1.0
  {
    if |working| > 0 {
      var n := |working| - 1;
      var init := working[..n];
      InitPositions(config, offset, working);
      forall w | 0 <= w < |init|
        ensures config[Position(config, offset, init, w)] != Value(In)
      {
        assert Position(config, offset, init, w) == Position(config, offset, working, w);
      }
      NoneInserted(config, offset, init, pick);
    }
  }

  // ---- run_calculation ----

  /** What `run_calculation` writes once the materials pass the check: the
      energy used, the best configuration's states, their bitmask, and the
      transmission error of that configuration. */
  datatype Calculation = Calculation(energy: real, bestConfig: seq<int>, bitmask: int, error: real)

  /** `run_calculation`: the energy named by the energy source (`KeyError`
      for any other name); no calculation when the filter materials fail the
      check; otherwise the material-priority search with AT2L0's order. */
  function RunCalculation(source: string, actual: real, custom: real, materials: seq<string>,
                          ts: seq<Option<real>>, tDes: real, mode: Calculator.ModeArg)
    : (r: Result<Option<Calculation>>)
    requires Fractions(ts)
    ensures source !in {"Actual", "Custom"} ==> r == Failure(KeyError)
    ensures source in {"Actual", "Custom"} && !At2l0Ioc.CheckMaterials(materials) ==> r == Success(None)
    ensures source in {"Actual", "Custom"} && At2l0Ioc.CheckMaterials(materials) ==>
      var search := MaterialPriority.PriorityConfig(materials, ts, At2l0Ioc.MaterialOrder, tDes, mode);
      (r.Failure? <==> search.Failure?) &&
      (r.Failure? ==> r.error == search.error) &&
      (r.Success? ==> r.value.Some? && r.value.value.bestConfig == search.value.filterStates &&
                      r.value.value.energy == (if source == "Actual" then actual else custom) &&
                      r.value.value.error == search.value.transmission - tDes)
  {
    if source != "Actual" && source != "Custom" then Failure(KeyError)
    else
      var energy := if source == "Actual" then actual else custom;
      if !At2l0Ioc.CheckMaterials(materials) then Success(None)
      else
        match MaterialPriority.PriorityConfig(materials, ts, At2l0Ioc.MaterialOrder, tDes, mode)
        case Failure(e) => Failure(e)
        case Success(c) =>
          Success(Some(Calculation(energy, c.filterStates, IntArrayToBitString(c.filterStates),
                                   c.transmission - tDes)))
  }

  /** A calculation that runs has one 0/1 state per blade, its bitmask is
      the big-endian value of those states, and the error is the difference
      between the transmission of the inserted blades and the target. */
  lemma RunCalculationSound(source: string, actual: real, custom: real, materials: seq<string>,
                            ts: seq<Option<real>>, tDes: real, mode: Calculator.ModeArg)
    requires Fractions(ts) && |ts| > 0
    requires RunCalculation(source, actual, custom, materials, ts, tDes, mode).Success?
    requires RunCalculation(source, actual, custom, materials, ts, tDes, mode).value.Some?
    ensures var outcome := RunCalculation(source, actual, custom, materials, ts, tDes, mode).value.value;
            |outcome.bestConfig| == |ts| && ZeroOne(outcome.bestConfig) &&
            outcome.bitmask == BigEndian(AsBits(outcome.bestConfig)) &&
            outcome.error == NanProd(Calculator.Mask(ts, AsBits(outcome.bestConfig))) - tDes
  {
    var c := MaterialPriority.PriorityConfig(materials, ts, At2l0Ioc.MaterialOrder, tDes, mode).value;
    PrioritySearchSound(materials, ts, tDes, mode);
    var outcome := RunCalculation(source, actual, custom, materials, ts, tDes, mode).value.value;
    assert outcome == Calculation(outcome.energy, c.filterStates, IntArrayToBitString(c.filterStates),
                                  c.transmission - tDes);
  }

  /** The search `run_calculation` runs returns 0/1 states whose bitmask is
      their big-endian value and whose transmission is that of the inserted
      blades. */
  lemma PrioritySearchSound(materials: seq<string>, ts: seq<Option<real>>, tDes: real, mode: Calculator.ModeArg)
    requires Fractions(ts) && |ts| > 0
    requires MaterialPriority.PriorityConfig(materials, ts, At2l0Ioc.MaterialOrder, tDes, mode).Success?
    ensures var c := MaterialPriority.PriorityConfig(materials, ts, At2l0Ioc.MaterialOrder, tDes, mode).value;
            |c.filterStates| == |ts| && ZeroOne(c.filterStates) &&
            IntArrayToBitString(c.filterStates) == BigEndian(AsBits(c.filterStates)) &&
            c.transmission == NanProd(Calculator.Mask(ts, AsBits(c.filterStates)))
  {
    var order := At2l0Ioc.MaterialOrder;
    assert Sequences.Distinct(order) by {
      assert order[0] != order[1];
    }
    MaterialPriority.PriorityConfigSound(materials, ts, order, tDes, mode);
    ConsistentBits(ts, MaterialPriority.PriorityConfig(materials, ts, order, tDes, mode).value);
  }

  /** A configuration consistent with non-empty transmissions has 0/1
      states, reads big-endian as its bitmask, and transmits the product of
      the blades those bits insert. */
  lemma ConsistentBits(ts: seq<Option<real>>, c: Calculator.Config)
    requires |ts| > 0 && Calculator.Consistent(ts, c)
    ensures |c.filterStates| == |ts| && ZeroOne(c.filterStates)
    ensures IntArrayToBitString(c.filterStates) == BigEndian(AsBits(c.filterStates))
    ensures c.transmission == NanProd(Calculator.Mask(ts, AsBits(c.filterStates)))
  {
    assert Calculator.Inserted(c.filterStates) == AsBits(c.filterStates);
    BitStringOfZeroOne(c.filterStates);
  }

  // ---- move_blade_step ----

  /** Blade `j` is covered by both state lists, is in state `from` and
      should be in state `to`. */
  predicate Wanted(active: seq<int>, best: seq<int>, from: State, to: State, j: int) {
    0 <= j < |active| && j < |best| && active[j] == Value(from) && best[j] == Value(to)
  }

  /** The set PVs of the wanted blades. */
  function WantedPvs(setPvs: seq<string>, active: seq<int>, best: seq<int>, from: State, to: State): set<string> {
    set j | 0 <= j < |setPvs| && Wanted(active, best, from, to, j) :: setPvs[j]
  }

  /** The set PVs of the blades to move: those whose active state is `from`
      and whose best state is `to`, in blade order, over the blades all
      three lists cover (`zip`). */
  function ToMove(setPvs: seq<string>, active: seq<int>, best: seq<int>, from: State, to: State): (r: seq<string>)
    ensures forall k :: 0 <= k < |r| ==> r[k] in WantedPvs(setPvs, active, best, from, to)
    ensures forall j :: 0 <= j < |setPvs| && Wanted(active, best, from, to, j) ==> setPvs[j] in r
  {
    if |setPvs| == 0 || |active| == 0 || |best| == 0 then []
    else
      var rest := ToMove(setPvs[1..], active[1..], best[1..], from, to);
      ShiftWanted(setPvs, active, best, from, to);
      WantedPvsShift(setPvs, active, best, from, to);
      if Wanted(active, best, from, to, 0) then [setPvs[0]] + rest else rest
  }

  /** The wanted PVs of the later blades are wanted PVs of all of them, and
      so is the first blade's when it is wanted. */
  lemma WantedPvsShift(setPvs: seq<string>, active: seq<int>, best: seq<int>, from: State, to: State)
    requires |setPvs| > 0 && |active| > 0 && |best| > 0
    ensures WantedPvs(setPvs[1..], active[1..], best[1..], from, to) <= WantedPvs(setPvs, active, best, from, to)
    ensures Wanted(active, best, from, to, 0) ==> setPvs[0] in WantedPvs(setPvs, active, best, from, to)
  {
    forall pv | pv in WantedPvs(setPvs[1..], active[1..], best[1..], from, to)
      ensures pv in WantedPvs(setPvs, active, best, from, to)
    {
      var j :| 0 <= j < |setPvs| - 1 && Wanted(active[1..], best[1..], from, to, j) && pv == setPvs[1..][j];
      assert Wanted(active, best, from, to, j + 1) && pv == setPvs[j + 1];
    }
  }

  /** Dropping the first blade shifts every later blade down by one. */
  lemma ShiftWanted(setPvs: seq<string>, active: seq<int>, best: seq<int>, from: State, to: State)
    requires |setPvs| > 0 && |active| > 0 && |best| > 0
    ensures forall j :: 1 <= j < |setPvs| ==>
      setPvs[j] == setPvs[1..][j - 1] &&
      Wanted(active, best, from, to, j) == Wanted(active[1..], best[1..], from, to, j - 1)
    ensures forall j :: 0 <= j < |setPvs| - 1 ==>
      setPvs[1..][j] == setPvs[j + 1] &&
      Wanted(active[1..], best[1..], from, to, j) == Wanted(active, best, from, to, j + 1)
  {
  }

  /** One blade of `ToMove`: the first blade's PV when it is wanted, then
      the rest. */
  lemma ToMoveUnfold(setPvs: seq<string>, active: seq<int>, best: seq<int>, from: State, to: State)
    requires |setPvs| > 0 && |active| > 0 && |best| > 0
    ensures ToMove(setPvs, active, best, from, to) ==
      if Wanted(active, best, from, to, 0) then [setPvs[0]] + ToMove(setPvs[1..], active[1..], best[1..], from, to)
      else ToMove(setPvs[1..], active[1..], best[1..], from, to)
  {
  }

  /** Every position one further on. */
  function ShiftUp(xs: seq<nat>): (r: seq<nat>)
    ensures |r| == |xs|
    ensures forall k :: 0 <= k < |xs| ==> r[k] == xs[k] + 1
  {
    seq(|xs|, k requires 0 <= k < |xs| => xs[k] + 1)
  }

  /** Entry `k` of `r` is the set PV of wanted blade `idx[k]`. */
  predicate DrawnFrom(setPvs: seq<string>, active: seq<int>, best: seq<int>, from: State, to: State,
                      r: seq<string>, idx: seq<nat>) {
    |idx| == |r| &&
    forall k :: 0 <= k < |idx| ==>
      idx[k] < |setPvs| && Wanted(active, best, from, to, idx[k]) && r[k] == setPvs[idx[k]]
  }

  /** The positions strictly increase. */
  predicate Increasing(idx: seq<nat>) {
    forall k, l :: 0 <= k < l < |idx| ==> idx[k] < idx[l]
  }

  /** Every wanted blade is among the positions. */
  predicate Covers(setPvs: seq<string>, active: seq<int>, best: seq<int>, from: State, to: State, idx: seq<nat>) {
    forall j :: 0 <= j < |setPvs| && Wanted(active, best, from, to, j) ==> j in idx
  }

  /** The positions of the wanted blades among those all three lists
      cover, in blade order. */
  function Positions(setPvs: seq<string>, active: seq<int>, best: seq<int>, from: State, to: State): seq<nat> {
    if |setPvs| == 0 || |active| == 0 || |best| == 0 then []
    else
      (if Wanted(active, best, from, to, 0) then [0] else [])
        + ShiftUp(Positions(setPvs[1..], active[1..], best[1..], from, to))
  }

  /** `ToMove` is the in-order filter of the zipped blades: its entries are
      the set PVs of the wanted blades at strictly increasing positions, and
      every wanted blade is among those positions. */
  lemma ToMoveIndices(setPvs: seq<string>, active: seq<int>, best: seq<int>, from: State, to: State)
    returns (idx: seq<nat>)
    ensures DrawnFrom(setPvs, active, best, from, to, ToMove(setPvs, active, best, from, to), idx)
    ensures Increasing(idx)
    ensures Covers(setPvs, active, best, from, to, idx)
  {
    idx := Positions(setPvs, active, best, from, to);
    PositionsDrawn(setPvs, active, best, from, to);
    PositionsIncreasing(setPvs, active, best, from, to);
    PositionsCover(setPvs, active, best, from, to);
  }

  /** Entry `k` of `ToMove` is the set PV of the wanted blade at position `k`
      of `Positions`. */
  lemma {:induction false} PositionsDrawn(setPvs: seq<string>, active: seq<int>, best: seq<int>, from: State, to: State)
    ensures DrawnFrom(setPvs, active, best, from, to, ToMove(setPvs, active, best, from, to),
                      Positions(setPvs, active, best, from, to))
  {
    if |setPvs| > 0 && |active| > 0 && |best| > 0 {
      PositionsDrawn(setPvs[1..], active[1..], best[1..], from, to);
      ToMoveUnfold(setPvs, active, best, from, to);
      DrawFromStep(setPvs, active, best, from, to, ToMove(setPvs[1..], active[1..], best[1..], from, to),
                   Positions(setPvs[1..], active[1..], best[1..], from, to),
                   ToMove(setPvs, active, best, from, to), Positions(setPvs, active, best, from, to));
    }
  }

  /** `Positions` lists the blades in increasing order. */
  lemma {:induction false} PositionsIncreasing(setPvs: seq<string>, active: seq<int>, best: seq<int>, from: State, to: State)
    ensures Increasing(Positions(setPvs, active, best, from, to))
  {
    if |setPvs| > 0 && |active| > 0 && |best| > 0 {
      PositionsIncreasing(setPvs[1..], active[1..], best[1..], from, to);
      IncreasingStep(Wanted(active, best, from, to, 0), Positions(setPvs[1..], active[1..], best[1..], from, to));
    }
  }

  /** Every wanted blade is in `Positions`. */
  lemma {:induction false} PositionsCover(setPvs: seq<string>, active: seq<int>, best: seq<int>, from: State, to: State)
    ensures Covers(setPvs, active, best, from, to, Positions(setPvs, active, best, from, to))
  {
    if |setPvs| > 0 && |active| > 0 && |best| > 0 {
      PositionsCover(setPvs[1..], active[1..], best[1..], from, to);
      CoversStep(setPvs, active, best, from, to, Positions(setPvs[1..], active[1..], best[1..], from, to));
    }
  }

  /** The induction step for `DrawnFrom`. */
  lemma DrawFromStep(setPvs: seq<string>, active: seq<int>, best: seq<int>, from: State, to: State,
                     tail: seq<string>, rest: seq<nat>, r: seq<string>, idx: seq<nat>)
    requires |setPvs| > 0 && |active| > 0 && |best| > 0
    requires DrawnFrom(setPvs[1..], active[1..], best[1..], from, to, tail, rest)
    requires r == (if Wanted(active, best, from, to, 0) then [setPvs[0]] else []) + tail
    requires idx == (if Wanted(active, best, from, to, 0) then [0] else []) + ShiftUp(rest)
    ensures DrawnFrom(setPvs, active, best, from, to, r, idx)
  {
    var head: seq<nat> := if Wanted(active, best, from, to, 0) then [0] else [];
    forall k | 0 <= k < |idx|
      ensures idx[k] < |setPvs| && Wanted(active, best, from, to, idx[k]) && r[k] == setPvs[idx[k]]
    {
      if k >= |head| {
        var m := k - |head|;
        assert idx[k] == rest[m] + 1 && r[k] == tail[m];
        assert Wanted(active[1..], best[1..], from, to, rest[m]);
        assert setPvs[1..][rest[m]] == setPvs[rest[m] + 1];
      }
    }
  }

  /** The induction step for `Increasing`. */
  lemma IncreasingStep(w: bool, rest: seq<nat>)
    requires Increasing(rest)
    ensures Increasing((if w then [0] else []) + ShiftUp(rest))
  {
    var head: seq<nat> := if w then [0] else [];
    var idx := head + ShiftUp(rest);
    forall k, l | 0 <= k < l < |idx|
      ensures idx[k] < idx[l]
    {
      if k >= |head| {
        assert idx[k] == rest[k - |head|] + 1 && idx[l] == rest[l - |head|] + 1;
      } else {
        assert idx[l] == rest[l - |head|] + 1;
      }
    }
  }

  /** The induction step for `Covers`. */
  lemma CoversStep(setPvs: seq<string>, active: seq<int>, best: seq<int>, from: State, to: State, rest: seq<nat>)
    requires |setPvs| > 0 && |active| > 0 && |best| > 0
    requires Covers(setPvs[1..], active[1..], best[1..], from, to, rest)
    ensures Covers(setPvs, active, best, from, to,
                   (if Wanted(active, best, from, to, 0) then [0] else []) + ShiftUp(rest))
  {
    var head: seq<nat> := if Wanted(active, best, from, to, 0) then [0] else [];
    var idx := head + ShiftUp(rest);
    forall j | 0 <= j < |setPvs| && Wanted(active, best, from, to, j)
      ensures j in idx
    {
      if j > 0 {
        assert Wanted(active[1..], best[1..], from, to, j - 1);
        assert j - 1 in rest;
        var m :| 0 <= m < |rest| && rest[m] == j - 1;
        assert idx[|head| + m] == j;
      } else {
        assert idx[0] == 0;
      }
    }
  }

  /** The puts of one pass over `pvs`, each recorded in `state`, stopping
      at the first PV already recorded with the target. */
  function IssuePuts(pvs: seq<string>, target: State, state: map<string, State>)
    : (r: (seq<string>, map<string, State>))
    ensures |r.0| <= |pvs| && r.0 == pvs[..|r.0|]
    ensures forall k :: 0 <= k < |r.0| ==> r.0[k] in r.1 && r.1[r.0[k]] == target
    ensures forall pv :: pv in state && pv !in r.0 ==> pv in r.1 && r.1[pv] == state[pv]
    ensures forall pv :: pv in r.1 ==> pv in state || pv in r.0
    ensures |r.0| < |pvs| ==> pvs[|r.0|] in r.1 && r.1[pvs[|r.0|]] == target
    ensures forall k :: 0 <= k < |r.0| ==>
      !(pvs[k] in state && state[pvs[k]] == target) && pvs[k] !in pvs[..k]
    ensures |r.0| < |pvs| ==>
      (pvs[|r.0|] in state && state[pvs[|r.0|]] == target) || pvs[|r.0|] in pvs[..|r.0|]
  {
    if |pvs| == 0 then ([], state)
    else if pvs[0] in state && state[pvs[0]] == target then ([], state)
    else
      var rest := IssuePuts(pvs[1..], target, state[pvs[0] := target]);
      PutFirst(pvs, target, state, rest.0, rest.1);
      PutFirstFresh(pvs, target, state, rest.0);
      ([pvs[0]] + rest.0, rest.1)
  }

  /** Putting an unrecorded `pvs[0]` before the puts of the rest of the
      pass keeps every put unrecorded and unrepeated, and the pass still
      stops at a PV that was recorded or already put. */
  lemma PutFirstFresh(pvs: seq<string>, target: State, state: map<string, State>, puts: seq<string>)
    requires |pvs| > 0 && !(pvs[0] in state && state[pvs[0]] == target)
    requires |puts| <= |pvs[1..]| && puts == pvs[1..][..|puts|]
    requires forall k :: 0 <= k < |puts| ==>
      !(pvs[1..][k] in state[pvs[0] := target] && state[pvs[0] := target][pvs[1..][k]] == target) &&
      pvs[1..][k] !in pvs[1..][..k]
    requires |puts| < |pvs[1..]| ==>
      (pvs[1..][|puts|] in state[pvs[0] := target] && state[pvs[0] := target][pvs[1..][|puts|]] == target) ||
      pvs[1..][|puts|] in pvs[1..][..|puts|]
    ensures var r0 := [pvs[0]] + puts;
      (forall k :: 0 <= k < |r0| ==> !(pvs[k] in state && state[pvs[k]] == target) && pvs[k] !in pvs[..k]) &&
      (|r0| < |pvs| ==> (pvs[|r0|] in state && state[pvs[|r0|]] == target) || pvs[|r0|] in pvs[..|r0|])
  {
    var r0 := [pvs[0]] + puts;
    var after := state[pvs[0] := target];
    forall k | 0 < k < |r0|
      ensures !(pvs[k] in state && state[pvs[k]] == target) && pvs[k] !in pvs[..k]
    {
      assert pvs[k] == pvs[1..][k - 1];
      assert pvs[k] != pvs[0];
      assert pvs[..k] == [pvs[0]] + pvs[1..][..k - 1];
    }
    if |r0| < |pvs| {
      var next := pvs[1..][|puts|];
      assert pvs[|r0|] == next;
      assert pvs[..|r0|] == [pvs[0]] + pvs[1..][..|puts|];
      if next == pvs[0] {
        assert next in pvs[..|r0|];
      }
    }
  }

  /** Putting `pvs[0]` before the puts of the rest of the pass keeps what a
      pass promises. */
  lemma PutFirst(pvs: seq<string>, target: State, state: map<string, State>,
                 puts: seq<string>, after: map<string, State>)
    requires |pvs| > 0
    requires |puts| <= |pvs[1..]| && puts == pvs[1..][..|puts|]
    requires forall k :: 0 <= k < |puts| ==> puts[k] in after && after[puts[k]] == target
    requires forall pv :: pv in state[pvs[0] := target] && pv !in puts ==>
      pv in after && after[pv] == state[pvs[0] := target][pv]
    requires forall pv :: pv in after ==> pv in state[pvs[0] := target] || pv in puts
    requires |puts| < |pvs[1..]| ==> pvs[1..][|puts|] in after && after[pvs[1..][|puts|]] == target
    ensures var r0 := [pvs[0]] + puts;
      |r0| <= |pvs| && r0 == pvs[..|r0|] &&
      (forall k :: 0 <= k < |r0| ==> r0[k] in after && after[r0[k]] == target) &&
      (forall pv :: pv in state && pv !in r0 ==> pv in after && after[pv] == state[pv]) &&
      (forall pv :: pv in after ==> pv in state || pv in r0) &&
      (|r0| < |pvs| ==> pvs[|r0|] in after && after[pvs[|r0|]] == target)
  {
    var r0 := [pvs[0]] + puts;
    assert forall k :: 1 <= k < |r0| ==> r0[k] == puts[k - 1];
    assert r0 == pvs[..|r0|];
    if |r0| < |pvs| {
      assert pvs[|r0|] == pvs[1..][|puts|];
    }
    if pvs[0] !in puts {
      assert pvs[0] in after;
    }
  }

  /** The puts one call issues, the recorded state after it, and whether
      blades remain to move. */
  datatype Step = Step(puts: seq<(string, int)>, state: map<string, State>, more: bool)

  /** `move_blade_step`: blades to insert are moved first; blades to remove
      only when none is to be inserted. Each put sends the target's raw
      motor value. */
  function MoveBladeStep(setPvs: seq<string>, active: seq<int>, best: seq<int>, state: map<string, State>)
    : (r: Step)
    ensures r.more <==> |ToMove(setPvs, active, best, Out, In)| > 0 || |ToMove(setPvs, active, best, In, Out)| > 0
    ensures |ToMove(setPvs, active, best, Out, In)| > 0 ==>
      forall k :: 0 <= k < |r.puts| ==>
        r.puts[k].1 == StateToMotor(In) && r.puts[k].0 in ToMove(setPvs, active, best, Out, In)
    ensures |ToMove(setPvs, active, best, Out, In)| == 0 ==>
      forall k :: 0 <= k < |r.puts| ==>
        r.puts[k].1 == StateToMotor(Out) && r.puts[k].0 in ToMove(setPvs, active, best, In, Out)
    ensures var moveIn := ToMove(setPvs, active, best, Out, In);
      |moveIn| > 0 ==>
        var p := IssuePuts(moveIn, In, state); r.puts == Puts(p.0, In) && r.state == p.1
    ensures var moveOut := ToMove(setPvs, active, best, In, Out);
      |ToMove(setPvs, active, best, Out, In)| == 0 && |moveOut| > 0 ==>
        var p := IssuePuts(moveOut, Out, state); r.puts == Puts(p.0, Out) && r.state == p.1
    ensures !r.more ==> r.puts == [] && r.state == state
  {
    var moveIn := ToMove(setPvs, active, best, Out, In);
    var moveOut := ToMove(setPvs, active, best, In, Out);
    if |moveIn| > 0 then
      var (pvs, s) := IssuePuts(moveIn, In, state);
      Step(Puts(pvs, In), s, true)
    else if |moveOut| > 0 then
      var (pvs, s) := IssuePuts(moveOut, Out, state);
      Step(Puts(pvs, Out), s, true)
    else Step([], state, false)
  }

  /** Each PV paired with the raw value requesting `target`. */
  function Puts(pvs: seq<string>, target: State): (r: seq<(string, int)>)
    ensures |r| == |pvs|
    ensures forall k :: 0 <= k < |pvs| ==> r[k] == (pvs[k], StateToMotor(target))
  {
    seq(|pvs|, k requires 0 <= k < |pvs| => (pvs[k], StateToMotor(target)))
  }

  /** Calling again with the recorded state and unchanged configurations
      issues no puts: the first PV to move is already recorded. */
  lemma MoveBladeStepSettles(setPvs: seq<string>, active: seq<int>, best: seq<int>, state: map<string, State>)
    ensures var first := MoveBladeStep(setPvs, active, best, state);
            MoveBladeStep(setPvs, active, best, first.state).puts == []
  {
    var moveIn := ToMove(setPvs, active, best, Out, In);
    var moveOut := ToMove(setPvs, active, best, In, Out);
    if |moveIn| > 0 {
      var (pvs, s) := IssuePuts(moveIn, In, state);
      assert moveIn[0] in s && s[moveIn[0]] == In;
    } else if |moveOut| > 0 {
      var (pvs, s) := IssuePuts(moveOut, Out, state);
      assert moveOut[0] in s && s[moveOut[0]] == Out;
    }
  }

  /** A step makes progress: unless the first blade to move is already
      recorded with its target, it is put first, and every blade put is
      recorded with the target it was sent. */
  lemma MoveBladeStepIssues(setPvs: seq<string>, active: seq<int>, best: seq<int>, state: map<string, State>)
    ensures var moveIn := ToMove(setPvs, active, best, Out, In);
      var r := MoveBladeStep(setPvs, active, best, state);
      |moveIn| > 0 && !(moveIn[0] in state && state[moveIn[0]] == In) ==>
        |r.puts| > 0 && r.puts[0] == (moveIn[0], StateToMotor(In))
    ensures var moveIn := ToMove(setPvs, active, best, Out, In);
      var moveOut := ToMove(setPvs, active, best, In, Out);
      var r := MoveBladeStep(setPvs, active, best, state);
      |moveIn| == 0 && |moveOut| > 0 && !(moveOut[0] in state && state[moveOut[0]] == Out) ==>
        |r.puts| > 0 && r.puts[0] == (moveOut[0], StateToMotor(Out))
    ensures var r := MoveBladeStep(setPvs, active, best, state);
      forall k :: 0 <= k < |r.puts| ==>
        r.puts[k].0 in r.state && StateToMotor(r.state[r.puts[k].0]) == r.puts[k].1
  {
    var moveIn := ToMove(setPvs, active, best, Out, In);
    var moveOut := ToMove(setPvs, active, best, In, Out);
    if |moveIn| > 0 {
      var (pvs, s) := IssuePuts(moveIn, In, state);
      if !(moveIn[0] in state && state[moveIn[0]] == In) {
        assert |pvs| > 0;
      }
    } else if |moveOut| > 0 {
      var (pvs, s) := IssuePuts(moveOut, Out, state);
      if !(moveOut[0] in state && state[moveOut[0]] == Out) {
        assert |pvs| > 0;
      }
    }
  }
}

=== FILE: bits.dfy ===
/** Binary numerals: the bits of a natural number and the big-endian value of
    a row of bits, the reading both the product order of `itertools.product`
    and the bit-mask encoder use. */
module Bits {

  import opened Common

  /** Bit `b` of `k` (bit 0 is the least significant). */
  function Bit(k: nat, b: nat): bool
  {
    if b == 0 then k % 2 == 1 else Bit(k / 2, b - 1)
  }

  /** The value of a row of bits read big-endian: the first entry is the most
      significant. */
  function BigEndian(bits: seq<bool>): (r: nat)
    ensures r < Pow2(|bits|)
  {
    if |bits| == 0 then 0
    else (if bits[0] then Pow2(|bits| - 1) else 0) + BigEndian(bits[1..])
  }

  /** The `n` bits of `k`, most significant first. */
  function BitsOf(k: nat, n: nat): (r: seq<bool>)
    ensures |r| == n
    ensures forall j :: 0 <= j < n ==> r[j] == Bit(k, n - 1 - j)
  {
    seq(n, j requires 0 <= j < n => Bit(k, n - 1 - j))
  }

  /** Adding a multiple of 2^m leaves the bits below m alone and sets bit m
      to the parity of the multiple. */
  lemma {:induction false} BitSplit(a: nat, c: nat, m: nat, b: nat)
    requires c < Pow2(m)
    ensures b < m ==> Bit(a * Pow2(m) + c, b) == Bit(c, b)
    ensures b == m ==> Bit(a * Pow2(m) + c, b) == (a % 2 == 1)
  {
    var k := a * Pow2(m) + c;
    if m == 0 {
      assert k == a + c && c == 0;
    } else {
      assert Pow2(m) == 2 * Pow2(m - 1);
      assert k == 2 * (a * Pow2(m - 1)) + c;
      assert k / 2 == a * Pow2(m - 1) + c / 2 && k % 2 == c % 2;
      if b > 0 {
        BitSplit(a, c / 2, m - 1, b - 1);
      }
    }
  }

  /** Bit `m` of `k = a 2^m + c` is the bit `a`. */
  lemma TopBit(a: nat, c: nat, m: nat, k: nat)
    requires a < 2 && c < Pow2(m) && k == (if a == 1 then Pow2(m) else 0) + c
    ensures Bit(k, m) == (a == 1)
  {
    assert k == a * Pow2(m) + c;
    BitSplit(a, c, m, m);
  }

  /** The bits of `k = a 2^m + c` below `m` are those of `c`. */
  lemma LowBit(a: nat, c: nat, m: nat, k: nat, b: nat)
    requires a < 2 && c < Pow2(m) && k == (if a == 1 then Pow2(m) else 0) + c && b < m
    ensures Bit(k, b) == Bit(c, b)
  {
    assert k == a * Pow2(m) + c;
    BitSplit(a, c, m, b);
  }

  /** Every bit at or above `n` of a number below 2^n is clear. */
  lemma {:induction false} HighBitsClear(k: nat, n: nat, b: nat)
    requires k < Pow2(n) && b >= n
    ensures !Bit(k, b)
  {
    if b == 0 {
      assert k == 0;
    } else if n == 0 {
      assert k == 0;
      HighBitsClear(0, 0, b - 1);
    } else {
      HighBitsClear(k / 2, n - 1, b - 1);
    }
  }

  /** Reading the bits of `k` back gives `k`. */
  lemma {:induction false} BigEndianBitsOf(k: nat, n: nat)
    requires k < Pow2(n)
    ensures BigEndian(BitsOf(k, n)) == k
  {
    if n > 0 {
      var half := Pow2(n - 1);
      assert Pow2(n) == 2 * half;
      var a: nat := if k >= half then 1 else 0;
      var c: nat := if k >= half then k - half else k;
      TopBit(a, c, n - 1, k);
      forall j | 0 <= j < n - 1
        ensures BitsOf(k, n)[1..][j] == BitsOf(c, n - 1)[j]
      {
        LowBit(a, c, n - 1, k, n - 2 - j);
      }
      assert BitsOf(k, n)[1..] == BitsOf(c, n - 1);
      BigEndianBitsOf(c, n - 1);
    }
  }

  /** A row of bits is the bit pattern of its own big-endian value. */
  lemma {:induction false} BitsOfBigEndian(bits: seq<bool>)
    ensures BitsOf(BigEndian(bits), |bits|) == bits
  {
    var n := |bits|;
    if n > 0 {
      var k := BigEndian(bits);
      var c := BigEndian(bits[1..]);
      var a: nat := if bits[0] then 1 else 0;
      BitsOfBigEndian(bits[1..]);
      forall j | 0 <= j < n
        ensures BitsOf(k, n)[j] == bits[j]
      {
        if j == 0 {
          TopBit(a, c, n - 1, k);
        } else {
          LowBit(a, c, n - 1, k, n - 1 - j);
          assert bits[j] == bits[1..][j - 1] == BitsOf(c, n - 1)[j - 1] == Bit(c, n - 1 - j);
        }
      }
    }
  }
}

=== FILE: calculator.dfy ===
/** The blade-configuration search of the solid attenuator
    (`solid_attenuator/calculator.py`): every in/out combination of the
    blades is scored by the product of the transmissions of its inserted,
    working blades, and the combinations just below and just above the
    desired transmission are picked from the sorted scores. */
module Calculator {

  import opened Common
  import opened Sequences
  import opened Bits
  import opened Cartesian

  // ---- modes ----

  datatype ConfigMode = Floor | Ceiling

  /** The `mode` argument: an enum member, or its name as a string. */
  datatype ModeArg = Mode(mode: ConfigMode) | Name(name: string)

  /** `ConfigMode[mode]` for a string, the member itself otherwise. */
  function ResolveMode(m: ModeArg): (r: Result<ConfigMode>)
    ensures r.Success? <==> (m.Mode? || m.name == "Floor" || m.name == "Ceiling")
    ensures r.Failure? ==> r.error == KeyError
    ensures r.Success? ==> (r.value == Floor <==> m in {Mode(Floor), Name("Floor")})
  {
    match m
    case Mode(c) => Success(c)
    case Name(s) =>
      if s == "Floor" then Success(Floor)
      else if s == "Ceiling" then Success(Ceiling)
      else Failure(KeyError)
  }

  // ---- the in/out table ----

  /** `in_out_combinations(n)`: every in/out pattern of `n` blades; `true`
      stands for an inserted blade (1), `false` for a removed one (NaN). Row
      `k` is the binary numeral of `k`, the first blade most significant,
      which is the order `itertools.product` of `n` copies of [out, in]
      lists them in (`CombinationsAreProduct`). */
  function InOutCombinations(n: nat): (r: seq<seq<bool>>)
    ensures |r| == Pow2(n)
    ensures forall k :: 0 <= k < |r| ==> |r[k]| == n
  {
    seq(Pow2(n), k requires 0 <= k < Pow2(n) => BitsOf(k, n))
  }

  /** The table is `itertools.product([nan, 1], repeat=n)` with `true` for 1. */
  lemma CombinationsAreProduct(n: nat)
    ensures InOutCombinations(n) == CartesianProduct(Repeat([false, true], n))
  {
    var rows := InOutCombinations(n);
    var product := CartesianProduct(Repeat([false, true], n));
    RepeatSize([false, true], n);
    forall k | 0 <= k < |rows|
      ensures rows[k] == product[k]
    {
      forall j | 0 <= j < n
        ensures rows[k][j] == product[k][j]
      {
        BinaryProductAt([false, true], n, k, j);
      }
    }
  }

  /** Every in/out pattern occurs, at the row its big-endian value names. */
  lemma CombinationComplete(row: seq<bool>)
    ensures BigEndian(row) < |InOutCombinations(|row|)|
    ensures InOutCombinations(|row|)[BigEndian(row)] == row
  {
    BitsOfBigEndian(row);
  }

  /** No pattern occurs twice. */
  lemma CombinationsDistinct(n: nat)
    ensures Distinct(InOutCombinations(n))
  {
    var rows := InOutCombinations(n);
    forall i, j | 0 <= i < j < |rows|
      ensures rows[i] != rows[j]
    {
      BigEndianBitsOf(i, n);
      BigEndianBitsOf(j, n);
    }
  }

  /** The first row has every blade out, the last every blade in. */
  lemma CombinationEnds(n: nat)
    ensures InOutCombinations(n)[0] == seq(n, _ => false)
    ensures InOutCombinations(n)[Pow2(n) - 1] == seq(n, _ => true)
  {
    var full: nat := Pow2(n) - 1;
    forall j | 0 <= j < n
      ensures !BitsOf(0, n)[j] && BitsOf(full, n)[j]
    {
      AllOnes(n, n - 1 - j);
      ZeroBits(n - 1 - j);
    }
    assert BitsOf(0, n) == seq(n, _ => false);
    assert BitsOf(full, n) == seq(n, _ => true);
  }

  lemma {:induction false} ZeroBits(b: nat)
    ensures !Bit(0, b)
  {
    if b > 0 {
      ZeroBits(b - 1);
    }
  }

  lemma {:induction false} AllOnes(n: nat, b: nat)
    requires b < n
    ensures Bit(Pow2(n) - 1, b)
  {
    assert Pow2(n) == 2 * Pow2(n - 1);
    if b > 0 {
      assert (Pow2(n) - 1) / 2 == Pow2(n - 1) - 1;
      AllOnes(n - 1, b - 1);
    }
  }

  // ---- scoring ----

  /** `all_transmissions * row`: the transmission of an inserted blade, NaN
      for a removed one (NaN times anything is NaN, so a stuck blade stays NaN). */
  function Mask(ts: seq<Option<real>>, row: seq<bool>): (r: seq<Option<real>>)
    requires |row| == |ts|
    ensures |r| == |ts|
    ensures forall j :: 0 <= j < |ts| ==> r[j] == if row[j] then ts[j] else None
  {
    seq(|ts|, j requires 0 <= j < |ts| => if row[j] then ts[j] else None)
  }

  /** The `nanprod` of each masked row, in order. */
  function Scores(ts: seq<Option<real>>, rows: seq<seq<bool>>): (r: seq<real>)
    requires forall k :: 0 <= k < |rows| ==> |rows[k]| == |ts|
    ensures |r| == |rows|
  {
    if |rows| == 0 then [] else [NanProd(Mask(ts, rows[0]))] + Scores(ts, rows[1..])
  }

  lemma {:induction false} ScoreAt(ts: seq<Option<real>>, rows: seq<seq<bool>>, k: nat)
    requires forall k :: 0 <= k < |rows| ==> |rows[k]| == |ts|
    requires k < |rows|
    ensures Scores(ts, rows)[k] == NanProd(Mask(ts, rows[k]))
  {
    if k > 0 {
      ScoreAt(ts, rows[1..], k - 1);
    }
  }

  /** `t_table`: the `nanprod` of each masked row, in table order. */
  function Products(ts: seq<Option<real>>): (r: seq<real>)
    ensures |r| == Pow2(|ts|)
  {
    Scores(ts, InOutCombinations(|ts|))
  }

  /** Entry `k` of the table is the transmission of row `k`. */
  lemma ProductIs(ts: seq<Option<real>>, k: nat)
    requires k < Pow2(|ts|)
    ensures Products(ts)[k] == NanProd(Mask(ts, InOutCombinations(|ts|)[k]))
  {
    ScoreAt(ts, InOutCombinations(|ts|), k);
  }

  /** `nan_to_num(row).astype(int)`. */
  function FilterStates(row: seq<bool>): (r: seq<int>)
    ensures |r| == |row|
    ensures forall j :: 0 <= j < |row| ==> r[j] == if row[j] then 1 else 0
  {
    seq(|row|, j requires 0 <= j < |row| => if row[j] then 1 else 0)
  }

  /** The blades a list of filter states inserts: every non-zero state. */
  function Inserted(states: seq<int>): (r: seq<bool>)
    ensures |r| == |states|
    ensures forall j :: 0 <= j < |states| ==> r[j] == (states[j] != 0)
  {
    seq(|states|, j requires 0 <= j < |states| => states[j] != 0)
  }

  datatype Config = Config(allTransmissions: seq<Option<real>>, filterStates: seq<int>, transmission: real)

  datatype ConfigPair = ConfigPair(floor: Config, ceiling: Config)

  /** A configuration that can be reached: one 0/1 state per blade and the
      transmission those states give. */
  predicate Consistent(ts: seq<Option<real>>, c: Config) {
    c.allTransmissions == ts &&
    |c.filterStates| == |ts| &&
    (forall j :: 0 <= j < |ts| ==> c.filterStates[j] == 0 || c.filterStates[j] == 1) &&
    c.transmission == NanProd(Mask(ts, Inserted(c.filterStates)))
  }

  /** `Config(...)` for one row of the in/out table. */
  function MakeConfig(ts: seq<Option<real>>, row: seq<bool>): (c: Config)
    requires |row| == |ts|
    ensures Consistent(ts, c)
    ensures Inserted(c.filterStates) == row
  {
    var states := FilterStates(row);
    assert Inserted(states) == row;
    Config(ts, states, NanProd(Mask(ts, row)))
  }

  // ---- selection ----

  /** `np.argmin(np.abs(sorted - t_des))`. */
  function Closest(sorted: seq<real>, tDes: real): (i: nat)
    requires |sorted| > 0
    ensures i < |sorted|
    ensures forall k :: 0 <= k < |sorted| ==> Abs(sorted[i] - tDes) <= Abs(sorted[k] - tDes)
    ensures forall k :: 0 <= k < i ==> Abs(sorted[i] - tDes) < Abs(sorted[k] - tDes)
  {
    FirstArgmin(Distances(sorted, tDes))
  }

  /** The floor and ceiling positions in the sorted table around the closest
      position `i`: below the target the ceiling is the next position
      (clamped to the last), above it the floor is the previous position
      (clamped to the first), on the target both are `i`. */
  function Neighbours(sorted: seq<real>, i: nat, tDes: real): (r: (nat, nat))
    requires i < |sorted|
    ensures r.0 <= i <= r.1 < |sorted|
    ensures r.1 - r.0 <= 1
    ensures r.0 < i ==> sorted[i] > tDes && r.1 == i
    ensures i < r.1 ==> sorted[i] < tDes && r.0 == i
    ensures sorted[i] < tDes ==> r == (i, Min(i + 1, |sorted| - 1))
    ensures sorted[i] > tDes ==> r == (Max(i - 1, 0), i)
    ensures sorted[i] == tDes ==> r == (i, i)
  {
    if sorted[i] < tDes then (i, Min(i + 1, |sorted| - 1))
    else if sorted[i] > tDes then (Max(i - 1, 0), i)
    else (i, i)
  }

  /** `find_configs` with the sort order `np.argsort` chose: any order along
      which the products ascend. */
  function FindConfigsWith(ts: seq<Option<real>>, tDes: real, order: seq<nat>): (r: ConfigPair)
    requires SortsBy(order, Products(ts))
    ensures Consistent(ts, r.floor) && Consistent(ts, r.ceiling)
    ensures r.floor.transmission <= r.ceiling.transmission
  {
    var prods := Products(ts);
    var sorted := Apply(prods, order);
    var (lo, hi) := Neighbours(sorted, Closest(sorted, tDes), tDes);
    var rows := InOutCombinations(|ts|);
    ProductIs(ts, order[lo]);
    ProductIs(ts, order[hi]);
    ConfigPair(MakeConfig(ts, rows[order[lo]]), MakeConfig(ts, rows[order[hi]]))
  }

  /** `find_configs`. numpy's quicksort leaves the order of equal products
      open; this model sorts stably, and `TieIndependent` shows that the
      transmissions do not depend on the choice. */
  function FindConfigs(ts: seq<Option<real>>, tDes: real): (r: ConfigPair)
    ensures Consistent(ts, r.floor) && Consistent(ts, r.ceiling)
    ensures r.floor.transmission <= r.ceiling.transmission
  {
    FindConfigsWith(ts, tDes, StableArgsort(Products(ts)))
  }

  /** The transmissions `FindConfigsWith` returns are the products at the
      floor and ceiling positions of the sorted table. */
  lemma SelectedPositions(ts: seq<Option<real>>, tDes: real, order: seq<nat>)
      returns (sorted: seq<real>, i: nat, lo: nat, hi: nat)
    requires SortsBy(order, Products(ts))
    ensures sorted == Apply(Products(ts), order) && |sorted| == |Products(ts)|
    ensures i == Closest(sorted, tDes) && (lo, hi) == Neighbours(sorted, i, tDes)
    ensures FindConfigsWith(ts, tDes, order).floor.transmission == sorted[lo]
    ensures FindConfigsWith(ts, tDes, order).ceiling.transmission == sorted[hi]
  {
    sorted := Apply(Products(ts), order);
    i := Closest(sorted, tDes);
    var pair := Neighbours(sorted, i, tDes);
    lo, hi := pair.0, pair.1;
    ProductIs(ts, order[lo]);
    ProductIs(ts, order[hi]);
  }

  /** Every product sits somewhere in the sorted table. */
  lemma ProductInSorted(prods: seq<real>, order: seq<nat>, k: nat) returns (m: nat)
    requires SortsBy(order, prods) && k < |prods|
    ensures m < |order| && order[m] == k && Apply(prods, order)[m] == prods[k]
  {
    m := PositionOf(order, |prods|, k);
  }

  /** No product lies strictly between the floor and the ceiling. */
  lemma NothingBetween(ts: seq<Option<real>>, tDes: real, order: seq<nat>, k: nat)
    requires SortsBy(order, Products(ts)) && k < |Products(ts)|
    ensures var r := FindConfigsWith(ts, tDes, order);
      Products(ts)[k] <= r.floor.transmission || Products(ts)[k] >= r.ceiling.transmission
  {
    var sorted, i, lo, hi := SelectedPositions(ts, tDes, order);
    var m := ProductInSorted(Products(ts), order, k);
    if m <= lo {
      assert sorted[m] <= sorted[lo];
    } else {
      assert hi <= m;
      assert sorted[hi] <= sorted[m];
    }
  }

  /** One of the two results is at least as close to the target as every
      product. */
  lemma OneIsNearest(ts: seq<Option<real>>, tDes: real, order: seq<nat>)
    requires SortsBy(order, Products(ts))
    ensures var r := FindConfigsWith(ts, tDes, order);
      (forall k :: 0 <= k < |Products(ts)| ==>
         Abs(r.floor.transmission - tDes) <= Abs(Products(ts)[k] - tDes)) ||
      (forall k :: 0 <= k < |Products(ts)| ==>
         Abs(r.ceiling.transmission - tDes) <= Abs(Products(ts)[k] - tDes))
  {
    var sorted, i, lo, hi := SelectedPositions(ts, tDes, order);
    var prods := Products(ts);
    forall k | 0 <= k < |prods|
      ensures Abs(sorted[i] - tDes) <= Abs(prods[k] - tDes)
    {
      var m := ProductInSorted(prods, order, k);
    }
    assert lo == i || hi == i;
  }

  /** A product equal to the target is returned as both floor and ceiling. */
  lemma ExactMatch(ts: seq<Option<real>>, tDes: real, order: seq<nat>, k: nat)
    requires SortsBy(order, Products(ts)) && k < |Products(ts)| && Products(ts)[k] == tDes
    ensures FindConfigsWith(ts, tDes, order).floor.transmission == tDes
    ensures FindConfigsWith(ts, tDes, order).ceiling.transmission == tDes
  {
    var sorted, i, lo, hi := SelectedPositions(ts, tDes, order);
    var m := ProductInSorted(Products(ts), order, k);
    assert Abs(sorted[i] - tDes) <= Abs(sorted[m] - tDes) == 0.0;
  }

  /** The floor lies above the target exactly when every product does; then
      floor and ceiling are the same configuration, the smallest product. */
  lemma FloorAbove(ts: seq<Option<real>>, tDes: real, order: seq<nat>)
    requires SortsBy(order, Products(ts))
    ensures var r := FindConfigsWith(ts, tDes, order);
      r.floor.transmission > tDes <==>
        forall k :: 0 <= k < |Products(ts)| ==> Products(ts)[k] > tDes
    ensures var r := FindConfigsWith(ts, tDes, order);
      r.floor.transmission > tDes ==>
        r.floor == r.ceiling &&
        forall k :: 0 <= k < |Products(ts)| ==> r.floor.transmission <= Products(ts)[k]
  {
    var sorted, i, lo, hi := SelectedPositions(ts, tDes, order);
    var prods := Products(ts);
    var r := FindConfigsWith(ts, tDes, order);
    if sorted[lo] > tDes {
      forall k | 0 <= k < |prods|
        ensures sorted[0] <= prods[k]
      {
        var m := ProductInSorted(prods, order, k);
      }
    } else {
      var m := PositionOf(order, |prods|, order[lo]);
      PermutationInRange(order, |prods|);
      assert prods[order[lo]] <= tDes;
    }
  }

  /** The ceiling lies below the target only with the floor at the same
      transmission. */
  lemma CeilingBelow(ts: seq<Option<real>>, tDes: real, order: seq<nat>)
    requires SortsBy(order, Products(ts))
    ensures var r := FindConfigsWith(ts, tDes, order);
      r.ceiling.transmission < tDes ==> r.floor.transmission == r.ceiling.transmission
  {
    var sorted, i, lo, hi := SelectedPositions(ts, tDes, order);
    if sorted[hi] < tDes && i < hi {
      assert sorted[i] <= sorted[hi];
    }
  }

  /** With every product below the target, floor and ceiling both have the
      largest product's transmission. */
  lemma AllBelow(ts: seq<Option<real>>, tDes: real, order: seq<nat>)
    requires SortsBy(order, Products(ts))
    requires forall k :: 0 <= k < |Products(ts)| ==> Products(ts)[k] < tDes
    ensures var r := FindConfigsWith(ts, tDes, order);
      r.floor.transmission == r.ceiling.transmission < tDes &&
      forall k :: 0 <= k < |Products(ts)| ==> Products(ts)[k] <= r.ceiling.transmission
  {
    var sorted, i, lo, hi := SelectedPositions(ts, tDes, order);
    var prods := Products(ts);
    var last := |sorted| - 1;
    SortedBelow(prods, order, tDes);
    assert sorted[i] >= sorted[last] by {
      assert Abs(sorted[i] - tDes) <= Abs(sorted[last] - tDes);
    }
    assert sorted[i] <= sorted[hi] <= sorted[last];
    forall k | 0 <= k < |prods|
      ensures prods[k] <= sorted[last]
    {
      var m := ProductInSorted(prods, order, k);
    }
  }

  lemma SortedBelow(prods: seq<real>, order: seq<nat>, tDes: real)
    requires SortsBy(order, prods)
    requires forall k :: 0 <= k < |prods| ==> prods[k] < tDes
    ensures forall m :: 0 <= m < |order| ==> Apply(prods, order)[m] < tDes
  {
  }

  /** With pairwise distinct products, the ceiling lies below the target only
      when every product does. */
  lemma CeilingBelowDistinct(ts: seq<Option<real>>, tDes: real, order: seq<nat>)
    requires SortsBy(order, Products(ts)) && Distinct(Products(ts))
    ensures var r := FindConfigsWith(ts, tDes, order);
      r.ceiling.transmission < tDes ==>
        forall k :: 0 <= k < |Products(ts)| ==> Products(ts)[k] < tDes
  {
    var sorted, i, lo, hi := SelectedPositions(ts, tDes, order);
    var prods := Products(ts);
    PermutationInRange(order, |prods|);
    if sorted[hi] < tDes {
      if i < hi {
        PermutationInjective(order, |prods|, i, hi);
        assert false;
      }
      forall k | 0 <= k < |prods|
        ensures prods[k] < tDes
      {
        var m := ProductInSorted(prods, order, k);
      }
    }
  }

  /** With pairwise distinct products and the target inside their range,
      the floor is at most and the ceiling at least the target. */
  lemma Bracket(ts: seq<Option<real>>, tDes: real, order: seq<nat>, lowK: nat, highK: nat)
    requires SortsBy(order, Products(ts)) && Distinct(Products(ts))
    requires lowK < |Products(ts)| && Products(ts)[lowK] <= tDes
    requires highK < |Products(ts)| && Products(ts)[highK] >= tDes
    ensures FindConfigsWith(ts, tDes, order).floor.transmission <= tDes
    ensures FindConfigsWith(ts, tDes, order).ceiling.transmission >= tDes
  {
    FloorAbove(ts, tDes, order);
    CeilingBelowDistinct(ts, tDes, order);
  }

  /** Whichever ascending order numpy's sort picks among equal products, the
      floor and ceiling transmissions are the same. */
  lemma TieIndependent(ts: seq<Option<real>>, tDes: real, p: seq<nat>, q: seq<nat>)
    requires SortsBy(p, Products(ts)) && SortsBy(q, Products(ts))
    ensures FindConfigsWith(ts, tDes, p).floor.transmission
         == FindConfigsWith(ts, tDes, q).floor.transmission
    ensures FindConfigsWith(ts, tDes, p).ceiling.transmission
         == FindConfigsWith(ts, tDes, q).ceiling.transmission
  {
    var sp, ip, lop, hip := SelectedPositions(ts, tDes, p);
    var sq, iq, loq, hiq := SelectedPositions(ts, tDes, q);
    SortsByUnique(Products(ts), p, q);
  }

  /** With every blade stuck, nothing can be inserted: both results transmit
      everything. */
  lemma AllStuck(ts: seq<Option<real>>, tDes: real, order: seq<nat>)
    requires SortsBy(order, Products(ts))
    requires forall j :: 0 <= j < |ts| ==> ts[j].None?
    ensures FindConfigsWith(ts, tDes, order).floor.transmission == 1.0
    ensures FindConfigsWith(ts, tDes, order).ceiling.transmission == 1.0
  {
    var r := FindConfigsWith(ts, tDes, order);
    NanProdAllNaN(Mask(ts, Inserted(r.floor.filterStates)));
    NanProdAllNaN(Mask(ts, Inserted(r.ceiling.filterStates)));
  }

  /** With working transmissions in (0, 1], every product lies between the
      all-in product and 1. */
  lemma MaskBounds(ts: seq<Option<real>>, row: seq<bool>)
    requires |row| == |ts|
    requires Fractions(ts)
    ensures NanProd(ts) <= NanProd(Mask(ts, row)) <= 1.0
  {
    NanProdUnit(Mask(ts, row));
    MaskAbove(ts, row);
  }

  /** The lower half of `MaskBounds`, by induction on the blades. */
  lemma {:induction false} MaskAbove(ts: seq<Option<real>>, row: seq<bool>)
    requires |row| == |ts|
    requires Fractions(ts)
    ensures NanProd(ts) <= NanProd(Mask(ts, row))
  {
    if |ts| > 0 {
      var mk := Mask(ts, row);
      MaskTail(ts, row);
      MaskAbove(ts[1..], row[1..]);
      NanProdUnit(ts[1..]);
      ScaleBetween(Factor(ts[0]), NanProd(ts[1..]), NanProd(mk[1..]), Factor(mk[0]));
    }
  }

  lemma MaskTail(ts: seq<Option<real>>, row: seq<bool>)
    requires |row| == |ts| > 0
    ensures Mask(ts, row)[1..] == Mask(ts[1..], row[1..])
    ensures Factor(Mask(ts, row)[0]) == if row[0] then Factor(ts[0]) else 1.0
  {
  }

  /** The arithmetic step of `MaskBounds`: scaling a smaller product by `f`
      stays below a larger one scaled by `f` or by 1. */
  lemma ScaleBetween(f: real, a: real, m: real, g: real)
    requires 0.0 < f <= 1.0 && 0.0 < a <= m && (g == f || g == 1.0)
    ensures f * a <= g * m
  {
    assert f * a <= f * m;
    assert f * m <= m;
  }

  /** The last row of the table inserts every blade. */
  lemma AllInLast(ts: seq<Option<real>>)
    ensures Products(ts)[|Products(ts)| - 1] == NanProd(ts)
  {
    var rows := InOutCombinations(|ts|);
    ProductIs(ts, |rows| - 1);
    CombinationEnds(|ts|);
    assert Mask(ts, rows[|rows| - 1]) == ts;
  }

  /** Every product is at least the all-in product. */
  lemma AllInBelow(ts: seq<Option<real>>, k: nat)
    requires Fractions(ts) && k < |Products(ts)|
    ensures Products(ts)[|Products(ts)| - 1] <= Products(ts)[k]
  {
    ProductIs(ts, k);
    MaskBounds(ts, InOutCombinations(|ts|)[k]);
    AllInLast(ts);
  }

  /** A target below the all-in product is met by inserting every working
      blade, as floor and as ceiling. */
  lemma BelowReach(ts: seq<Option<real>>, tDes: real, order: seq<nat>)
    requires SortsBy(order, Products(ts))
    requires Fractions(ts)
    requires tDes < NanProd(ts)
    ensures FindConfigsWith(ts, tDes, order).floor.transmission == NanProd(ts)
    ensures FindConfigsWith(ts, tDes, order).ceiling.transmission == NanProd(ts)
  {
    var sorted, i, lo, hi := SelectedPositions(ts, tDes, order);
    AllInFirst(ts, order);
    AllInLast(ts);
    LeastFirst(sorted, tDes);
  }

  /** Every ascending order of the products starts with the all-in row's. */
  lemma AllInFirst(ts: seq<Option<real>>, order: seq<nat>)
    requires SortsBy(order, Products(ts)) && Fractions(ts)
    ensures Apply(Products(ts), order)[0] == Products(ts)[|Products(ts)| - 1]
  {
    FirstAtMostAllIn(ts, order);
    FirstAtLeastAllIn(ts, order);
  }

  lemma FirstAtMostAllIn(ts: seq<Option<real>>, order: seq<nat>)
    requires SortsBy(order, Products(ts))
    ensures Apply(Products(ts), order)[0] <= Products(ts)[|Products(ts)| - 1]
  {
    var last := |Products(ts)| - 1;
    LeadsAtMost(Products(ts), order, last, Products(ts)[last]);
  }

  lemma FirstAtLeastAllIn(ts: seq<Option<real>>, order: seq<nat>)
    requires SortsBy(order, Products(ts)) && Fractions(ts)
    ensures Apply(Products(ts), order)[0] >= Products(ts)[|Products(ts)| - 1]
  {
    AllInBelow(ts, order[0]);
  }

  /** The first entry of an ascending order is no larger than any value. */
  lemma LeadsAtMost(prods: seq<real>, order: seq<nat>, w: nat, v: real)
    requires SortsBy(order, prods) && w < |prods| && prods[w] == v
    ensures Apply(prods, order)[0] <= v
  {
    var m := ProductInSorted(prods, order, w);
    assert Apply(prods, order)[0] <= Apply(prods, order)[m];
  }

  /** With the first entry of an ascending table above the target, the
      first entry is the closest one and both floor and ceiling. */
  lemma LeastFirst(sorted: seq<real>, tDes: real)
    requires |sorted| > 0 && Ascending(sorted) && tDes < sorted[0]
    ensures Closest(sorted, tDes) == 0
    ensures Neighbours(sorted, 0, tDes) == (0, 0)
  {
    var i := Closest(sorted, tDes);
    assert sorted[0] <= sorted[i];
  }

  /** Three blades transmitting 0.5, 0.8 and a stuck one, asked for 0.3:
      nothing reaches 0.3, so floor and ceiling are both the all-in 0.4. */
  lemma ThreeBladeExample()
    ensures FindConfigs([Some(0.5), Some(0.8), None], 0.3).floor.transmission == 0.4
    ensures FindConfigs([Some(0.5), Some(0.8), None], 0.3).ceiling.transmission == 0.4
  {
    var ts: seq<Option<real>> := [Some(0.5), Some(0.8), None];
    assert NanProd(ts) == 0.4 by {
      assert ts[1..] == [Some(0.8), None];
      assert ts[1..][1..] == [None];
      assert |ts[1..][1..][1..]| == 0;
    }
    BelowReach(ts, 0.3, StableArgsort(Products(ts)));
  }

  // ---- the mode projection ----

  /** The floor in `Floor` mode, the ceiling otherwise. */
  function Pick(pair: ConfigPair, m: ConfigMode): Config {
    if m == Floor then pair.floor else pair.ceiling
  }

  /** `get_best_config`: the floor in `Floor` mode, the ceiling otherwise; an
      unknown mode name is a `KeyError`. */
  function GetBestConfig(ts: seq<Option<real>>, tDes: real, mode: ModeArg): (r: Result<Config>)
    ensures r.Success? <==> ResolveMode(mode).Success?
    ensures r.Failure? ==> r.error == KeyError
    ensures r.Success? ==> Consistent(ts, r.value)
    ensures r.Success? ==>
      r.value == if ResolveMode(mode).value == Floor then FindConfigs(ts, tDes).floor
                 else FindConfigs(ts, tDes).ceiling
  {
    match ResolveMode(mode)
    case Failure(e) => Failure(e)
    case Success(m) => Success(Pick(FindConfigs(ts, tDes), m))
  }

  /** The result of `get_best_config` in `Floor` mode never transmits more
      than the `Ceiling` mode's, and both are reachable configurations. */
  lemma FloorBelowCeiling(ts: seq<Option<real>>, tDes: real)
    ensures GetBestConfig(ts, tDes, Mode(Floor)).Success?
    ensures GetBestConfig(ts, tDes, Mode(Ceiling)).Success?
    ensures GetBestConfig(ts, tDes, Mode(Floor)).value.transmission
         <= GetBestConfig(ts, tDes, Mode(Ceiling)).value.transmission
    ensures GetBestConfig(ts, tDes, Name("Floor")) == GetBestConfig(ts, tDes, Mode(Floor))
  {
  }
}

=== FILE: caproto_satt_app.dfy ===
/** `caproto/ioc-satt-dev/satt_app.py`, the caproto variant of the early
    IOC. Its total transmission multiplies every filter's `T` value with no
    exception for stuck blades. Its energy lookup is textually the one of
    `ioc-satt-dev/satt_app.py` and is modelled there (`SattApp.CalcClosestEv`). */
module CaprotoSattApp {

  import opened Common

  /** The name of a filter's transmission PV inside its group. */
  function TKey(prefix: string, group: string): string {
    prefix + ":FILTER:" + group + ":T"
  }

  /** The group of `group` and its transmission PV both exist. */
  predicate Readable(prefix: string, groups: map<string, map<string, real>>, group: string) {
    group in groups && TKey(prefix, group) in groups[group]
  }

  /** `t_calc`: the product of the `T` value of every group named in
      `filter_group`; a missing group or PV raises `KeyError`. */
  function TCalc(prefix: string, groups: map<string, map<string, real>>, filterGroup: seq<string>)
    : (r: Result<real>)
    ensures r.Success? <==> forall j :: 0 <= j < |filterGroup| ==> Readable(prefix, groups, filterGroup[j])
    ensures r.Failure? ==> r.error == KeyError
  {
    if |filterGroup| == 0 then Success(1.0)
    else
      var g := filterGroup[0];
      if !Readable(prefix, groups, g) then Failure(KeyError)
      else
        match TCalc(prefix, groups, filterGroup[1..])
        case Failure(e) =>
          assert !(forall j :: 0 <= j < |filterGroup| ==> Readable(prefix, groups, filterGroup[j])) by {
            var j :| 0 <= j < |filterGroup[1..]| && !Readable(prefix, groups, filterGroup[1..][j]);
            assert filterGroup[1..][j] == filterGroup[j + 1];
          }
          Failure(e)
        case Success(t) =>
          assert forall j :: 0 <= j < |filterGroup| ==> Readable(prefix, groups, filterGroup[j]) by {
            forall j | 0 <= j < |filterGroup|
              ensures Readable(prefix, groups, filterGroup[j])
            {
              if j > 0 {
                assert filterGroup[j] == filterGroup[1..][j - 1];
              }
            }
          }
          Success(groups[g][TKey(prefix, g)] * t)
  }

  /** The `T` readings of the named groups, each as a finite value. The
      ensures only spells out the lookups; `TCalcIsProduct` gives them
      their meaning, the factors of `t_calc`. */
  function Readings(prefix: string, groups: map<string, map<string, real>>, filterGroup: seq<string>)
    : (r: seq<Option<real>>)
    requires forall j :: 0 <= j < |filterGroup| ==> Readable(prefix, groups, filterGroup[j])
    ensures |r| == |filterGroup|
    ensures forall j :: 0 <= j < |filterGroup| ==>
      Readable(prefix, groups, filterGroup[j]) &&
      r[j] == Some(groups[filterGroup[j]][TKey(prefix, filterGroup[j])])
  {
    seq(|filterGroup|, j requires 0 <= j < |filterGroup| && Readable(prefix, groups, filterGroup[j]) =>
      Some(groups[filterGroup[j]][TKey(prefix, filterGroup[j])]))
  }

  /** `t_calc` is the product of all readings: no blade is left out. */
  lemma {:induction false} TCalcIsProduct(prefix: string, groups: map<string, map<string, real>>,
                                          filterGroup: seq<string>)
    requires forall j :: 0 <= j < |filterGroup| ==> Readable(prefix, groups, filterGroup[j])
    ensures TCalc(prefix, groups, filterGroup).value == NanProd(Readings(prefix, groups, filterGroup))
  {
    if |filterGroup| > 0 {
      var rest := filterGroup[1..];
      assert forall j :: 0 <= j < |rest| ==> rest[j] == filterGroup[j + 1];
      TCalcIsProduct(prefix, groups, rest);
      assert Readings(prefix, groups, filterGroup)[1..] == Readings(prefix, groups, rest);
    }
  }

  /** With every reading a transmission in (0, 1], so is the total. */
  lemma TCalcBounds(prefix: string, groups: map<string, map<string, real>>, filterGroup: seq<string>)
    requires forall j :: 0 <= j < |filterGroup| ==> Readable(prefix, groups, filterGroup[j])
    requires Fractions(Readings(prefix, groups, filterGroup))
    ensures 0.0 < TCalc(prefix, groups, filterGroup).value <= 1.0
  {
    TCalcIsProduct(prefix, groups, filterGroup);
    NanProdUnit(Readings(prefix, groups, filterGroup));
  }
}

=== FILE: common.dfy ===
/** Shared vocabulary of the attenuator model: NaN-able values, the Python
    exceptions the modelled code can raise, and numpy's numeric helpers. */
module Common {

  /** A float that may be NaN: `None` is NaN (a stuck blade, a removed blade
      in a product table), `Some(v)` a finite value. */
  datatype Option<+T> = None | Some(value: T)

  /** The Python exceptions raised by the modelled code. */
  datatype Error =
    | ValueError     // bad argument, `int()` of NaN, `argmin` of an empty array
    | KeyError       // missing dictionary key or enum name
    | IndexError     // list or array index out of range
    | OverflowError  // `int()` of an infinity

  /** Either a value or the exception the source raises instead. */
  datatype Result<+T> = Success(value: T) | Failure(error: Error)

  function Abs(x: real): real {
    if x < 0.0 then -x else x
  }

  function Min(a: int, b: int): int {
    if a <= b then a else b
  }

  function Max(a: int, b: int): int {
    if a >= b then a else b
  }

  function Pow2(n: nat): (r: nat)
    ensures r >= 1
  {
    if n == 0 then 1 else 2 * Pow2(n - 1)
  }

  /** The factor a possibly-NaN entry contributes to `np.nanprod`. */
  function Factor(x: Option<real>): real {
    match x
    case Some(v) => v
    case None => 1.0
  }

  /** `np.nanprod`: the product of the non-NaN entries, 1.0 when there are none. */
  function NanProd(xs: seq<Option<real>>): real {
    if |xs| == 0 then 1.0 else Factor(xs[0]) * NanProd(xs[1..])
  }

  /** Real multiplication as a named operation: equal factors give equal
      products without appeal to arithmetic. */
  function Mul(a: real, b: real): (r: real)
    ensures a > 0.0 && b > 0.0 ==> r > 0.0
  {
    a * b
  }

  /** NaN-propagating multiplication, as numpy multiplies arrays elementwise. */
  function Times(a: Option<real>, b: Option<real>): Option<real> {
    match (a, b)
    case (Some(x), Some(y)) => Some(x * y)
    case _ => None
  }

  /** numpy's `rint`: round to the nearest integer, ties to even. */
  function Rint(x: real): (r: int)
    ensures Abs(x - r as real) <= 0.5
    ensures Abs(x - r as real) == 0.5 ==> r % 2 == 0
  {
    var f := x.Floor;
    var frac := x - f as real;
    if frac < 0.5 then f
    else if frac > 0.5 then f + 1
    else if f % 2 == 0 then f
    else f + 1
  }

  /** No integer is closer to `x` than `Rint(x)`. */
  lemma RintNearest(x: real, n: int)
    ensures Abs(x - Rint(x) as real) <= Abs(x - n as real)
  {
    var r := Rint(x);
    if n < r {
      assert n as real <= r as real - 1.0;
    } else if n > r {
      assert n as real >= r as real + 1.0;
    }
  }

  /** The smallest integer numpy's int64 can hold. */
  const Int64Min: int := -0x8000_0000_0000_0000

  /** `astype(np.int)` of a float64 on x86-64: truncation toward zero, and
      NaN becomes the smallest int64 (the hardware's "integer indefinite"). */
  function AsInt(x: Option<real>): int {
    match x
    case None => Int64Min
    case Some(v) => if v >= 0.0 then v.Floor else -((-v).Floor)
  }

  /** `np.nan_to_num`: NaN becomes 0.0. */
  function NanToNum(x: Option<real>): real {
    match x
    case None => 0.0
    case Some(v) => v
  }

  /** Python accepts an index `i` into a list of length `n` iff -n <= i < n. */
  predicate PyIndexValid(i: int, n: nat) {
    -(n as int) <= i < n
  }

  /** The position a valid Python index denotes: negative ones count from the end. */
  function PyIndex(i: int, n: nat): (r: nat)
    requires PyIndexValid(i, n)
    ensures r < n
    ensures r as int == i || r as int == i + n
  {
    if i < 0 then i + n else i
  }

  // ---- facts about nanprod ----

  lemma {:induction false} NanProdAppend(a: seq<Option<real>>, b: seq<Option<real>>)
    ensures NanProd(a + b) == NanProd(a) * NanProd(b)
  {
    if |a| == 0 {
      assert a + b == b;
    } else {
      assert (a + b)[1..] == a[1..] + b;
      NanProdAppend(a[1..], b);
    }
  }

  /** Turning one NaN entry into `y` multiplies the product by `y`'s factor. */
  lemma {:induction false} NanProdUpdate(xs: seq<Option<real>>, j: nat, y: Option<real>)
    requires j < |xs| && xs[j] == None
    ensures NanProd(xs[j := y]) == Mul(NanProd(xs), Factor(y))
  {
    if j == 0 {
      assert xs[j := y][1..] == xs[1..];
    } else {
      assert xs[j := y][1..] == xs[1..][j - 1 := y];
      NanProdUpdate(xs[1..], j - 1, y);
    }
  }

  lemma {:induction false} NanProdAllNaN(xs: seq<Option<real>>)
    requires forall j :: 0 <= j < |xs| ==> xs[j] == None
    ensures NanProd(xs) == 1.0
  {
    if |xs| > 0 {
      NanProdAllNaN(xs[1..]);
    }
  }

  lemma {:induction false} NanProdPositive(xs: seq<Option<real>>)
    requires forall j :: 0 <= j < |xs| && xs[j].Some? ==> xs[j].value > 0.0
    ensures NanProd(xs) > 0.0
  {
    if |xs| > 0 {
      NanProdPositive(xs[1..]);
    }
  }

  /** Every finite entry is a transmission in (0, 1]. */
  predicate Fractions(xs: seq<Option<real>>) {
    forall j :: 0 <= j < |xs| && xs[j].Some? ==> 0.0 < xs[j].value <= 1.0
  }

  /** One more entry multiplies the product by its value unless it is NaN. */
  lemma NanProdSnoc(xs: seq<Option<real>>, x: Option<real>)
    ensures NanProd(xs + [x]) == if x.None? then NanProd(xs) else Mul(NanProd(xs), x.value)
  {
    NanProdAppend(xs, [x]);
    assert [x][1..] == [];
  }

  /** With every finite entry in (0, 1], the product is in (0, 1]. */
  lemma {:induction false} NanProdUnit(xs: seq<Option<real>>)
    requires Fractions(xs)
    ensures 0.0 < NanProd(xs) <= 1.0
  {
    if |xs| > 0 {
      NanProdUnit(xs[1..]);
      var f := Factor(xs[0]);
      var rest := NanProd(xs[1..]);
      assert 0.0 < f <= 1.0;
      assert f * rest <= 1.0 * rest;
    }
  }
}

=== FILE: configurations.dfy ===
/** `configurations.py`: the table of blade in/out states that the early
    IOCs load from an HDF5 file, one row per combination, NaN for a removed
    blade and 1 for an inserted one. Writing the file is not modelled. */
module Configurations {

  import opened Common
  import opened Bits
  import opened Cartesian
  import opened Calculator

  /** A blade state as a table entry: NaN when removed, 1 when inserted. */
  function BladeValue(inserted: bool): Option<real> {
    if inserted then Some(1.0) else None
  }

  /** `in_out_attenuator(N)`: `itertools.product([nan, 1], repeat=N)`. */
  function InOutAttenuator(n: nat): (r: seq<seq<Option<real>>>)
    ensures |r| == Pow2(n)
    ensures forall k :: 0 <= k < |r| ==> |r[k]| == n
    ensures forall k, j :: 0 <= k < |r| && 0 <= j < n ==> r[k][j] == None || r[k][j] == Some(1.0)
  {
    var values := [None, Some(1.0)];
    RepeatSize(values, n);
    var r := CartesianProduct(Repeat(values, n));
    forall k, j | 0 <= k < |r| && 0 <= j < n
      ensures r[k][j] == None || r[k][j] == Some(1.0)
    {
      assert r[k][j] in Repeat(values, n)[j];
    }
    r
  }

  /** The table is the in/out combinations of the solid-attenuator
      calculator with each state written as a table entry. */
  lemma AttenuatorIsCombinations(n: nat)
    ensures InOutAttenuator(n) == MapRows(BladeValue, InOutCombinations(n))
  {
    CombinationsAreProduct(n);
    BinaryProductMap([false, true], [None, Some(1.0)], BladeValue, n);
  }

  /** Entry `j` of row `k` is 1 exactly when bit `n - 1 - j` of `k` is set:
      the rows count upward in binary with the first blade varying slowest. */
  lemma AttenuatorAt(n: nat, k: nat, j: nat)
    requires k < Pow2(n) && j < n
    ensures InOutAttenuator(n)[k][j] == if Bit(k, n - 1 - j) then Some(1.0) else None
  {
    BinaryProductAt([None, Some(1.0)], n, k, j);
  }

  /** The first row has every blade removed and the last every blade
      inserted. */
  lemma AttenuatorEnds(n: nat)
    ensures InOutAttenuator(n)[0] == seq(n, _ => None)
    ensures InOutAttenuator(n)[Pow2(n) - 1] == seq(n, _ => Some(1.0))
  {
    AttenuatorIsCombinations(n);
    CombinationEnds(n);
  }
}

=== FILE: energy.dfy ===
/** The energy lookup of `solid_attenuator/calculator.py`
    (`find_closest_energy`): the row of the absorption table whose photon
    energy is closest to the requested one, estimated from the first and
    last tabulated energies as if the rows were evenly spaced, and clamped to
    the table. Only the energy column of the table matters here. */
module Energy {

  import opened Common

  /** The tabulated energy found and the index used to find it; the index
      is `-1` when the lookup ran past the end and the last row was used. */
  datatype Closest = Closest(energy: real, index: int)

  /** `int(np.rint((photon_energy - min_energy) / energy_increment))` with
      the increment `(max_energy - min_energy) / divisor`. When the two
      energies are equal the increment is zero and numpy's division gives
      NaN for `0/0`, for which `int()` raises `ValueError`, and an infinity
      otherwise, for which it raises `OverflowError`. Otherwise the result
      is the integer nearest to the quotient. */
  function RawIndex(eV: real, lo: real, hi: real, divisor: nat): (r: Result<int>)
    requires divisor > 0
    ensures r.Failure? <==> hi == lo
    ensures r.Failure? ==> r.error == if eV == lo then ValueError else OverflowError
    ensures r.Success? ==> Abs((eV - lo) / ((hi - lo) / divisor as real) - r.value as real) <= 0.5
  {
    var inc := (hi - lo) / divisor as real;
    if inc == 0.0 then
      if eV == lo then Failure(ValueError) else Failure(OverflowError)
    else
      Success(Rint((eV - lo) / inc))
  }

  /** The clamp of `find_closest_energy`: a negative index becomes 0, and an
      index at or past the end becomes `-1`, the last row. */
  function Clamp(raw: int, n: nat): (i: int)
    requires n > 0
    ensures PyIndexValid(i, n) && -1 <= i
    ensures 0 <= raw < n ==> i == raw
    ensures raw < 0 ==> i == 0
    ensures raw >= n ==> PyIndex(i, n) == n - 1
  {
    var i := if raw < 0 then 0 else raw;
    if i >= n then -1 else i
  }

  /** `find_closest_energy`: with an empty table reading `table[0, 0]`
      raises `IndexError`. */
  function FindClosestEnergy(eV: real, energies: seq<real>): (r: Result<Closest>)
    ensures |energies| == 0 ==> r == Failure(IndexError)
    ensures r.Failure? <==> |energies| == 0 || energies[0] == energies[|energies| - 1]
    ensures r.Success? ==> PyIndexValid(r.value.index, |energies|) && -1 <= r.value.index
    ensures r.Success? ==> r.value.energy == energies[PyIndex(r.value.index, |energies|)]
  {
    if |energies| == 0 then Failure(IndexError)
    else
      var n := |energies|;
      match RawIndex(eV, energies[0], energies[n - 1], n)
      case Failure(e) => Failure(e)
      case Success(raw) =>
        var i := Clamp(raw, n);
        Success(Closest(energies[PyIndex(i, n)], i))
  }

  // ---- clamping ----

  /** At or below the first tabulated energy of an ascending table the first
      row is used. */
  lemma {:induction false} BelowTable(eV: real, energies: seq<real>)
    requires |energies| > 0 && energies[0] < energies[|energies| - 1]
    requires eV <= energies[0]
    ensures FindClosestEnergy(eV, energies) == Success(Closest(energies[0], 0))
  {
    var n := |energies|;
    var inc := (energies[n - 1] - energies[0]) / n as real;
    var x := (eV - energies[0]) / inc;
    assert inc > 0.0;
    assert x <= 0.0;
    assert Rint(x) <= 0;
  }

  /** At or above the last tabulated energy of an ascending table the last
      row is used. */
  lemma {:induction false} AboveTable(eV: real, energies: seq<real>)
    requires |energies| > 0 && energies[0] < energies[|energies| - 1]
    requires eV >= energies[|energies| - 1]
    ensures FindClosestEnergy(eV, energies) == Success(Closest(energies[|energies| - 1], -1))
  {
    var n := |energies|;
    var lo, hi := energies[0], energies[n - 1];
    var inc := (hi - lo) / n as real;
    var x := (eV - lo) / inc;
    QuotientAtLeast(eV - lo, hi - lo, n);
    assert x >= n as real;
    assert Rint(x) >= n;
  }

  /** `(d / (w / n)) >= n` when `d >= w > 0`. */
  lemma QuotientAtLeast(d: real, w: real, n: nat)
    requires d >= w > 0.0 && n > 0
    ensures d / (w / n as real) >= n as real
  {
    var inc := w / n as real;
    assert inc > 0.0;
    assert d / inc == d * n as real / w;
    assert d * n as real >= w * n as real;
  }

  // ---- the increment ----

  /** The tabulated energies step evenly from the first. */
  predicate EvenlySpaced(energies: seq<real>, step: real) {
    forall k :: 0 <= k < |energies| ==> energies[k] == energies[0] + Mul(k as real, step)
  }

  /** As written, a requested energy equal to a tabulated one can select a
      different row: the increment divides the span by the number of rows
      rather than the number of gaps, so at 20 eV in a table of 10, 20 and
      30 eV the quotient is 1.5, which rounds to 2. */
  lemma IncrementAsWritten()
    ensures FindClosestEnergy(20.0, [10.0, 20.0, 30.0]) == Success(Closest(30.0, 2))
  {
    var energies := [10.0, 20.0, 30.0];
    assert (energies[2] - energies[0]) / 3 as real == 20.0 / 3.0;
    assert (20.0 - 10.0) / (20.0 / 3.0) == 1.5;
    assert Rint(1.5) == 2;
  }

  /** The lookup with the span divided by the number of gaps between rows,
      and a one-row table answering with its only row. */
  function FindClosestEnergyCorrected(eV: real, energies: seq<real>): (r: Result<Closest>)
    ensures |energies| == 0 ==> r == Failure(IndexError)
    ensures r.Failure? <==> |energies| == 0 || (|energies| > 1 && energies[0] == energies[|energies| - 1])
    ensures r.Success? ==> PyIndexValid(r.value.index, |energies|) && -1 <= r.value.index
    ensures r.Success? ==> r.value.energy == energies[PyIndex(r.value.index, |energies|)]
  {
    if |energies| == 0 then Failure(IndexError)
    else if |energies| == 1 then Success(Closest(energies[0], 0))
    else
      var n := |energies|;
      match RawIndex(eV, energies[0], energies[n - 1], n - 1)
      case Failure(e) => Failure(e)
      case Success(raw) =>
        var i := Clamp(raw, n);
        Success(Closest(energies[PyIndex(i, n)], i))
  }

  /** On an evenly spaced ascending table the corrected lookup finds a row
      whose energy is nearest to the requested one. */
  lemma {:induction false} CorrectedNearest(eV: real, energies: seq<real>, step: real, k: nat)
    requires |energies| > 1 && step > 0.0 && EvenlySpaced(energies, step) && k < |energies|
    ensures FindClosestEnergyCorrected(eV, energies).Success?
    ensures Abs(FindClosestEnergyCorrected(eV, energies).value.energy - eV) <= Abs(energies[k] - eV)
  {
    var n := |energies|;
    var lo := energies[0];
    var x := Offset(eV, energies, step);
    var raw := Rint(x);
    assert RawIndex(eV, lo, energies[n - 1], n - 1) == Success(raw);
    var c := PyIndex(Clamp(raw, n), n);
    assert FindClosestEnergyCorrected(eV, energies).value.energy == energies[c];
    NearestClamped(x, raw, n, k);
    Scaled(lo, step, x, c);
    Scaled(lo, step, x, k);
    MulMonotone(Abs(c as real - x), Abs(k as real - x), step);
  }

  /** The requested energy measured in steps from the first row, as the
      corrected lookup computes it. */
  lemma Offset(eV: real, energies: seq<real>, step: real) returns (x: real)
    requires |energies| > 1 && step > 0.0 && EvenlySpaced(energies, step)
    ensures (energies[|energies| - 1] - energies[0]) / (|energies| - 1) as real == step
    ensures x == (eV - energies[0]) / step && eV == energies[0] + Mul(x, step)
  {
    var m := (|energies| - 1) as real;
    assert energies[|energies| - 1] - energies[0] == Mul(m, step);
    x := (eV - energies[0]) / step;
  }

  /** The distance from row `k` of an evenly spaced table is `step` times
      the distance in steps. */
  lemma Scaled(lo: real, step: real, x: real, k: nat)
    requires step > 0.0
    ensures Abs(lo + Mul(k as real, step) - (lo + Mul(x, step))) == Mul(Abs(k as real - x), step)
  {
    assert lo + k as real * step - (lo + x * step) == (k as real - x) * step;
  }

  lemma MulMonotone(a: real, b: real, step: real)
    requires step > 0.0 && a <= b
    ensures Mul(a, step) <= Mul(b, step)
  {
  }

  /** Clamping the nearest integer into `[0, n)` gives the nearest index in
      that range. */
  lemma NearestClamped(x: real, raw: int, n: nat, k: nat)
    requires n > 0 && k < n && raw == Rint(x)
    ensures Abs(PyIndex(Clamp(raw, n), n) as real - x) <= Abs(k as real - x)
  {
    RintNearest(x, k);
  }

  /** A requested energy equal to a tabulated one finds that row. */
  lemma {:induction false} CorrectedExact(energies: seq<real>, step: real, k: nat)
    requires |energies| > 1 && step > 0.0 && EvenlySpaced(energies, step) && k < |energies|
    ensures FindClosestEnergyCorrected(energies[k], energies) == Success(Closest(energies[k], k))
  {
    var x := Offset(energies[k], energies, step);
    assert x == k as real;
    assert Rint(k as real) == k;
  }
}

=== FILE: ladder.dfy ===
/** The ladder search of `solid_attenuator/calculator.py`
    (`get_ladder_configs`, `get_ladder_config`): each blade is a ladder of
    filters and is either out or has exactly one of its filters in the beam.
    Every combination is scored by the product of the chosen transmissions,
    the combinations are sorted by their distance to the target, and the
    closest one at or below and the closest one at or above it are picked. */
module Ladder {

  import opened Common
  import opened Sequences
  import opened Cartesian
  import opened Calculator

  /** One position of a ladder blade: the filter index in the beam (`None`
      for the open slot, which `to_config` reports as `None`) and its
      transmission. */
  datatype Choice = Choice(filter: Option<nat>, transmission: real)

  /** A configuration of ladder blades: the transmission of each blade's
      chosen slot, the chosen filter per blade, and their product. */
  datatype LadderConfig = LadderConfig(allTransmissions: seq<real>, filterStates: seq<Option<nat>>,
                                       transmission: real)

  datatype LadderPair = LadderPair(low: LadderConfig, high: LadderConfig)

  /** A slot a blade with filter transmissions `ts` offers: open with
      transmission 1, or filter `i` with transmission `ts[i]`. */
  predicate Allowed(ts: seq<real>, c: Choice) {
    match c.filter
    case None => c.transmission == 1.0
    case Some(i) => i < |ts| && c.transmission == ts[i]
  }

  /** `[(np.nan, 1.0)] + list(enumerate(transmission))` for one blade. */
  function BladeOptions(ts: seq<real>): (r: seq<Choice>)
    ensures |r| == |ts| + 1 && r[0] == Choice(None, 1.0)
    ensures forall c :: c in r <==> Allowed(ts, c)
  {
    var r := [Choice(None, 1.0)] + seq(|ts|, i requires 0 <= i < |ts| => Choice(Some(i), ts[i]));
    assert forall c :: Allowed(ts, c) && c.filter.Some? ==> r[c.filter.value + 1] == c;
    r
  }

  function OptionLists(blades: seq<seq<real>>): (r: seq<seq<Choice>>)
    ensures |r| == |blades|
    ensures forall b :: 0 <= b < |blades| ==> r[b] == BladeOptions(blades[b])
  {
    seq(|blades|, b requires 0 <= b < |blades| => BladeOptions(blades[b]))
  }

  /** `itertools.product(*index_and_transmission)`: every combination of
      one slot per blade, each slot one the blade offers. */
  function Table(blades: seq<seq<real>>): (r: seq<seq<Choice>>)
    ensures |r| > 0
    ensures forall k :: 0 <= k < |r| ==> |r[k]| == |blades|
    ensures forall k, b :: 0 <= k < |r| && 0 <= b < |blades| ==> Allowed(blades[b], r[k][b])
  {
    var lists := OptionLists(blades);
    SizePositive(lists);
    CartesianProduct(lists)
  }

  /** `np.product`: the product of a list of reals, 1 for the empty list. */
  function Prod(xs: seq<real>): real {
    if |xs| == 0 then 1.0 else xs[0] * Prod(xs[1..])
  }

  /** `options[idx, :, 1]`: the transmission of each blade's slot. */
  function Transmissions(row: seq<Choice>): (r: seq<real>)
    ensures |r| == |row| && forall b :: 0 <= b < |row| ==> r[b] == row[b].transmission
  {
    seq(|row|, b requires 0 <= b < |row| => row[b].transmission)
  }

  /** The filter states `to_config` reports: the slot's filter index, `None`
      for the open slot. */
  function Filters(row: seq<Choice>): (r: seq<Option<nat>>)
    ensures |r| == |row| && forall b :: 0 <= b < |row| ==> r[b] == row[b].filter
  {
    seq(|row|, b requires 0 <= b < |row| => row[b].filter)
  }

  /** `to_config` for one row of the table. */
  function ToConfig(row: seq<Choice>): LadderConfig {
    LadderConfig(Transmissions(row), Filters(row), Prod(Transmissions(row)))
  }

  /** A configuration the ladders can be put in: one slot per blade, each
      offered by its blade, and the product of their transmissions. */
  predicate Valid(blades: seq<seq<real>>, c: LadderConfig) {
    |c.filterStates| == |blades| && |c.allTransmissions| == |blades| &&
    (forall b :: 0 <= b < |blades| ==> Allowed(blades[b], Choice(c.filterStates[b], c.allTransmissions[b]))) &&
    c.transmission == Prod(c.allTransmissions)
  }

  /** `config_transmission`, one product per row. */
  function RowProducts(rows: seq<seq<Choice>>): (r: seq<real>)
    ensures |r| == |rows|
  {
    if |rows| == 0 then [] else [Prod(Transmissions(rows[0]))] + RowProducts(rows[1..])
  }

  lemma {:induction false} RowProductAt(rows: seq<seq<Choice>>, k: nat)
    requires k < |rows|
    ensures RowProducts(rows)[k] == Prod(Transmissions(rows[k]))
  {
    if k > 0 {
      RowProductAt(rows[1..], k - 1);
    }
  }

  function LadderProducts(blades: seq<seq<real>>): (r: seq<real>)
    ensures |r| == |Table(blades)|
  {
    RowProducts(Table(blades))
  }

  /** `get_ladder_configs` with the order `np.argsort` chose for the
      distances: any order along which the distances ascend. The first
      position (in that order) at or below the target gives the low
      configuration and the first at or above it the high one; when one side
      is empty the other stands in for it. Without blades the table has no
      transmission column and indexing it fails. */
  function LadderConfigsWith(blades: seq<seq<real>>, tDes: real, order: seq<nat>): (r: Result<LadderPair>)
    requires SortsBy(order, Distances(LadderProducts(blades), tDes))
    ensures r.Failure? <==> |blades| == 0
    ensures r.Failure? ==> r.error == IndexError
    ensures r.Success? ==> Valid(blades, r.value.low) && Valid(blades, r.value.high)
  {
    if |blades| == 0 then Failure(IndexError)
    else
      var rows := Table(blades);
      var sorted := Apply(LadderProducts(blades), order);
      var low := FirstAtMost(sorted, tDes);
      var high := FirstAtLeast(sorted, tDes);
      var low' := if low.None? && high.Some? then high else low;
      var high' := if high.None? && low.Some? then low else high;
      if low'.None? || high'.None? then Failure(IndexError)
      else
        var a, b := order[low'.value], order[high'.value];
        RowValid(blades, rows[a]);
        RowValid(blades, rows[b]);
        Success(LadderPair(ToConfig(rows[a]), ToConfig(rows[b])))
  }

  /** `get_ladder_configs`. numpy's quicksort leaves the order of equal
      distances open; this model sorts stably, and `LadderTieIndependent`
      shows that the transmissions do not depend on the choice. */
  function LadderConfigs(blades: seq<seq<real>>, tDes: real): (r: Result<LadderPair>)
    ensures r.Failure? <==> |blades| == 0
    ensures r.Failure? ==> r.error == IndexError
    ensures r.Success? ==> Valid(blades, r.value.low) && Valid(blades, r.value.high)
  {
    LadderConfigsWith(blades, tDes, StableArgsort(Distances(LadderProducts(blades), tDes)))
  }

  /** `get_ladder_config`: the mode is resolved before the search, so an
      unknown mode name fails with `KeyError` even without blades. */
  function GetLadderConfig(blades: seq<seq<real>>, tDes: real, mode: ModeArg): (r: Result<LadderConfig>)
    ensures r.Failure? <==> ResolveMode(mode).Failure? || |blades| == 0
    ensures r.Failure? ==> r.error == if ResolveMode(mode).Failure? then KeyError else IndexError
    ensures r.Success? ==> Valid(blades, r.value)
    ensures r.Success? ==> r.value == if ResolveMode(mode).value == Floor then LadderConfigs(blades, tDes).value.low
                                      else LadderConfigs(blades, tDes).value.high
  {
    match ResolveMode(mode)
    case Failure(e) => Failure(e)
    case Success(m) =>
      match LadderConfigs(blades, tDes)
      case Failure(e) => Failure(e)
      case Success(pair) => Success(if m == Floor then pair.low else pair.high)
  }

  // ---- proofs ----

  /** What `get_ladder_config` returns is the best reachable configuration
      on the side of the target its mode asks for: in floor mode no
      configuration at or below the target transmits more, in ceiling mode
      none at or above it transmits less. */
  lemma GetLadderConfigBest(blades: seq<seq<real>>, tDes: real, mode: ModeArg, c: LadderConfig)
    requires |blades| > 0 && ResolveMode(mode).Success? && Valid(blades, c)
    ensures ResolveMode(mode).value == Floor && c.transmission <= tDes ==>
      c.transmission <= GetLadderConfig(blades, tDes, mode).value.transmission <= tDes
    ensures ResolveMode(mode).value == Ceiling && c.transmission >= tDes ==>
      tDes <= GetLadderConfig(blades, tDes, mode).value.transmission <= c.transmission
  {
    var order := StableArgsort(Distances(LadderProducts(blades), tDes));
    if c.transmission <= tDes {
      LadderFloor(blades, tDes, order, c);
    }
    if c.transmission >= tDes {
      LadderCeiling(blades, tDes, order, c);
    }
  }

  /** Every row of the table is a configuration the ladders can be put in. */
  lemma RowValid(blades: seq<seq<real>>, row: seq<Choice>)
    requires row in Table(blades)
    ensures Valid(blades, ToConfig(row))
  {
    var k :| 0 <= k < |Table(blades)| && Table(blades)[k] == row;
    var c := ToConfig(row);
    forall b | 0 <= b < |blades|
      ensures Allowed(blades[b], Choice(c.filterStates[b], c.allTransmissions[b]))
    {
      assert Choice(c.filterStates[b], c.allTransmissions[b]) == row[b];
    }
  }

  /** Every configuration the ladders can be put in is a row of the table:
      the search considers all of them. */
  lemma Reachable(blades: seq<seq<real>>, c: LadderConfig) returns (k: nat)
    requires Valid(blades, c)
    ensures k < |LadderProducts(blades)| && LadderProducts(blades)[k] == c.transmission
  {
    var lists := OptionLists(blades);
    var row := seq(|blades|, b requires 0 <= b < |blades| => Choice(c.filterStates[b], c.allTransmissions[b]));
    forall b | 0 <= b < |lists|
      ensures row[b] in lists[b]
    {
      assert Allowed(blades[b], row[b]);
    }
    k := ProductComplete(lists, row);
    RowProductAt(Table(blades), k);
    assert Transmissions(row) == c.allTransmissions;
  }

  /** Along a sort order of the distances, the distances of the sorted
      products ascend. */
  lemma SortedByDistance(ct: seq<real>, tDes: real, order: seq<nat>, i: nat, j: nat)
    requires SortsBy(order, Distances(ct, tDes)) && i <= j < |order|
    ensures Abs(Apply(ct, order)[i] - tDes) <= Abs(Apply(ct, order)[j] - tDes)
  {
    var d := Apply(Distances(ct, tDes), order);
    assert d[i] <= d[j];
  }

  /** The product of the row at sorted position `p`. */
  lemma PickedProduct(blades: seq<seq<real>>, tDes: real, order: seq<nat>, p: nat)
    requires SortsBy(order, Distances(LadderProducts(blades), tDes)) && p < |order|
    ensures order[p] < |Table(blades)|
    ensures ToConfig(Table(blades)[order[p]]).transmission == Apply(LadderProducts(blades), order)[p]
  {
    RowProductAt(Table(blades), order[p]);
  }

  /** The low configuration: when some configuration is at or below the
      target, the low configuration is too, and no configuration at or below
      the target comes closer to it. */
  lemma {:induction false} LadderFloor(blades: seq<seq<real>>, tDes: real, order: seq<nat>, c: LadderConfig)
    requires SortsBy(order, Distances(LadderProducts(blades), tDes))
    requires |blades| > 0 && Valid(blades, c) && c.transmission <= tDes
    ensures LadderConfigsWith(blades, tDes, order).Success?
    ensures LadderConfigsWith(blades, tDes, order).value.low.transmission <= tDes
    ensures c.transmission <= LadderConfigsWith(blades, tDes, order).value.low.transmission
  {
    var ct := LadderProducts(blades);
    var sorted := Apply(ct, order);
    var k := Reachable(blades, c);
    var pos := PositionOf(order, |ct|, k);
    var p := FirstAtMost(sorted, tDes).value;
    assert p <= pos;
    SortedByDistance(ct, tDes, order, p, pos);
    PickedProduct(blades, tDes, order, p);
  }

  /** The high configuration: when some configuration is at or above the
      target, the high configuration is too, and no configuration at or above
      the target comes closer to it. */
  lemma {:induction false} LadderCeiling(blades: seq<seq<real>>, tDes: real, order: seq<nat>, c: LadderConfig)
    requires SortsBy(order, Distances(LadderProducts(blades), tDes))
    requires |blades| > 0 && Valid(blades, c) && c.transmission >= tDes
    ensures LadderConfigsWith(blades, tDes, order).Success?
    ensures LadderConfigsWith(blades, tDes, order).value.high.transmission >= tDes
    ensures c.transmission >= LadderConfigsWith(blades, tDes, order).value.high.transmission
  {
    var ct := LadderProducts(blades);
    var sorted := Apply(ct, order);
    var k := Reachable(blades, c);
    var pos := PositionOf(order, |ct|, k);
    var p := FirstAtLeast(sorted, tDes).value;
    assert p <= pos;
    SortedByDistance(ct, tDes, order, p, pos);
    PickedProduct(blades, tDes, order, p);
  }

  /** When the low configuration is above the target, nothing is at or below
      it: the low configuration is the high one, the least transmission of
      all. */
  lemma {:induction false} LadderFloorFallback(blades: seq<seq<real>>, tDes: real, order: seq<nat>, c: LadderConfig)
    requires SortsBy(order, Distances(LadderProducts(blades), tDes)) && |blades| > 0
    requires LadderConfigsWith(blades, tDes, order).value.low.transmission > tDes
    requires Valid(blades, c)
    ensures LadderConfigsWith(blades, tDes, order).value.low == LadderConfigsWith(blades, tDes, order).value.high
    ensures tDes < LadderConfigsWith(blades, tDes, order).value.low.transmission <= c.transmission
  {
    var ct := LadderProducts(blades);
    var sorted := Apply(ct, order);
    var pair := LadderConfigsWith(blades, tDes, order).value;
    if c.transmission <= tDes {
      LadderFloor(blades, tDes, order, c);
      assert false;
    }
    if FirstAtMost(sorted, tDes).Some? {
      PickedProduct(blades, tDes, order, FirstAtMost(sorted, tDes).value);
      assert false;
    }
    assert FirstAtLeast(sorted, tDes).Some?;
    assert pair.low == pair.high;
    LadderCeiling(blades, tDes, order, c);
  }

  /** When the high configuration is below the target, nothing is at or above
      it: the high configuration is the low one, the greatest transmission of
      all. */
  lemma {:induction false} LadderCeilingFallback(blades: seq<seq<real>>, tDes: real, order: seq<nat>, c: LadderConfig)
    requires SortsBy(order, Distances(LadderProducts(blades), tDes)) && |blades| > 0
    requires LadderConfigsWith(blades, tDes, order).value.high.transmission < tDes
    requires Valid(blades, c)
    ensures LadderConfigsWith(blades, tDes, order).value.high == LadderConfigsWith(blades, tDes, order).value.low
    ensures c.transmission <= LadderConfigsWith(blades, tDes, order).value.high.transmission < tDes
  {
    var ct := LadderProducts(blades);
    var sorted := Apply(ct, order);
    if c.transmission >= tDes {
      LadderCeiling(blades, tDes, order, c);
      assert false;
    }
    if FirstAtLeast(sorted, tDes).Some? {
      PickedProduct(blades, tDes, order, FirstAtLeast(sorted, tDes).value);
      assert false;
    }
    assert FirstAtMost(sorted, tDes).Some?;
    LadderFloor(blades, tDes, order, c);
  }

  /** The transmissions picked do not depend on how ties in the distances
      are broken. */
  lemma LadderTieIndependent(blades: seq<seq<real>>, tDes: real, p: seq<nat>, q: seq<nat>)
    requires |blades| > 0
    requires SortsBy(p, Distances(LadderProducts(blades), tDes))
    requires SortsBy(q, Distances(LadderProducts(blades), tDes))
    ensures LadderConfigsWith(blades, tDes, p).value.low.transmission
         == LadderConfigsWith(blades, tDes, q).value.low.transmission
    ensures LadderConfigsWith(blades, tDes, p).value.high.transmission
         == LadderConfigsWith(blades, tDes, q).value.high.transmission
  {
    var lp := LadderConfigsWith(blades, tDes, p).value;
    var lq := LadderConfigsWith(blades, tDes, q).value;
    LowSame(blades, tDes, p, q);
    LowSame(blades, tDes, q, p);
    HighSame(blades, tDes, p, q);
    HighSame(blades, tDes, q, p);
  }

  /** One direction of `LadderTieIndependent` for the low configuration. */
  lemma {:induction false} LowSame(blades: seq<seq<real>>, tDes: real, p: seq<nat>, q: seq<nat>)
    requires |blades| > 0
    requires SortsBy(p, Distances(LadderProducts(blades), tDes))
    requires SortsBy(q, Distances(LadderProducts(blades), tDes))
    ensures LadderConfigsWith(blades, tDes, p).value.low.transmission
         <= LadderConfigsWith(blades, tDes, q).value.low.transmission
  {
    var lp := LadderConfigsWith(blades, tDes, p).value;
    var lq := LadderConfigsWith(blades, tDes, q).value;
    if lp.low.transmission <= tDes {
      LadderFloor(blades, tDes, q, lp.low);
    } else {
      LadderFloorFallback(blades, tDes, p, lq.low);
    }
  }

  /** One direction of `LadderTieIndependent` for the high configuration. */
  lemma {:induction false} HighSame(blades: seq<seq<real>>, tDes: real, p: seq<nat>, q: seq<nat>)
    requires |blades| > 0
    requires SortsBy(p, Distances(LadderProducts(blades), tDes))
    requires SortsBy(q, Distances(LadderProducts(blades), tDes))
    ensures LadderConfigsWith(blades, tDes, p).value.high.transmission
         >= LadderConfigsWith(blades, tDes, q).value.high.transmission
  {
    var lp := LadderConfigsWith(blades, tDes, p).value;
    var lq := LadderConfigsWith(blades, tDes, q).value;
    if lp.high.transmission >= tDes {
      LadderCeiling(blades, tDes, q, lp.high);
    } else {
      LadderCeilingFallback(blades, tDes, p, lq.high);
    }
  }
}

=== FILE: legacy_calculator.dfy ===
/** `ioc-satt-dev/calculator.py`, the earlier copy of the attenuator
    calculator: the same configuration search over a table of NaN/1 rows,
    the same energy lookup with a weaker end clamp, and the material
    constants of the absorption tables. */
module LegacyCalculator {

  import opened Common
  import opened Sequences
  import opened Calculator
  import opened Configurations
  import Energy

  // ---- material constants ----

  /** Atomic weight in grams and density in grams per cubic metre. */
  datatype Material = Material(atomicWeight: real, density: real)

  /** `filter_data`: the two materials whose constants are built in. */
  function FilterData(formula: string): Option<Material> {
    if formula == "Si" then Some(Material(28.08, 2329000.0))
    else if formula == "C" then Some(Material(12.01, 3510000.0))
    else None
  }

  /** The constants `get_absorption_table` uses: an explicit weight or
      density wins, a missing one is read from `filter_data[formula]`, which
      raises `KeyError` for any other formula. */
  function MaterialConstants(formula: string, atomicWeight: Option<real>, density: Option<real>)
    : (r: Result<Material>)
    ensures r.Success? <==>
      (atomicWeight.Some? || formula in {"Si", "C"}) && (density.Some? || formula in {"Si", "C"})
    ensures r.Failure? ==> r.error == KeyError
    ensures r.Success? && atomicWeight.Some? ==> r.value.atomicWeight == atomicWeight.value
    ensures r.Success? && density.Some? ==> r.value.density == density.value
    ensures r.Success? && atomicWeight.None? ==>
      r.value.atomicWeight == (if formula == "Si" then 28.08 else 12.01)
    ensures r.Success? && density.None? ==>
      r.value.density == (if formula == "Si" then 2329000.0 else 3510000.0)
  {
    var known := FilterData(formula);
    if atomicWeight.None? && known.None? then Failure(KeyError)
    else
      var w := if atomicWeight.Some? then atomicWeight.value else known.value.atomicWeight;
      if density.None? && known.None? then Failure(KeyError)
      else
        var d := if density.Some? then density.value else known.value.density;
        Success(Material(w, d))
  }

  /** The lookup is by exact formula: the lower-case spelling finds nothing
      unless both constants are given. */
  lemma LowerCaseNeedsConstants(w: real, d: real)
    ensures MaterialConstants("si", None, None) == Failure(KeyError)
    ensures MaterialConstants("si", Some(w), Some(d)) == Success(Material(w, d))
  {
  }

  // ---- configurations ----

  /** `all_transmissions * row`: NaN wherever either factor is NaN. */
  function Weighted(ts: seq<Option<real>>, row: seq<Option<real>>): (r: seq<Option<real>>)
    requires |row| == |ts|
    ensures |r| == |ts|
    ensures forall j :: 0 <= j < |ts| ==> r[j] == Times(ts[j], row[j])
  {
    seq(|ts|, j requires 0 <= j < |ts| => Times(ts[j], row[j]))
  }

  /** `np.nan_to_num(row).astype(np.int)`: NaN becomes 0, the rest truncate. */
  function NanToNumRow(row: seq<Option<real>>): (r: seq<int>)
    ensures |r| == |row|
    ensures forall j :: 0 <= j < |row| ==> r[j] == AsInt(Some(NanToNum(row[j])))
  {
    seq(|row|, j requires 0 <= j < |row| => AsInt(Some(NanToNum(row[j]))))
  }

  /** `row.astype(np.int)`: NaN becomes the smallest int64. */
  function AsIntRow(row: seq<Option<real>>): (r: seq<int>)
    ensures |r| == |row|
    ensures forall j :: 0 <= j < |row| ==> r[j] == AsInt(row[j])
  {
    seq(|row|, j requires 0 <= j < |row| => AsInt(row[j]))
  }

  /** Row `k` of the NaN/1 table, weighted by the transmissions, keeps
      exactly the inserted blades' transmissions, and its `nan_to_num` states
      are the 0/1 states: the row is the configuration `MakeConfig` builds. */
  lemma {:induction false} RowConfig(ts: seq<Option<real>>, k: nat)
    requires k < Pow2(|ts|)
    ensures Weighted(ts, InOutAttenuator(|ts|)[k]) == Mask(ts, InOutCombinations(|ts|)[k])
    ensures Config(ts, NanToNumRow(InOutAttenuator(|ts|)[k]), NanProd(Weighted(ts, InOutAttenuator(|ts|)[k])))
         == MakeConfig(ts, InOutCombinations(|ts|)[k])
  {
    var n := |ts|;
    AttenuatorIsCombinations(n);
    var row := InOutAttenuator(n)[k];
    var combo := InOutCombinations(n)[k];
    assert forall j :: 0 <= j < n ==> row[j] == BladeValue(combo[j]);
    RowOfBlades(ts, row, combo);
  }

  /** A NaN/1 row read off an in/out row weights the transmissions as the
      mask does and converts to the same 0/1 states. */
  lemma RowOfBlades(ts: seq<Option<real>>, row: seq<Option<real>>, combo: seq<bool>)
    requires |row| == |combo| == |ts|
    requires forall j :: 0 <= j < |ts| ==> row[j] == BladeValue(combo[j])
    ensures Weighted(ts, row) == Mask(ts, combo)
    ensures NanToNumRow(row) == FilterStates(combo)
  {
    assert Weighted(ts, row) == Mask(ts, combo);
    assert NanToNumRow(row) == FilterStates(combo);
  }

  /** The `nanprod` of a weighted row is the product the solid-attenuator
      calculator sorts by. */
  lemma WeightedRow(ts: seq<Option<real>>, k: nat)
    requires k < Pow2(|ts|)
    ensures NanProd(Weighted(ts, InOutAttenuator(|ts|)[k])) == Products(ts)[k]
  {
    RowConfig(ts, k);
    ProductIs(ts, k);
  }

  /** `find_configs` with the sort order `argsort` chose. Above the target
      the ceiling is `closest.astype(np.int)`, so its removed blades read as
      the smallest int64 rather than 0. */
  function FindConfigsWith(ts: seq<Option<real>>, tDes: real, order: seq<nat>): (r: ConfigPair)
    requires SortsBy(order, Products(ts))
    ensures r.floor.allTransmissions == ts && r.ceiling.allTransmissions == ts
    ensures |r.floor.filterStates| == |ts| && |r.ceiling.filterStates| == |ts|
  {
    var prods := Products(ts);
    var sorted := Apply(prods, order);
    var i := Closest(sorted, tDes);
    var (lo, hi) := Neighbours(sorted, i, tDes);
    var rows := InOutAttenuator(|ts|);
    var closest := rows[order[i]];
    var low, high := rows[order[lo]], rows[order[hi]];
    var highStates := if NanProd(Weighted(ts, closest)) > tDes then AsIntRow(high) else NanToNumRow(high);
    ConfigPair(Config(ts, NanToNumRow(low), NanProd(Weighted(ts, low))),
               Config(ts, highStates, NanProd(Weighted(ts, high))))
  }

  /** `find_configs` with `np.nan_to_num(...).astype(np.int)` applied to the
      ceiling in every branch. */
  function FindConfigsCorrected(ts: seq<Option<real>>, tDes: real, order: seq<nat>): (r: ConfigPair)
    requires SortsBy(order, Products(ts))
    ensures r.floor.allTransmissions == ts && r.ceiling.allTransmissions == ts
    ensures |r.floor.filterStates| == |ts| && |r.ceiling.filterStates| == |ts|
  {
    var prods := Products(ts);
    var sorted := Apply(prods, order);
    var (lo, hi) := Neighbours(sorted, Closest(sorted, tDes), tDes);
    var rows := InOutAttenuator(|ts|);
    var low, high := rows[order[lo]], rows[order[hi]];
    ConfigPair(Config(ts, NanToNumRow(low), NanProd(Weighted(ts, low))),
               Config(ts, NanToNumRow(high), NanProd(Weighted(ts, high))))
  }

  /** The corrected search is the solid-attenuator calculator's, result for
      result. */
  lemma CorrectedIsMain(ts: seq<Option<real>>, tDes: real, order: seq<nat>)
    requires SortsBy(order, Products(ts))
    ensures FindConfigsCorrected(ts, tDes, order) == Calculator.FindConfigsWith(ts, tDes, order)
  {
    var sorted := Apply(Products(ts), order);
    var (lo, hi) := Neighbours(sorted, Closest(sorted, tDes), tDes);
    RowConfig(ts, order[lo]);
    RowConfig(ts, order[hi]);
  }

  /** As written the search agrees with the solid-attenuator calculator on
      the floor and on the ceiling's transmission. */
  lemma AsWrittenAgreement(ts: seq<Option<real>>, tDes: real, order: seq<nat>)
    requires SortsBy(order, Products(ts))
    ensures var r := FindConfigsWith(ts, tDes, order);
            var m := Calculator.FindConfigsWith(ts, tDes, order);
            r.floor == m.floor && r.ceiling.transmission == m.ceiling.transmission
  {
    CorrectedIsMain(ts, tDes, order);
  }

  /** The ceilings' states differ only at removed blades when the closest
      product is above the target: there they read as the smallest int64,
      which a nonzero test takes for inserted. */
  lemma AsWrittenCeilingStates(ts: seq<Option<real>>, tDes: real, order: seq<nat>, j: nat)
    requires SortsBy(order, Products(ts)) && j < |ts|
    ensures var r := FindConfigsWith(ts, tDes, order);
            var m := Calculator.FindConfigsWith(ts, tDes, order);
            var sorted := Apply(Products(ts), order);
            r.ceiling.filterStates[j]
              == if m.ceiling.filterStates[j] == 0 && sorted[Closest(sorted, tDes)] > tDes
                 then Int64Min else m.ceiling.filterStates[j]
  {
    var n := |ts|;
    var sorted := Apply(Products(ts), order);
    var i := Closest(sorted, tDes);
    var (lo, hi) := Neighbours(sorted, i, tDes);
    CorrectedIsMain(ts, tDes, order);
    WeightedRow(ts, order[i]);
    AttenuatorIsCombinations(n);
    var high := InOutAttenuator(n)[order[hi]];
    assert high[j] == BladeValue(InOutCombinations(n)[order[hi]][j]);
  }

  /** One blade of transmission 0.5 and a target of 0.9: the closest product
      is 1.0 with the blade removed, and the ceiling's state for that blade
      is the smallest int64 rather than 0. */
  lemma CeilingStatesAsWritten(order: seq<nat>)
    requires SortsBy(order, Products([Some(0.5)]))
    ensures FindConfigsWith([Some(0.5)], 0.9, order).ceiling.filterStates == [Int64Min]
    ensures FindConfigsWith([Some(0.5)], 0.9, order).ceiling.transmission == 1.0
  {
    var ts := [Some(0.5)];
    var prods := Products(ts);
    ProductIs(ts, 0);
    ProductIs(ts, 1);
    assert InOutCombinations(1)[0] == [false] && InOutCombinations(1)[1] == [true];
    assert Mask(ts, [false]) == [None] && Mask(ts, [true]) == [Some(0.5)];
    assert prods == [1.0, 0.5];
    var sorted := Apply(prods, order);
    PermutationInjective(order, 2, 0, 1);
    assert sorted[0] <= sorted[1];
    assert order[0] == 1 && order[1] == 0;
    assert sorted == [0.5, 1.0];
    assert Distances(sorted, 0.9) == [0.4, 0.1];
    assert Closest(sorted, 0.9) == 1;
    assert Neighbours(sorted, 1, 0.9) == (0, 1);
    var m := Calculator.FindConfigsWith(ts, 0.9, order);
    assert m.ceiling == MakeConfig(ts, [false]);
    AsWrittenAgreement(ts, 0.9, order);
    AsWrittenCeilingStates(ts, 0.9, order, 0);
  }

  /** `find_configs`; the order of equal products is left open by
      `argsort`'s quicksort, and the model sorts stably as the
      solid-attenuator calculator's model does. */
  function FindConfigs(ts: seq<Option<real>>, tDes: real): (r: ConfigPair)
    ensures r.floor.allTransmissions == ts && r.ceiling.allTransmissions == ts
    ensures |r.floor.filterStates| == |ts| && |r.ceiling.filterStates| == |ts|
  {
    FindConfigsWith(ts, tDes, StableArgsort(Products(ts)))
  }

  /** `get_best_config`: a mode name is resolved first (`KeyError` when it
      names no mode); the floor for `Floor` and the ceiling otherwise. The
      floor is always a reachable configuration. */
  function GetBestConfig(ts: seq<Option<real>>, tDes: real, mode: ModeArg): (r: Result<Config>)
    ensures r.Success? <==> ResolveMode(mode).Success?
    ensures r.Failure? ==> r.error == KeyError
    ensures r.Success? && ResolveMode(mode).value == Floor ==>
      Consistent(ts, r.value) && r.value == Calculator.FindConfigs(ts, tDes).floor
    ensures r.Success? && ResolveMode(mode).value == Ceiling ==>
      r.value == FindConfigs(ts, tDes).ceiling &&
      r.value.transmission == Calculator.FindConfigs(ts, tDes).ceiling.transmission
    ensures r.Success? && ResolveMode(mode).value == Ceiling ==>
      var m := Calculator.FindConfigs(ts, tDes);
      var sorted := Apply(Products(ts), StableArgsort(Products(ts)));
      |r.value.filterStates| == |ts| &&
      forall j :: 0 <= j < |ts| ==>
        r.value.filterStates[j]
          == if m.ceiling.filterStates[j] == 0 && sorted[Closest(sorted, tDes)] > tDes
             then Int64Min else m.ceiling.filterStates[j]
  {
    match ResolveMode(mode)
    case Failure(e) => Failure(e)
    case Success(m) =>
      AsWrittenAgreement(ts, tDes, StableArgsort(Products(ts)));
      AllCeilingStates(ts, tDes, StableArgsort(Products(ts)));
      Success(Pick(FindConfigs(ts, tDes), m))
  }

  /** `AsWrittenCeilingStates` at every blade. */
  lemma AllCeilingStates(ts: seq<Option<real>>, tDes: real, order: seq<nat>)
    requires SortsBy(order, Products(ts))
    ensures var r := FindConfigsWith(ts, tDes, order);
            var m := Calculator.FindConfigsWith(ts, tDes, order);
            var sorted := Apply(Products(ts), order);
            forall j :: 0 <= j < |ts| ==>
              r.ceiling.filterStates[j]
                == if m.ceiling.filterStates[j] == 0 && sorted[Closest(sorted, tDes)] > tDes
                   then Int64Min else m.ceiling.filterStates[j]
  {
    forall j | 0 <= j < |ts|
      ensures FindConfigsWith(ts, tDes, order).ceiling.filterStates[j]
                == if Calculator.FindConfigsWith(ts, tDes, order).ceiling.filterStates[j] == 0 &&
                      Apply(Products(ts), order)[Closest(Apply(Products(ts), order), tDes)] > tDes
                   then Int64Min else Calculator.FindConfigsWith(ts, tDes, order).ceiling.filterStates[j]
    {
      AsWrittenCeilingStates(ts, tDes, order, j);
    }
  }

  // ---- energy lookup ----

  /** The clamp and row read of `find_closest_energy`: a negative index
      becomes 0 and one strictly past the length becomes `-1`; an index
      equal to the length is kept and reading that row raises
      `IndexError`. */
  function Lookup(energies: seq<real>, raw: int): (r: Result<Energy.Closest>)
    ensures r.Failure? <==> |energies| == 0 || raw == |energies|
    ensures r.Failure? ==> r.error == IndexError
    ensures r.Success? ==> PyIndexValid(r.value.index, |energies|)
    ensures r.Success? ==> r.value.energy == energies[PyIndex(r.value.index, |energies|)]
  {
    var n := |energies|;
    var i := if raw < 0 then 0 else raw;
    var i := if i > n then -1 else i;
    if PyIndexValid(i, n) then Success(Energy.Closest(energies[PyIndex(i, n)], i))
    else Failure(IndexError)
  }

  /** The lookup clamps as the solid-attenuator calculator does except at
      an index equal to the length, where that one uses the last row. */
  lemma LookupAgrees(energies: seq<real>, raw: int)
    requires |energies| > 0
    ensures var n := |energies|;
            var i := Energy.Clamp(raw, n);
            raw != n ==> Lookup(energies, raw) == Success(Energy.Closest(energies[PyIndex(i, n)], i))
    ensures raw == |energies| ==>
      Energy.Clamp(raw, |energies|) == -1 && Lookup(energies, raw) == Failure(IndexError)
  {
  }

  /** `find_closest_energy`: reading `table[0, 0]` of an empty table raises
      `IndexError`; the increment divides the span by the number of rows. */
  function FindClosestEnergy(eV: real, energies: seq<real>): (r: Result<Energy.Closest>)
    ensures |energies| == 0 ==> r == Failure(IndexError)
    ensures r.Success? ==> PyIndexValid(r.value.index, |energies|)
    ensures r.Success? ==> r.value.energy == energies[PyIndex(r.value.index, |energies|)]
  {
    if |energies| == 0 then Failure(IndexError)
    else
      var n := |energies|;
      match Energy.RawIndex(eV, energies[0], energies[n - 1], n)
      case Failure(e) => Failure(e)
      case Success(raw) => Lookup(energies, raw)
  }

  /** The legacy lookup gives the solid-attenuator calculator's answer, or
      `IndexError` where that one falls back to the last row. */
  lemma EnergyAgreement(eV: real, energies: seq<real>)
    ensures var l := FindClosestEnergy(eV, energies);
            var m := Energy.FindClosestEnergy(eV, energies);
            l == m || (l == Failure(IndexError) && m == Success(Energy.Closest(energies[|energies| - 1], -1)))
  {
    var n := |energies|;
    if n > 0 {
      match Energy.RawIndex(eV, energies[0], energies[n - 1], n)
      case Failure(e) =>
      case Success(raw) =>
        LookupAgrees(energies, raw);
    }
  }

  /** In a table of 10 and 20 eV, 20 eV gives the raw index 2, equal to the
      length: the legacy lookup raises `IndexError` where the
      solid-attenuator calculator answers with the last row. */
  lemma EnergyPastEnd()
    ensures FindClosestEnergy(20.0, [10.0, 20.0]) == Failure(IndexError)
    ensures Energy.FindClosestEnergy(20.0, [10.0, 20.0]) == Success(Energy.Closest(20.0, -1))
  {
    assert (20.0 - 10.0) / 2 as real == 5.0;
    assert (20.0 - 10.0) / 5.0 == 2.0;
    assert Rint(2.0) == 2;
  }
}

=== FILE: material_priority.dfy ===
/** `get_best_config_with_material_priority`: the blades are solved one
    material at a time, in priority order, and a material is only used once
    every blade of the materials before it is inserted. */
module MaterialPriority {

  import opened Common
  import opened Sequences
  import opened Calculator

  /** The positions of the blades made of `m`, ascending: the keys of the
      `{idx: transmission}` dictionary, in insertion order. */
  function IndicesOf(materials: seq<string>, m: string): (r: seq<nat>)
    ensures forall k :: 0 <= k < |r| ==> r[k] < |materials| && materials[r[k]] == m
    ensures forall i :: 0 <= i < |materials| && materials[i] == m ==> i in r
    ensures forall a, b :: 0 <= a < b < |r| ==> r[a] < r[b]
  {
    if |materials| == 0 then []
    else
      var n := |materials| - 1;
      var front := IndicesOf(materials[..n], m);
      front + (if materials[n] == m then [n] else [])
  }

  /** Writing `vals[k]` at position `idx[k]`, for each `k` in turn. */
  function Scatter<T>(xs: seq<T>, idx: seq<nat>, vals: seq<T>): (r: seq<T>)
    requires |idx| == |vals| && InRange(idx, |xs|)
    ensures |r| == |xs|
    decreases |idx|
  {
    if |idx| == 0 then xs
    else Scatter(xs[idx[0] := vals[0]], idx[1..], vals[1..])
  }

  /** Every entry is non-zero: Python's `all(...)` on a list of ints. */
  predicate AllSet(states: seq<int>) {
    forall k :: 0 <= k < |states| ==> states[k] != 0
  }

  /** Every blade of material `m` is inserted. */
  predicate FullyInserted(materials: seq<string>, states: seq<int>, m: string)
    requires |states| == |materials|
  {
    forall i :: 0 <= i < |materials| && materials[i] == m ==> states[i] != 0
  }

  /** Some blade of material `m` is inserted. */
  predicate AnyInserted(materials: seq<string>, states: seq<int>, m: string)
    requires |states| == |materials|
  {
    exists i :: 0 <= i < |materials| && materials[i] == m && states[i] != 0
  }

  /** `get_best_config` on the blades of one material, with the mode
      already resolved. */
  function Solve(ts: seq<Option<real>>, tDes: real, mode: ConfigMode): (c: Config)
    requires Fractions(ts)
    ensures Consistent(ts, c) && c.transmission > 0.0
  {
    PickedPositive(ts, tDes, mode);
    Pick(FindConfigs(ts, tDes), mode)
  }

  /** One pass of the loop, for material `m`: the configuration after it, and
      whether every blade of `m` came out inserted. */
  function Step(materials: seq<string>, ts: seq<Option<real>>, m: string, tDes: real,
                mode: ConfigMode, acc: Config): (r: (Config, bool))
    requires |materials| == |ts| == |acc.filterStates| && Fractions(ts)
    requires acc.transmission > 0.0
    ensures |r.0.filterStates| == |ts| && r.0.allTransmissions == acc.allTransmissions
    ensures r.0.transmission > 0.0
  {
    var idx := IndicesOf(materials, m);
    var sub := Apply(ts, idx);
    assert Fractions(sub);
    var partial := Solve(sub, tDes / acc.transmission, mode);
    var t := Mul(acc.transmission, partial.transmission);
    (Config(acc.allTransmissions, Scatter(acc.filterStates, idx, partial.filterStates),
            t),
     AllSet(partial.filterStates))
  }

  /** The loop over `order`, from the configuration built so far. */
  function PriorityFrom(materials: seq<string>, ts: seq<Option<real>>, order: seq<string>,
                        tDes: real, mode: ConfigMode, acc: Config): (r: Config)
    requires |materials| == |ts| == |acc.filterStates| && Fractions(ts)
    requires acc.transmission > 0.0
    ensures |r.filterStates| == |ts|
    decreases |order|
  {
    if |order| == 0 then acc
    else
      var (next, full) := Step(materials, ts, order[0], tDes, mode, acc);
      if full then PriorityFrom(materials, ts, order[1..], tDes, mode, next) else next
  }

  /** The configuration the search starts from: every blade out. */
  function Start(ts: seq<Option<real>>): (c: Config)
    ensures c.allTransmissions == ts && c.transmission == 1.0
    ensures |c.filterStates| == |ts| && forall k :: 0 <= k < |ts| ==> c.filterStates[k] == 0
  {
    Config(ts, seq(|ts|, _ => 0), 1.0)
  }

  /** `get_best_config_with_material_priority`. */
  function PriorityConfig(materials: seq<string>, ts: seq<Option<real>>, order: seq<string>,
                          tDes: real, mode: ModeArg): (r: Result<Config>)
    requires Fractions(ts)
    ensures r.Failure? <==> |ts| != |materials| || (|order| > 0 && ResolveMode(mode).Failure?)
    ensures r.Failure? ==> r.error == if |ts| != |materials| then ValueError else KeyError
    ensures r.Success? ==> |r.value.filterStates| == |ts| && r.value.allTransmissions == ts
  {
    if |ts| != |materials| then Failure(ValueError)
    else if |order| == 0 then Success(Start(ts))
    else match ResolveMode(mode)
      case Failure(e) => Failure(e)
      case Success(m) =>
        var r := PriorityFrom(materials, ts, order, tDes, m, Start(ts));
        FrameAll(materials, ts, order, tDes, m, Start(ts));
        Success(r)
  }

  // ---- proofs ----


  lemma PickedPositive(ts: seq<Option<real>>, tDes: real, mode: ConfigMode)
    requires Fractions(ts)
    ensures Pick(FindConfigs(ts, tDes), mode).transmission > 0.0
  {
    var c := Pick(FindConfigs(ts, tDes), mode);
    assert Consistent(ts, c);
    ConsistentPositive(ts, c);
  }

  lemma ConsistentPositive(ts: seq<Option<real>>, c: Config)
    requires Fractions(ts) && Consistent(ts, c)
    ensures c.transmission > 0.0
  {
    var mk := Mask(ts, Inserted(c.filterStates));
    assert Fractions(mk);
    NanProdUnit(mk);
  }

  lemma FrameAll(materials: seq<string>, ts: seq<Option<real>>, order: seq<string>,
                 tDes: real, mode: ConfigMode, acc: Config)
    requires |materials| == |ts| == |acc.filterStates| && Fractions(ts)
    requires acc.transmission > 0.0
    ensures PriorityFrom(materials, ts, order, tDes, mode, acc).allTransmissions == acc.allTransmissions
    decreases |order|
  {
    if |order| > 0 {
      FrameAll(materials, ts, order[1..], tDes, mode, Step(materials, ts, order[0], tDes, mode, acc).0);
    }
  }

  // ---- the scatter ----

  /** Positions outside `idx` keep their entry. */
  lemma {:induction false} ScatterOutside<T>(xs: seq<T>, idx: seq<nat>, vals: seq<T>, i: nat)
    requires |idx| == |vals| && InRange(idx, |xs|)
    requires i < |xs| && i !in idx
    ensures Scatter(xs, idx, vals)[i] == xs[i]
    decreases |idx|
  {
    if |idx| > 0 {
      ScatterOutside(xs[idx[0] := vals[0]], idx[1..], vals[1..], i);
    }
  }

  /** Position `idx[k]` receives `vals[k]` when no position is written twice. */
  lemma {:induction false} ScatterInside<T>(xs: seq<T>, idx: seq<nat>, vals: seq<T>, k: nat)
    requires |idx| == |vals| && InRange(idx, |xs|) && Distinct(idx)
    requires k < |idx|
    ensures Scatter(xs, idx, vals)[idx[k]] == vals[k]
    decreases |idx|
  {
    if k == 0 {
      assert idx[0] !in idx[1..] by {
        forall j | 0 <= j < |idx[1..]|
          ensures idx[1..][j] != idx[0]
        {
          assert idx[1..][j] == idx[j + 1];
        }
      }
      ScatterOutside(xs[idx[0] := vals[0]], idx[1..], vals[1..], idx[0]);
    } else {
      ScatterInside(xs[idx[0] := vals[0]], idx[1..], vals[1..], k - 1);
    }
  }

  /** Masking commutes with the scatter: the blades the scatter inserts are
      masked by their own transmissions. */
  lemma {:induction false} MaskScatter(ts: seq<Option<real>>, states: seq<int>, idx: seq<nat>, vals: seq<int>)
    requires |states| == |ts| && |idx| == |vals| && InRange(idx, |states|)
    ensures Mask(ts, Inserted(Scatter(states, idx, vals)))
         == Scatter(Mask(ts, Inserted(states)), idx, Mask(Apply(ts, idx), Inserted(vals)))
    decreases |idx|
  {
    if |idx| > 0 {
      var part := Mask(Apply(ts, idx), Inserted(vals));
      MaskScatter(ts, states[idx[0] := vals[0]], idx[1..], vals[1..]);
      assert Mask(ts, Inserted(states[idx[0] := vals[0]])) == Mask(ts, Inserted(states))[idx[0] := part[0]];
      assert Mask(Apply(ts, idx[1..]), Inserted(vals[1..])) == part[1..];
    }
  }

  /** Filling NaN entries at distinct positions multiplies the product by
      that of the values filled in. */
  lemma {:induction false} NanProdScatter(xs: seq<Option<real>>, idx: seq<nat>, ys: seq<Option<real>>)
    requires |idx| == |ys| && InRange(idx, |xs|) && Distinct(idx)
    requires forall k :: 0 <= k < |idx| ==> xs[idx[k]] == None
    ensures NanProd(Scatter(xs, idx, ys)) == Mul(NanProd(xs), NanProd(ys))
    decreases |idx|
  {
    if |idx| > 0 {
      var next := FillFirst(xs, idx, ys);
      NanProdScatter(next, idx[1..], ys[1..]);
      FirstFactor(xs, idx, ys);
      Regroup(NanProd(Scatter(next, idx[1..], ys[1..])), NanProd(next), NanProd(xs), Factor(ys[0]),
              NanProd(ys[1..]), NanProd(ys));
    }
  }

  /** The first step of a scatter onto NaN entries leaves the remaining
      positions NaN. */
  lemma FillFirst(xs: seq<Option<real>>, idx: seq<nat>, ys: seq<Option<real>>) returns (next: seq<Option<real>>)
    requires 0 < |idx| == |ys| && InRange(idx, |xs|) && Distinct(idx)
    requires forall k :: 0 <= k < |idx| ==> xs[idx[k]] == None
    ensures next == xs[idx[0] := ys[0]]
    ensures InRange(idx[1..], |next|) && Distinct(idx[1..])
    ensures forall k :: 0 <= k < |idx[1..]| ==> next[idx[1..][k]] == None
    ensures Scatter(xs, idx, ys) == Scatter(next, idx[1..], ys[1..])
  {
    next := xs[idx[0] := ys[0]];
    forall k | 0 <= k < |idx[1..]|
      ensures next[idx[1..][k]] == None
    {
      assert idx[1..][k] == idx[k + 1] != idx[0];
    }
  }

  /** The factors of one scatter step. */
  lemma FirstFactor(xs: seq<Option<real>>, idx: seq<nat>, ys: seq<Option<real>>)
    requires 0 < |idx| == |ys| && idx[0] < |xs| && xs[idx[0]] == None
    ensures NanProd(xs[idx[0] := ys[0]]) == Mul(NanProd(xs), Factor(ys[0]))
    ensures NanProd(ys) == Mul(Factor(ys[0]), NanProd(ys[1..]))
  {
    NanProdUpdate(xs, idx[0], ys[0]);
  }

  /** Scattering states onto positions that were all out multiplies the
      transmission by that of the scattered blades alone. */
  lemma {:induction false} ScatterProduct(ts: seq<Option<real>>, states: seq<int>, idx: seq<nat>, vals: seq<int>)
    requires |states| == |ts| && |idx| == |vals| && InRange(idx, |states|) && Distinct(idx)
    requires forall k :: 0 <= k < |idx| ==> states[idx[k]] == 0
    ensures NanProd(Mask(ts, Inserted(Scatter(states, idx, vals))))
         == Mul(NanProd(Mask(ts, Inserted(states))), NanProd(Mask(Apply(ts, idx), Inserted(vals))))
  {
    var before := Mask(ts, Inserted(states));
    var part := Mask(Apply(ts, idx), Inserted(vals));
    MaskScatter(ts, states, idx, vals);
    forall k | 0 <= k < |idx|
      ensures before[idx[k]] == None
    {
    }
    NanProdScatter(before, idx, part);
  }

  /** Entry `i` of a scatter over the blades of `m`: a written entry for a
      blade of `m`, the old entry otherwise. */
  lemma {:induction false} ScatterBlade(materials: seq<string>, m: string, xs: seq<int>, vals: seq<int>, i: nat)
    requires |xs| == |materials| && |vals| == |IndicesOf(materials, m)| && i < |xs|
    ensures materials[i] != m ==> Scatter(xs, IndicesOf(materials, m), vals)[i] == xs[i]
    ensures materials[i] == m ==>
      exists k :: 0 <= k < |vals| && IndicesOf(materials, m)[k] == i &&
                  Scatter(xs, IndicesOf(materials, m), vals)[i] == vals[k]
  {
    var idx := IndicesOf(materials, m);
    if materials[i] == m {
      var k :| 0 <= k < |idx| && idx[k] == i;
      assert Distinct(idx);
      ScatterInside(xs, idx, vals, k);
    } else {
      ScatterOutside(xs, idx, vals, i);
    }
  }

  /** Writing a partial configuration of the blades of `m` into one whose
      blades of `m` are all out keeps the transmission consistent with the
      states. A material solved a second time would instead have its blades'
      transmission counted twice. */
  lemma {:induction false} MergeConsistent(materials: seq<string>, ts: seq<Option<real>>, m: string,
                                           acc: Config, partial: Config)
    requires |materials| == |ts| == |acc.filterStates| && Consistent(ts, acc)
    requires forall i :: 0 <= i < |ts| && materials[i] == m ==> acc.filterStates[i] == 0
    requires Consistent(Apply(ts, IndicesOf(materials, m)), partial)
    ensures Consistent(ts, Config(ts, Scatter(acc.filterStates, IndicesOf(materials, m), partial.filterStates),
                                  Mul(acc.transmission, partial.transmission)))
  {
    var idx := IndicesOf(materials, m);
    MergeStates(materials, m, acc.filterStates, partial.filterStates);
    IndicesDistinct(materials, m);
    ScatterProduct(ts, acc.filterStates, idx, partial.filterStates);
  }

  /** The blades of `m` come at distinct positions. */
  lemma IndicesDistinct(materials: seq<string>, m: string)
    ensures InRange(IndicesOf(materials, m), |materials|) && Distinct(IndicesOf(materials, m))
  {
  }

  /** Merging in/out states into in/out states gives in/out states. */
  lemma MergeStates(materials: seq<string>, m: string, xs: seq<int>, vals: seq<int>)
    requires |xs| == |materials| && |vals| == |IndicesOf(materials, m)|
    requires forall i :: 0 <= i < |xs| ==> xs[i] == 0 || xs[i] == 1
    requires forall k :: 0 <= k < |vals| ==> vals[k] == 0 || vals[k] == 1
    ensures forall i :: 0 <= i < |xs| ==>
      Scatter(xs, IndicesOf(materials, m), vals)[i] == 0 || Scatter(xs, IndicesOf(materials, m), vals)[i] == 1
  {
    forall i | 0 <= i < |xs|
      ensures Scatter(xs, IndicesOf(materials, m), vals)[i] == 0 || Scatter(xs, IndicesOf(materials, m), vals)[i] == 1
    {
      ScatterBlade(materials, m, xs, vals, i);
    }
  }

  /** The same merge writes only the blades of `m`, and inserts all of them
      when the partial configuration does. */
  lemma {:induction false} MergeFrame(materials: seq<string>, m: string, xs: seq<int>, vals: seq<int>)
    requires |xs| == |materials| && |vals| == |IndicesOf(materials, m)|
    ensures forall i :: 0 <= i < |xs| && materials[i] != m ==>
      Scatter(xs, IndicesOf(materials, m), vals)[i] == xs[i]
    ensures AllSet(vals) ==> FullyInserted(materials, Scatter(xs, IndicesOf(materials, m), vals), m)
  {
    forall i | 0 <= i < |xs|
      ensures materials[i] != m ==> Scatter(xs, IndicesOf(materials, m), vals)[i] == xs[i]
      ensures materials[i] == m && AllSet(vals) ==> Scatter(xs, IndicesOf(materials, m), vals)[i] != 0
    {
      ScatterBlade(materials, m, xs, vals, i);
    }
  }

  /** One step keeps the transmission consistent with the states, writes
      only the blades of its material, and when it reports them all set they
      are all inserted. */
  lemma {:induction false} StepKeeps(materials: seq<string>, ts: seq<Option<real>>, m: string, tDes: real,
                                     mode: ConfigMode, acc: Config)
    requires |materials| == |ts| == |acc.filterStates| && Fractions(ts)
    requires acc.transmission > 0.0 && Consistent(ts, acc)
    requires forall i :: 0 <= i < |ts| && materials[i] == m ==> acc.filterStates[i] == 0
    ensures Consistent(ts, Step(materials, ts, m, tDes, mode, acc).0)
    ensures forall i :: 0 <= i < |ts| && materials[i] != m ==>
      Step(materials, ts, m, tDes, mode, acc).0.filterStates[i] == acc.filterStates[i]
    ensures Step(materials, ts, m, tDes, mode, acc).1 ==>
      FullyInserted(materials, Step(materials, ts, m, tDes, mode, acc).0.filterStates, m)
  {
    var partial := StepUnfold(materials, ts, m, tDes, mode, acc);
    MergeConsistent(materials, ts, m, acc, partial);
    MergeFrame(materials, m, acc.filterStates, partial.filterStates);
  }

  /** The step as the merge of the partial configuration found for the
      blades of `m`. */
  lemma StepUnfold(materials: seq<string>, ts: seq<Option<real>>, m: string, tDes: real,
                   mode: ConfigMode, acc: Config) returns (partial: Config)
    requires |materials| == |ts| == |acc.filterStates| && Fractions(ts)
    requires acc.transmission > 0.0 && acc.allTransmissions == ts
    ensures Consistent(Apply(ts, IndicesOf(materials, m)), partial)
    ensures |partial.filterStates| == |IndicesOf(materials, m)|
    ensures Step(materials, ts, m, tDes, mode, acc).0
         == Config(ts, Scatter(acc.filterStates, IndicesOf(materials, m), partial.filterStates),
                   Mul(acc.transmission, partial.transmission))
    ensures Step(materials, ts, m, tDes, mode, acc).1 == AllSet(partial.filterStates)
    ensures partial == Solve(Apply(ts, IndicesOf(materials, m)), tDes / acc.transmission, mode)
  {
    var sub := Apply(ts, IndicesOf(materials, m));
    assert Fractions(sub);
    partial := Solve(sub, tDes / acc.transmission, mode);
  }

  /** Blades of materials the remaining order does not name keep their
      state, whatever the order, repeats included. */
  lemma {:induction false} PriorityFrame(materials: seq<string>, ts: seq<Option<real>>, order: seq<string>,
                                         tDes: real, mode: ConfigMode, acc: Config, i: nat)
    requires |materials| == |ts| == |acc.filterStates| && Fractions(ts)
    requires acc.transmission > 0.0
    requires i < |ts| && materials[i] !in order
    ensures PriorityFrom(materials, ts, order, tDes, mode, acc).filterStates[i] == acc.filterStates[i]
    decreases |order|
  {
    if |order| > 0 {
      var (next, full) := Step(materials, ts, order[0], tDes, mode, acc);
      StepFrame(materials, ts, order[0], tDes, mode, acc, i);
      if full {
        assert materials[i] !in order[1..];
        PriorityFrame(materials, ts, order[1..], tDes, mode, next, i);
      }
    }
  }

  /** One step leaves a blade of another material as it was. */
  lemma StepFrame(materials: seq<string>, ts: seq<Option<real>>, m: string, tDes: real,
                  mode: ConfigMode, acc: Config, i: nat)
    requires |materials| == |ts| == |acc.filterStates| && Fractions(ts)
    requires acc.transmission > 0.0
    requires i < |ts| && materials[i] != m
    ensures Step(materials, ts, m, tDes, mode, acc).0.filterStates[i] == acc.filterStates[i]
  {
    var sub := Apply(ts, IndicesOf(materials, m));
    assert Fractions(sub);
    var partial := Solve(sub, tDes / acc.transmission, mode);
    ScatterBlade(materials, m, acc.filterStates, partial.filterStates, i);
  }

  /** `PriorityFrame` for every blade at once. */
  lemma FrameEvery(materials: seq<string>, ts: seq<Option<real>>, order: seq<string>,
                 tDes: real, mode: ConfigMode, acc: Config)
    requires |materials| == |ts| == |acc.filterStates| && Fractions(ts)
    requires acc.transmission > 0.0
    ensures forall i :: 0 <= i < |ts| && materials[i] !in order ==>
      PriorityFrom(materials, ts, order, tDes, mode, acc).filterStates[i] == acc.filterStates[i]
  {
    forall i | 0 <= i < |ts| && materials[i] !in order
      ensures PriorityFrom(materials, ts, order, tDes, mode, acc).filterStates[i] == acc.filterStates[i]
    {
      PriorityFrame(materials, ts, order, tDes, mode, acc, i);
    }
  }

  /** After the step for `order[0]`, the blades of the later materials are
      still out. */
  lemma {:induction false} StillOut(materials: seq<string>, order: seq<string>, before: seq<int>, after: seq<int>)
    requires |order| > 0 && Distinct(order) && |before| == |after| == |materials|
    requires forall j :: 0 <= j < |materials| && materials[j] in order ==> before[j] == 0
    requires forall j :: 0 <= j < |materials| && materials[j] != order[0] ==> after[j] == before[j]
    ensures forall j :: 0 <= j < |materials| && materials[j] in order[1..] ==> after[j] == 0
  {
    forall j | 0 <= j < |materials| && materials[j] in order[1..]
      ensures after[j] == 0
    {
      var b :| 0 <= b < |order[1..]| && order[1..][b] == materials[j];
      assert order[b + 1] != order[0];
    }
  }

  /** The loop keeps the transmission consistent with the states, as long as
      no material is named twice. */
  lemma {:induction false} PriorityConsistent(materials: seq<string>, ts: seq<Option<real>>, order: seq<string>,
                                              tDes: real, mode: ConfigMode, acc: Config)
    requires |materials| == |ts| == |acc.filterStates| && Fractions(ts)
    requires acc.transmission > 0.0 && Consistent(ts, acc) && Distinct(order)
    requires forall j :: 0 <= j < |ts| && materials[j] in order ==> acc.filterStates[j] == 0
    ensures Consistent(ts, PriorityFrom(materials, ts, order, tDes, mode, acc))
    decreases |order|
  {
    if |order| > 0 {
      var (next, full) := Step(materials, ts, order[0], tDes, mode, acc);
      StepKeeps(materials, ts, order[0], tDes, mode, acc);
      if full {
        StillOut(materials, order, acc.filterStates, next.filterStates);
        PriorityConsistent(materials, ts, order[1..], tDes, mode, next);
      }
    }
  }

  /** A material is only used once every blade of each material before it
      in the order is inserted. */
  lemma {:induction false} PriorityOrder(materials: seq<string>, ts: seq<Option<real>>, order: seq<string>,
                                         tDes: real, mode: ConfigMode, acc: Config)
    requires |materials| == |ts| == |acc.filterStates| && Fractions(ts)
    requires acc.transmission > 0.0 && Consistent(ts, acc) && Distinct(order)
    requires forall j :: 0 <= j < |ts| && materials[j] in order ==> acc.filterStates[j] == 0
    ensures forall a, b ::
      0 <= a < b < |order| &&
      AnyInserted(materials, PriorityFrom(materials, ts, order, tDes, mode, acc).filterStates, order[b])
      ==> FullyInserted(materials, PriorityFrom(materials, ts, order, tDes, mode, acc).filterStates, order[a])
    decreases |order|
  {
    if |order| > 0 {
      var (next, full) := Step(materials, ts, order[0], tDes, mode, acc);
      StepKeeps(materials, ts, order[0], tDes, mode, acc);
      StillOut(materials, order, acc.filterStates, next.filterStates);
      if full {
        PriorityOrder(materials, ts, order[1..], tDes, mode, next);
        HeadStaysInserted(materials, ts, order, tDes, mode, next);
        OrderExtends(materials, order, PriorityFrom(materials, ts, order[1..], tDes, mode, next).filterStates);
      } else {
        OrderStops(materials, order, next.filterStates);
      }
    }
  }

  /** Once every blade of `order[0]` is in, the later passes keep them in. */
  lemma HeadStaysInserted(materials: seq<string>, ts: seq<Option<real>>, order: seq<string>,
                          tDes: real, mode: ConfigMode, next: Config)
    requires |order| > 0 && Distinct(order)
    requires |materials| == |ts| == |next.filterStates| && Fractions(ts)
    requires next.transmission > 0.0 && Consistent(ts, next)
    requires forall j :: 0 <= j < |ts| && materials[j] in order[1..] ==> next.filterStates[j] == 0
    requires FullyInserted(materials, next.filterStates, order[0])
    ensures FullyInserted(materials, PriorityFrom(materials, ts, order[1..], tDes, mode, next).filterStates, order[0])
  {
    HeadNotInTail(order);
    DistinctTail(order);
    FrameEvery(materials, ts, order[1..], tDes, mode, next);
  }

  /** The priority holds along `order` when the first material is fully
      inserted and it holds along the rest. */
  lemma OrderExtends(materials: seq<string>, order: seq<string>, states: seq<int>)
    requires |order| > 0 && |states| == |materials|
    requires FullyInserted(materials, states, order[0])
    requires forall a, b ::
      0 <= a < b < |order[1..]| && AnyInserted(materials, states, order[1..][b])
      ==> FullyInserted(materials, states, order[1..][a])
    ensures forall a, b ::
      0 <= a < b < |order| && AnyInserted(materials, states, order[b])
      ==> FullyInserted(materials, states, order[a])
  {
    forall a, b | 0 <= a < b < |order| && AnyInserted(materials, states, order[b])
      ensures FullyInserted(materials, states, order[a])
    {
      if a > 0 {
        assert order[a] == order[1..][a - 1] && order[b] == order[1..][b - 1];
      }
    }
  }

  /** The priority holds along `order` when no later material has a blade in. */
  lemma OrderStops(materials: seq<string>, order: seq<string>, states: seq<int>)
    requires |order| > 0 && |states| == |materials|
    requires forall j :: 0 <= j < |materials| && materials[j] in order[1..] ==> states[j] == 0
    ensures forall a, b ::
      0 <= a < b < |order| && AnyInserted(materials, states, order[b])
      ==> FullyInserted(materials, states, order[a])
  {
    forall b | 0 < b < |order|
      ensures !AnyInserted(materials, states, order[b])
    {
      assert order[b] == order[1..][b - 1];
    }
  }

  /** The configuration every search starts from: nothing inserted. */
  lemma {:induction false} AllOut(ts: seq<Option<real>>)
    ensures Consistent(ts, Start(ts))
  {
    var zeros: seq<int> := seq(|ts|, _ => 0);
    NanProdAllNaN(Mask(ts, Inserted(zeros)));
  }

  /** The products of the single blade of 0.5: out, then in. */
  lemma OneBladeProducts(ts: seq<Option<real>>)
    requires ts == [Some(0.5)]
    ensures Products(ts) == [1.0, 0.5]
  {
    ProductIs(ts, 0);
    ProductIs(ts, 1);
    assert InOutCombinations(1)[0] == [false] && InOutCombinations(1)[1] == [true];
    assert Mask(ts, [false]) == [None] && Mask(ts, [true]) == [Some(0.5)];
  }

  /** A reachable configuration of the single blade of 0.5 is fixed by its
      transmission. */
  lemma OneBladeStates(ts: seq<Option<real>>, c: Config)
    requires ts == [Some(0.5)] && Consistent(ts, c)
    ensures c.transmission == 0.5 ==> c.filterStates == [1]
    ensures c.transmission == 1.0 ==> c.filterStates == [0]
  {
    if c.filterStates[0] == 0 {
      assert Inserted(c.filterStates) == [false];
      assert Mask(ts, [false]) == [None];
      assert NanProd([None]) == Factor(None) * NanProd([]);
    } else {
      assert Inserted(c.filterStates) == [true];
      assert Mask(ts, [true]) == [Some(0.5)];
      assert NanProd([Some(0.5)]) == Factor(Some(0.5)) * NanProd([]);
    }
    assert c.filterStates == [c.filterStates[0]];
  }

  /** The search over the single blade of 0.5 at a target it can reach
      exactly: inserted for 0.5, out for 1.0. */
  lemma OneBladeSolve(ts: seq<Option<real>>, t: real)
    requires ts == [Some(0.5)] && (t == 0.5 || t == 1.0)
    ensures Solve(ts, t, Floor) == Config(ts, if t == 0.5 then [1] else [0], t)
  {
    OneBladeProducts(ts);
    ExactMatch(ts, t, StableArgsort(Products(ts)), if t == 0.5 then 1 else 0);
    var c := Solve(ts, t, Floor);
    assert c.transmission == t;
    OneBladeStates(ts, c);
  }

  /** The blades of a material when it is the only blade. */
  lemma OnlyIndices(materials: seq<string>, m: string)
    requires materials == [m]
    ensures IndicesOf(materials, m) == [0]
  {
    assert materials[..0] == [];
  }

  /** Scattering over the only position writes the whole list. */
  lemma ScatterOnly(xs: seq<int>, vals: seq<int>)
    requires |xs| == |vals| == 1
    ensures Scatter(xs, [0], vals) == vals
  {
    assert Scatter(xs, [0], vals) == Scatter(xs[0 := vals[0]], [], []);
  }

  /** One pass for the material of the single blade of 0.5, whose own
      search reaches the remaining factor `q` exactly. */
  lemma OneBladePass(materials: seq<string>, ts: seq<Option<real>>, m: string, acc: Config, t: real, q: real)
    requires materials == [m] && ts == [Some(0.5)]
    requires acc.allTransmissions == ts && |acc.filterStates| == 1 && acc.transmission > 0.0
    requires q == t / acc.transmission && (q == 0.5 || q == 1.0)
    ensures var r := Step(materials, ts, m, t, Floor, acc);
      r.0 == Config(ts, if q == 0.5 then [1] else [0], Mul(acc.transmission, q)) &&
      r.1 == (q == 0.5)
  {
    var partial := StepUnfold(materials, ts, m, t, Floor, acc);
    OnlyIndices(materials, m);
    assert Apply(ts, [0]) == ts;
    OneBladeSolve(ts, q);
    var states: seq<int> := if q == 0.5 then [1] else [0];
    assert partial == Config(ts, states, q);
    ScatterOnly(acc.filterStates, states);
  }

  /** The loop over a material named twice, for the single blade of 0.5. */
  lemma RepeatedPasses(materials: seq<string>, ts: seq<Option<real>>, order: seq<string>)
    requires materials == ["Si"] && ts == [Some(0.5)] && order == ["Si", "Si"]
    ensures PriorityFrom(materials, ts, order, 0.5, Floor, Start(ts)) == Config(ts, [0], 0.5)
  {
    var start := Start(ts);
    assert start.filterStates == [0];
    OneBladePass(materials, ts, "Si", start, 0.5, 0.5);
    var next := Config(ts, [1], 0.5);
    OneBladePass(materials, ts, "Si", next, 0.5, 1.0);
    assert order[0] == "Si" && order[1..] == ["Si"] && order[1..][0] == "Si" && |order[1..][1..]| == 0;
  }

  /** An order naming a material twice: after a full first pass the second
      pass solves the blade again for the remaining factor 1.0, takes it out,
      and multiplies the transmission by 1.0. The result reports no blade
      inserted but a transmission of 0.5. */
  lemma RepeatedMaterialCountsTwice(materials: seq<string>, ts: seq<Option<real>>, order: seq<string>)
    requires materials == ["Si"] && ts == [Some(0.5)] && order == ["Si", "Si"]
    ensures PriorityConfig(materials, ts, order, 0.5, Mode(Floor)) == Success(Config(ts, [0], 0.5))
    ensures !Consistent(ts, Config(ts, [0], 0.5))
  {
    RepeatedPasses(materials, ts, order);
    assert Inserted([0]) == [false] && Mask(ts, [false]) == [None];
    assert NanProd([None]) == Factor(None) * NanProd([]);
  }

  /** `get_best_config_with_material_priority` as its docstring promises,
      for an order that names each material at most once: the transmission
      is that of the inserted blades, blades of materials the order does not
      name stay out, and a material is only used once the materials before
      it are fully inserted. */
  lemma PriorityConfigSound(materials: seq<string>, ts: seq<Option<real>>, order: seq<string>,
                            tDes: real, mode: ModeArg)
    requires Fractions(ts) && Distinct(order)
    ensures PriorityConfig(materials, ts, order, tDes, mode).Success? ==>
      var c := PriorityConfig(materials, ts, order, tDes, mode).value;
      Consistent(ts, c) &&
      (forall i :: 0 <= i < |ts| && materials[i] !in order ==> c.filterStates[i] == 0) &&
      (forall a, b ::
         0 <= a < b < |order| && AnyInserted(materials, c.filterStates, order[b])
         ==> FullyInserted(materials, c.filterStates, order[a]))
  {
    AllOut(ts);
    if |ts| == |materials| && |order| > 0 && ResolveMode(mode).Success? {
      var init := Start(ts);
      var m := ResolveMode(mode).value;
      PriorityConsistent(materials, ts, order, tDes, m, init);
      PriorityOrder(materials, ts, order, tDes, m, init);
      forall i | 0 <= i < |ts| && materials[i] !in order
        ensures PriorityFrom(materials, ts, order, tDes, m, init).filterStates[i] == 0
      {
        PriorityFrame(materials, ts, order, tDes, m, init, i);
      }
    }
  }

  /** When every blade is of one material, its indices are all positions. */
  lemma {:induction false} IndicesOfAll(materials: seq<string>, m: string)
    requires forall i :: 0 <= i < |materials| ==> materials[i] == m
    ensures IndicesOf(materials, m) == Iota(|materials|)
  {
    if |materials| > 0 {
      var n := |materials| - 1;
      IndicesOfAll(materials[..n], m);
      assert Iota(n + 1) == Iota(n) + [n];
    }
  }

  /** Writing every position, each once, replaces the whole list. */
  lemma {:induction false} ScatterEverywhere<T>(xs: seq<T>, vals: seq<T>)
    requires |vals| == |xs|
    ensures Scatter(xs, Iota(|xs|), vals) == vals
  {
    var idx := Iota(|xs|);
    forall k | 0 <= k < |xs|
      ensures Scatter(xs, idx, vals)[k] == vals[k]
    {
      ScatterInside(xs, idx, vals, k);
    }
  }

  /** With a single material and every blade made of it, the priority search
      is `get_best_config` itself. */
  lemma {:induction false} SingleMaterial(materials: seq<string>, ts: seq<Option<real>>, m: string,
                                          tDes: real, mode: ModeArg)
    requires Fractions(ts) && |materials| == |ts|
    requires forall i :: 0 <= i < |materials| ==> materials[i] == m
    ensures PriorityConfig(materials, ts, [m], tDes, mode) == GetBestConfig(ts, tDes, mode)
  {
    if ResolveMode(mode).Success? {
      var md := ResolveMode(mode).value;
      StepFromNothing(materials, ts, m, tDes, md);
      PriorityOfOne(materials, ts, m, tDes, mode);
      BestIsSolve(ts, tDes, mode);
    }
  }

  /** With one material in the order, the search is its single pass. */
  lemma PriorityOfOne(materials: seq<string>, ts: seq<Option<real>>, m: string, tDes: real, mode: ModeArg)
    requires Fractions(ts) && |materials| == |ts| && ResolveMode(mode).Success?
    ensures PriorityConfig(materials, ts, [m], tDes, mode)
         == Success(Step(materials, ts, m, tDes, ResolveMode(mode).value, Start(ts)).0)
  {
    var next := Step(materials, ts, m, tDes, ResolveMode(mode).value, Start(ts)).0;
    assert [m][1..] == [];
    assert PriorityFrom(materials, ts, [m][1..], tDes, ResolveMode(mode).value, next) == next;
  }

  /** `get_best_config` with a mode that resolves is the search the priority
      loop runs on each material. */
  lemma BestIsSolve(ts: seq<Option<real>>, tDes: real, mode: ModeArg)
    requires Fractions(ts) && ResolveMode(mode).Success?
    ensures GetBestConfig(ts, tDes, mode) == Success(Solve(ts, tDes, ResolveMode(mode).value))
  {
  }

  /** A pass over every blade, starting from nothing inserted, is the
      search over all blades. */
  lemma StepFromNothing(materials: seq<string>, ts: seq<Option<real>>, m: string, tDes: real, md: ConfigMode)
    requires Fractions(ts) && |materials| == |ts|
    requires forall i :: 0 <= i < |materials| ==> materials[i] == m
    ensures Step(materials, ts, m, tDes, md, Start(ts)).0 == Solve(ts, tDes, md)
    ensures Step(materials, ts, m, tDes, md, Start(ts)).1 == AllSet(Solve(ts, tDes, md).filterStates)
  {
    var init := Start(ts);
    IndicesOfAll(materials, m);
    assert Apply(ts, Iota(|ts|)) == ts;
    assert tDes / init.transmission == tDes;
    var partial := Solve(ts, tDes, md);
    ScatterEverywhere(init.filterStates, partial.filterStates);
    assert Mul(1.0, partial.transmission) == partial.transmission;
  }

  /** `s = (a f) b` and `p = f b` give `s = a p`. */
  lemma Regroup(s: real, m: real, a: real, f: real, b: real, p: real)
    requires s == Mul(m, b) && m == Mul(a, f) && p == Mul(f, b)
    ensures s == Mul(a, p)
  {
  }
}

=== FILE: products.dfy ===
/** `itertools.product`: the Cartesian product of a list of lists, the first
    list varying slowest. */
module Cartesian {

  import opened Common
  import opened Bits

  /** `a` blocks of `m` rows, counted by repeated addition so that row
      arithmetic stays linear. */
  function BlockRows(a: nat, m: nat): nat
  {
    if a == 0 then 0 else m + BlockRows(a - 1, m)
  }

  /** The number of rows of the product: the product of the list lengths. */
  function Size<T>(lists: seq<seq<T>>): nat
  {
    if |lists| == 0 then 1 else BlockRows(|lists[0]|, Size(lists[1..]))
  }

  /** `x` put in front of every row. */
  function Prefixed<T>(x: T, rows: seq<seq<T>>): (r: seq<seq<T>>)
    ensures |r| == |rows|
    ensures forall i :: 0 <= i < |rows| ==> r[i] == [x] + rows[i]
  {
    seq(|rows|, i requires 0 <= i < |rows| => [x] + rows[i])
  }

  /** Each entry of `xs` in turn put in front of every row. */
  function PrependEach<T>(xs: seq<T>, rows: seq<seq<T>>): (r: seq<seq<T>>)
    ensures |r| == BlockRows(|xs|, |rows|)
    ensures forall i :: 0 <= i < |r| ==>
      |r[i]| > 0 && r[i][0] in xs && r[i][1..] in rows
  {
    if |xs| == 0 then []
    else
      var rest := PrependEach(xs[1..], rows);
      var r := Prefixed(xs[0], rows) + rest;
      assert forall i :: |rows| <= i < |r| ==> r[i] == rest[i - |rows|];
      assert forall i :: 0 <= i < |rows| ==> r[i][1..] == rows[i];
      r
  }

  /** `itertools.product(*lists)`. */
  function CartesianProduct<T>(lists: seq<seq<T>>): (r: seq<seq<T>>)
    ensures |r| == Size(lists)
    ensures forall i :: 0 <= i < |r| ==> |r[i]| == |lists|
    ensures forall i, j :: 0 <= i < |r| && 0 <= j < |lists| ==> r[i][j] in lists[j]
  {
    if |lists| == 0 then [[]]
    else
      var tail := CartesianProduct(lists[1..]);
      var r := PrependEach(lists[0], tail);
      assert forall i, j :: 0 <= i < |r| && 1 <= j < |lists| ==>
        r[i][j] == r[i][1..][j - 1] && lists[j] == lists[1..][j - 1];
      r
  }

  /** `n` copies of `xs`: `itertools.product(xs, repeat=n)` is the product of these. */
  function Repeat<T>(xs: seq<T>, n: nat): (r: seq<seq<T>>)
    ensures |r| == n && forall j :: 0 <= j < n ==> r[j] == xs
  {
    seq(n, _ => xs)
  }

  /** Row `b` of block `a`, in blocks of `m` rows. */
  function RowIndex(a: nat, m: nat, b: nat): nat {
    BlockRows(a, m) + b
  }

  /** Row `b < m` of block `a < n` lies among the rows of `n` blocks. */
  lemma {:induction false} RowIndexBound(a: nat, b: nat, m: nat, n: nat)
    requires a < n && b < m
    ensures RowIndex(a, m, b) < BlockRows(n, m)
  {
    if a > 0 {
      RowIndexBound(a - 1, b, m, n - 1);
    }
  }

  /** Block `a` starts `m` rows after block `a - 1`. */
  lemma RowIndexShift(a: nat, b: nat, m: nat)
    requires a > 0
    ensures RowIndex(a - 1, m, b) + m == RowIndex(a, m, b)
  {
  }

  /** Row `b` of block `a` of `PrependEach` is entry `a` before row `b`. */
  lemma {:induction false} PrependEachAt<T>(xs: seq<T>, rows: seq<seq<T>>, a: nat, b: nat)
    requires a < |xs| && b < |rows|
    ensures RowIndex(a, |rows|, b) < |PrependEach(xs, rows)|
    ensures PrependEach(xs, rows)[RowIndex(a, |rows|, b)] == [xs[a]] + rows[b]
  {
    RowIndexBound(a, b, |rows|, |xs|);
    var rest := PrependEach(xs[1..], rows);
    assert PrependEach(xs, rows) == Prefixed(xs[0], rows) + rest;
    if a == 0 {
      assert RowIndex(a, |rows|, b) == b;
    } else {
      PrependEachAt(xs[1..], rows, a - 1, b);
      RowIndexShift(a, b, |rows|);
    }
  }

  /** Row `b` of block `a` of the product is entry `a` of the first list
      before row `b` of the product of the remaining lists. */
  lemma ProductAt<T>(lists: seq<seq<T>>, a: nat, b: nat)
    requires |lists| > 0 && a < |lists[0]| && b < Size(lists[1..])
    ensures RowIndex(a, Size(lists[1..]), b) < |CartesianProduct(lists)|
    ensures CartesianProduct(lists)[RowIndex(a, Size(lists[1..]), b)]
         == [lists[0][a]] + CartesianProduct(lists[1..])[b]
  {
    var tail := CartesianProduct(lists[1..]);
    assert CartesianProduct(lists) == PrependEach(lists[0], tail);
    assert |tail| == Size(lists[1..]);
    PrependEachAt(lists[0], tail, a, b);
  }

  /** Every list non-empty: the product has a row. */
  lemma {:induction false} SizePositive<T>(lists: seq<seq<T>>)
    requires forall j :: 0 <= j < |lists| ==> |lists[j]| > 0
    ensures Size(lists) > 0
  {
    if |lists| > 0 {
      SizePositive(lists[1..]);
    }
  }

  /** Every combination taking one entry from each list is a row of the
      product. */
  lemma {:induction false} ProductComplete<T>(lists: seq<seq<T>>, row: seq<T>) returns (k: nat)
    requires |row| == |lists|
    requires forall j :: 0 <= j < |lists| ==> row[j] in lists[j]
    ensures k < |CartesianProduct(lists)| && CartesianProduct(lists)[k] == row
  {
    if |lists| == 0 {
      k := 0;
    } else {
      var a :| 0 <= a < |lists[0]| && lists[0][a] == row[0];
      TailChoice(lists, row);
      var b := ProductComplete(lists[1..], row[1..]);
      ProductAt(lists, a, b);
      k := RowIndex(a, Size(lists[1..]), b);
      assert row == [row[0]] + row[1..];
    }
  }

  /** The rest of a choice is a choice from the remaining lists. */
  lemma TailChoice<T>(lists: seq<seq<T>>, row: seq<T>)
    requires 0 < |row| == |lists|
    requires forall j :: 0 <= j < |lists| ==> row[j] in lists[j]
    ensures |row[1..]| == |lists[1..]|
    ensures forall j :: 0 <= j < |lists[1..]| ==> row[1..][j] in lists[1..][j]
  {
    forall j | 0 <= j < |lists[1..]|
      ensures row[1..][j] in lists[1..][j]
    {
      assert row[1..][j] == row[j + 1];
    }
  }

  lemma {:induction false} RepeatSize<T>(xs: seq<T>, n: nat)
    requires |xs| == 2
    ensures Size(Repeat(xs, n)) == Pow2(n)
  {
    if n > 0 {
      var rest := Size(Repeat(xs, n - 1));
      assert Repeat(xs, n)[1..] == Repeat(xs, n - 1);
      RepeatSize(xs, n - 1);
      assert BlockRows(2, rest) == rest + BlockRows(1, rest) == rest + rest;
    }
  }

  /** Row `k` of the product of `n` copies of a two-entry list is entry `a`
      (the top bit of `k`) before row `c` (the rest of `k`) of the product of
      `n - 1` copies. */
  lemma BinaryRowSplit<T>(xs: seq<T>, n: nat, k: nat) returns (a: nat, c: nat)
    requires |xs| == 2 && 0 < n && k < Pow2(n)
    ensures a < 2 && c < Pow2(n - 1) && k == (if a == 1 then Pow2(n - 1) else 0) + c
    ensures |CartesianProduct(Repeat(xs, n))| == Pow2(n)
    ensures |CartesianProduct(Repeat(xs, n - 1))| == Pow2(n - 1)
    ensures CartesianProduct(Repeat(xs, n))[k] == [xs[a]] + CartesianProduct(Repeat(xs, n - 1))[c]
  {
    RepeatSize(xs, n);
    RepeatSize(xs, n - 1);
    var lists := Repeat(xs, n);
    var half := Pow2(n - 1);
    assert lists[1..] == Repeat(xs, n - 1);
    assert Pow2(n) == 2 * half;
    if k >= half {
      a, c := 1, k - half;
    } else {
      a, c := 0, k;
    }
    assert RowIndex(a, half, c) == k;
    ProductAt(lists, a, c);
  }

  /** The row of `n` entries of `xs` that spells `k` in binary, most
      significant bit first. */
  function BitRow<T>(xs: seq<T>, n: nat, k: nat): (r: seq<T>)
    requires |xs| == 2
    ensures |r| == n
    ensures forall j :: 0 <= j < n ==> r[j] == if Bit(k, n - 1 - j) then xs[1] else xs[0]
  {
    seq(n, j requires 0 <= j < n => if Bit(k, n - 1 - j) then xs[1] else xs[0])
  }

  /** Spelling `k = a 2^(n-1) + c` takes the digit `a` before the spelling of `c`. */
  lemma BitRowCons<T>(xs: seq<T>, n: nat, k: nat, a: nat, c: nat)
    requires |xs| == 2 && 0 < n
    requires a < 2 && c < Pow2(n - 1) && k == (if a == 1 then Pow2(n - 1) else 0) + c
    ensures BitRow(xs, n, k) == [xs[a]] + BitRow(xs, n - 1, c)
  {
    var r := BitRow(xs, n, k);
    var t := [xs[a]] + BitRow(xs, n - 1, c);
    forall j | 0 <= j < n
      ensures r[j] == t[j]
    {
      if j == 0 {
        TopBit(a, c, n - 1, k);
      } else {
        LowBit(a, c, n - 1, k, n - 1 - j);
      }
    }
  }

  /** Row `k` of the product of `n` copies of a two-entry list spells `k` in
      binary: the rows count upwards, the first list varying slowest. */
  lemma {:induction false} BinaryRows<T>(xs: seq<T>, n: nat, k: nat)
    requires |xs| == 2 && k < Pow2(n)
    ensures |CartesianProduct(Repeat(xs, n))| == Pow2(n)
    ensures CartesianProduct(Repeat(xs, n))[k] == BitRow(xs, n, k)
  {
    RepeatSize(xs, n);
    if n == 0 {
      assert Repeat(xs, 0) == [];
    } else {
      var a, c := BinaryRowSplit(xs, n, k);
      BinaryRows(xs, n - 1, c);
      BitRowCons(xs, n, k, a, c);
    }
  }

  /** In the product of `n` copies of a two-entry list, entry `j` of row `k`
      is the second entry exactly when bit `n - 1 - j` of `k` is set. */
  lemma BinaryProductAt<T>(xs: seq<T>, n: nat, k: nat, j: nat)
    requires |xs| == 2 && k < Pow2(n) && j < n
    ensures |CartesianProduct(Repeat(xs, n))| == Pow2(n)
    ensures CartesianProduct(Repeat(xs, n))[k][j] == if Bit(k, n - 1 - j) then xs[1] else xs[0]
  {
    BinaryRows(xs, n, k);
  }

  /** Entrywise image of a list of rows. */
  function MapRows<T, U>(f: T -> U, rows: seq<seq<T>>): (r: seq<seq<U>>)
    ensures |r| == |rows|
    ensures forall i :: 0 <= i < |rows| ==> |r[i]| == |rows[i]|
    ensures forall i, j :: 0 <= i < |rows| && 0 <= j < |rows[i]| ==> r[i][j] == f(rows[i][j])
  {
    seq(|rows|, i requires 0 <= i < |rows| =>
      seq(|rows[i]|, j requires 0 <= j < |rows[i]| => f(rows[i][j])))
  }

  /** Renaming the two entries of a binary product renames its rows entrywise:
      the products of `n` copies of `[x0, x1]` and `[f(x0), f(x1)]` agree row by
      row under `f`. */
  lemma BinaryProductMap<T, U>(xs: seq<T>, ys: seq<U>, f: T -> U, n: nat)
    requires |xs| == 2 && |ys| == 2 && ys[0] == f(xs[0]) && ys[1] == f(xs[1])
    ensures CartesianProduct(Repeat(ys, n)) == MapRows(f, CartesianProduct(Repeat(xs, n)))
  {
    RepeatSize(xs, n);
    RepeatSize(ys, n);
    var p := CartesianProduct(Repeat(ys, n));
    var q := MapRows(f, CartesianProduct(Repeat(xs, n)));
    forall k | 0 <= k < |p|
      ensures p[k] == q[k]
    {
      forall j | 0 <= j < n
        ensures p[k][j] == q[k][j]
      {
        BinaryProductAt(xs, n, k, j);
        BinaryProductAt(ys, n, k, j);
      }
    }
  }
}

=== FILE: satt_app.dfy ===
/** `ioc-satt-dev/satt_app.py`: the early IOC's own copy of the search. It
    reads the blades' transmissions from their PV groups, treats stuck
    blades as removed, looks energies up with an explicit increment, and
    searches a configuration table loaded from a file. */
module SattApp {

  import opened Common
  import opened Sequences
  import opened Text
  import opened Bits
  import opened Calculator
  import opened Configurations
  import opened LegacyCalculator
  import Energy

  /** What the IOC reads from one filter's PV group: the `is_stuck` value
      as a string, and the transmissions at the fundamental and the third
      harmonic. */
  datatype Filter = Filter(isStuck: string, transmission: real, transmission3Omega: real)

  /** Only the exact string `"True"` marks a blade stuck. */
  predicate Stuck(f: Filter) {
    f.isStuck == "True"
  }

  /** `filter(i)`: the group keyed by `i` zero-padded to two digits. */
  function FilterAt(groups: map<string, Filter>, i: int): (r: Result<Filter>)
    ensures r.Success? <==> Pad2(i) in groups
    ensures r.Failure? ==> r.error == KeyError
    ensures r.Success? ==> r.value == groups[Pad2(i)]
  {
    if Pad2(i) in groups then Success(groups[Pad2(i)]) else Failure(KeyError)
  }

  /** Distinct filter indices name distinct groups. */
  lemma FilterKeysDistinct(i: int, j: int)
    requires i != j
    ensures Pad2(i) != Pad2(j)
  {
    if Pad2(i) == Pad2(j) {
      Pad2Injective(i, j);
    }
  }

  /** Every one of the filters `1..n` has a group. */
  predicate Present(groups: map<string, Filter>, n: nat) {
    forall f :: 1 <= f <= n ==> Pad2(f) in groups
  }

  /** The product of `pick` over the filters `1..n` that are not stuck:
      the loop of `t_calc` and `t_calc_3omega`. */
  function UnstuckProduct(groups: map<string, Filter>, n: nat, pick: Filter -> real): (r: Result<real>)
    ensures r.Success? <==> Present(groups, n)
    ensures r.Failure? ==> r.error == KeyError
  {
    if n == 0 then Success(1.0)
    else
      match UnstuckProduct(groups, n - 1, pick)
      case Failure(e) => Failure(e)
      case Success(t) =>
        match FilterAt(groups, n)
        case Failure(e) => Failure(e)
        case Success(f) => Success(if Stuck(f) then t else t * pick(f))
  }

  /** The transmission a filter group reports at the fundamental. */
  function Fundamental(f: Filter): real {
    f.transmission
  }

  /** The transmission a filter group reports at the third harmonic. */
  function ThirdHarmonic(f: Filter): real {
    f.transmission3Omega
  }

  /** `t_calc`: the transmission with every working blade inserted. */
  function TCalc(groups: map<string, Filter>, n: nat): (r: Result<real>)
    ensures r.Success? <==> Present(groups, n)
    ensures r.Failure? ==> r.error == KeyError
  {
    UnstuckProduct(groups, n, Fundamental)
  }

  /** `t_calc_3omega`: the same at the third harmonic. */
  function TCalc3Omega(groups: map<string, Filter>, n: nat): (r: Result<real>)
    ensures r.Success? <==> Present(groups, n)
    ensures r.Failure? ==> r.error == KeyError
  {
    UnstuckProduct(groups, n, ThirdHarmonic)
  }

  /** The readings of filters `1..n` through `pick`, NaN for a stuck one:
      the reference the products are compared with. */
  function Readings(groups: map<string, Filter>, n: nat, pick: Filter -> real): (r: seq<Option<real>>)
    requires Present(groups, n)
    ensures |r| == n
  {
    seq(n, f requires 0 <= f < n =>
      var g := groups[Pad2(f + 1)];
      if Stuck(g) then None else Some(pick(g)))
  }

  /** `all_transmissions`: entry `f` is NaN when filter `f + 1` is stuck and
      its transmission otherwise. */
  function AllTransmissions(groups: map<string, Filter>, n: nat): (r: Result<seq<Option<real>>>)
    ensures r.Success? <==> Present(groups, n)
    ensures r.Failure? ==> r.error == KeyError
    ensures r.Success? ==> |r.value| == n
    ensures r.Success? ==> forall f :: 0 <= f < n ==>
      r.value[f] == if Stuck(groups[Pad2(f + 1)]) then None else Some(groups[Pad2(f + 1)].transmission)
  {
    if n == 0 then Success([])
    else
      match AllTransmissions(groups, n - 1)
      case Failure(e) => Failure(e)
      case Success(ts) =>
        match FilterAt(groups, n)
        case Failure(e) => Failure(e)
        case Success(f) =>
          var entry := if Stuck(f) then None else Some(f.transmission);
          Success(ts + [entry])
  }

  /** The product over the unstuck filters is the `nanprod` of their
      readings: a stuck blade is left out of both. */
  lemma {:induction false} UnstuckIsNanProd(groups: map<string, Filter>, n: nat, pick: Filter -> real)
    requires Present(groups, n)
    ensures UnstuckProduct(groups, n, pick).value == NanProd(Readings(groups, n, pick))
  {
    if n > 0 {
      UnstuckIsNanProd(groups, n - 1, pick);
      var g := groups[Pad2(n)];
      var entry := if Stuck(g) then None else Some(pick(g));
      ReadingsSnoc(groups, n, pick);
      UnstuckStep(groups, n, pick);
      NanProdSnoc(Readings(groups, n - 1, pick), entry);
    }
  }

  /** The readings of `n` filters are those of the first `n - 1` and then
      filter `n`'s. */
  lemma ReadingsSnoc(groups: map<string, Filter>, n: nat, pick: Filter -> real)
    requires 0 < n && Present(groups, n)
    ensures Present(groups, n - 1)
    ensures var g := groups[Pad2(n)];
            Readings(groups, n, pick) == Readings(groups, n - 1, pick) + [if Stuck(g) then None else Some(pick(g))]
  {
    var g := groups[Pad2(n)];
    var xs, ys := Readings(groups, n, pick), Readings(groups, n - 1, pick) + [if Stuck(g) then None else Some(pick(g))];
    forall f | 0 <= f < n
      ensures xs[f] == ys[f]
    {
      if f < n - 1 {
        assert ys[f] == Readings(groups, n - 1, pick)[f];
      }
    }
  }

  /** One more filter multiplies the product by its reading unless it is stuck. */
  lemma UnstuckStep(groups: map<string, Filter>, n: nat, pick: Filter -> real)
    requires 0 < n && Present(groups, n)
    ensures Present(groups, n - 1)
    ensures UnstuckProduct(groups, n, pick).value ==
      if Stuck(groups[Pad2(n)]) then UnstuckProduct(groups, n - 1, pick).value
      else Mul(UnstuckProduct(groups, n - 1, pick).value, pick(groups[Pad2(n)]))
  {
  }

  /** `t_calc` is the `nanprod` of `all_transmissions`: both leave the
      stuck blades out. */
  lemma TCalcIsNanProd(groups: map<string, Filter>, n: nat)
    requires Present(groups, n)
    ensures TCalc(groups, n).value == NanProd(AllTransmissions(groups, n).value)
  {
    UnstuckIsNanProd(groups, n, Fundamental);
    var ts, rs := AllTransmissions(groups, n).value, Readings(groups, n, Fundamental);
    forall f | 0 <= f < n
      ensures ts[f] == rs[f]
    {
      var g := groups[Pad2(f + 1)];
      assert Fundamental(g) == g.transmission;
    }
    assert ts == rs;
  }

  /** `t_calc_3omega` is the `nanprod` of the third-harmonic readings, NaN
      at the stuck filters. */
  lemma TCalc3OmegaIsNanProd(groups: map<string, Filter>, n: nat)
    requires Present(groups, n)
    ensures TCalc3Omega(groups, n).value == NanProd(Readings(groups, n, ThirdHarmonic))
    ensures forall f :: 0 <= f < n ==>
      Readings(groups, n, ThirdHarmonic)[f] ==
        (if Stuck(groups[Pad2(f + 1)]) then None else Some(groups[Pad2(f + 1)].transmission3Omega))
  {
    UnstuckIsNanProd(groups, n, ThirdHarmonic);
    forall f | 0 <= f < n
      ensures Readings(groups, n, ThirdHarmonic)[f] ==
        (if Stuck(groups[Pad2(f + 1)]) then None else Some(groups[Pad2(f + 1)].transmission3Omega))
    {
      var g := groups[Pad2(f + 1)];
      assert ThirdHarmonic(g) == g.transmission3Omega;
    }
  }

  // ---- energy lookup ----

  /** `calc_closest_eV`: the index is the nearest integer to the offset
      from `eV_min` in increments `eV_inc`, clamped as `find_closest_energy`
      of the legacy calculator clamps. `eV_max` is not used. */
  function CalcClosestEv(eV: real, energies: seq<real>, eVMin: real, eVInc: real): (r: Result<Energy.Closest>)
    requires eVInc != 0.0
    ensures r.Failure? <==> |energies| == 0 || Rint((eV - eVMin) / eVInc) == |energies|
    ensures r.Success? ==> PyIndexValid(r.value.index, |energies|)
    ensures r.Success? ==> r.value.energy == energies[PyIndex(r.value.index, |energies|)]
  {
    Lookup(energies, Rint((eV - eVMin) / eVInc))
  }

  /** An energy half an increment or more past the last row, but less than
      one and a half, gives the index equal to the length: `IndexError`. */
  lemma CalcClosestEvPastEnd()
    ensures CalcClosestEv(20.0, [10.0, 15.0], 10.0, 5.0) == Failure(IndexError)
  {
    assert (20.0 - 10.0) / 5.0 == 2.0;
    assert Rint(2.0) == 2;
  }

  // ---- configuration search ----

  /** `not T_des`: a missing or zero target is replaced by the system's
      desired transmission. */
  function Target(tDes: Option<real>, tDesired: real): (t: real)
    ensures tDes.Some? && tDes.value != 0.0 ==> t == tDes.value
    ensures tDes.None? || tDes.value == 0.0 ==> t == tDesired
  {
    if tDes.None? || tDes.value == 0.0 then tDesired else tDes.value
  }

  /** `np.nanprod(T_basis * config_table, axis=1)`. The ensures only spells
      out the row-wise product; `ScoresAreProducts` gives it its meaning,
      the main calculator's products on the in/out table. */
  function TableScores(ts: seq<Option<real>>, table: seq<seq<Option<real>>>): (r: seq<real>)
    requires forall k :: 0 <= k < |table| ==> |table[k]| == |ts|
    ensures |r| == |table|
    ensures forall k :: 0 <= k < |table| ==> r[k] == NanProd(Weighted(ts, table[k]))
  {
    seq(|table|, k requires 0 <= k < |table| => NanProd(Weighted(ts, table[k])))
  }

  /** The floor and ceiling states and transmissions `find_configs`
      returns. */
  datatype Found = Found(low: seq<int>, high: seq<int>, tLow: real, tHigh: real)

  /** `find_configs`: Python's stable `sorted` by product, the first
      nearest product, and then, with no clamping, the next row as ceiling
      below the target (`IndexError` past the end) or the previous row as
      floor above it, where position `-1` wraps to the largest product. An
      empty table sorts to an empty one-dimensional array, which cannot be
      indexed by column (`IndexError`). */
  function FindConfigs(ts: seq<Option<real>>, table: seq<seq<Option<real>>>, tDes: Option<real>, tDesired: real)
    : (r: Result<Found>)
    requires forall k :: 0 <= k < |table| ==> |table[k]| == |ts|
    ensures |table| == 0 ==> r == Failure(IndexError)
    ensures r.Failure? ==> r.error == IndexError
    ensures r.Success? ==> |r.value.low| == |ts| && |r.value.high| == |ts|
  {
    var t := Target(tDes, tDesired);
    if |table| == 0 then Failure(IndexError)
    else
      var scores := TableScores(ts, table);
      var order := StableArgsort(scores);
      var sorted := Apply(scores, order);
      SelectAt(ts, table, order, Closest(sorted, t), t)
  }

  /** The choice `find_configs` makes around position `i` of the sorted
      table, whose rows are `table[order[k]]`: both results the nearest row
      on an exact match; below the target the next row as ceiling, with
      `IndexError` past the end; above it the previous row as floor, where
      position `-1` wraps to the last row, and the nearest row cast directly
      as ceiling. */
  function SelectAt(ts: seq<Option<real>>, table: seq<seq<Option<real>>>, order: seq<nat>, i: nat, t: real)
    : (r: Result<Found>)
    requires forall k :: 0 <= k < |table| ==> |table[k]| == |ts|
    requires |order| == |table| && InRange(order, |table|) && i < |order|
    ensures r.Failure? <==> NanProd(Weighted(ts, table[order[i]])) < t && i + 1 == |order|
    ensures r.Failure? ==> r.error == IndexError
    ensures r.Success? ==> |r.value.low| == |ts| && |r.value.high| == |ts|
  {
    var closest := table[order[i]];
    var tClosest := NanProd(Weighted(ts, closest));
    if tClosest == t then
      Success(Found(NanToNumRow(closest), NanToNumRow(closest), tClosest, tClosest))
    else if tClosest < t then
      if i + 1 < |order| then
        var high := table[order[i + 1]];
        Success(Found(NanToNumRow(closest), NanToNumRow(high), tClosest, NanProd(Weighted(ts, high))))
      else
        Failure(IndexError)
    else
      var low := table[order[PyIndex(i - 1, |order|)]];
      Success(Found(NanToNumRow(low), AsIntRow(closest), NanProd(Weighted(ts, low)), tClosest))
  }

  /** `find_configs` on a non-empty table is the choice around the nearest
      sorted product. */
  lemma FindConfigsAt(ts: seq<Option<real>>, table: seq<seq<Option<real>>>, tDes: Option<real>, tDesired: real,
                      t: real, order: seq<nat>, sorted: seq<real>, i: nat)
    requires forall k :: 0 <= k < |table| ==> |table[k]| == |ts|
    requires |table| > 0 && t == Target(tDes, tDesired)
    requires order == StableArgsort(TableScores(ts, table)) && sorted == Apply(TableScores(ts, table), order)
    requires i == Closest(sorted, t)
    ensures |order| == |sorted| == |table| && InRange(order, |table|) && i < |order|
    ensures forall k :: 0 <= k < |order| ==> sorted[k] == NanProd(Weighted(ts, table[order[k]]))
    ensures FindConfigs(ts, table, tDes, tDesired) == SelectAt(ts, table, order, i, t)
  {
  }

  /** `find_configs` with the neighbours clamped to the table and
      `nan_to_num` states for both results. */
  function FindConfigsCorrected(ts: seq<Option<real>>, table: seq<seq<Option<real>>>, tDes: Option<real>, tDesired: real)
    : (r: Result<Found>)
    requires forall k :: 0 <= k < |table| ==> |table[k]| == |ts|
    ensures r.Failure? <==> |table| == 0
    ensures r.Failure? ==> r.error == ValueError
    ensures r.Success? ==> |r.value.low| == |ts| && |r.value.high| == |ts|
  {
    var t := Target(tDes, tDesired);
    if |table| == 0 then Failure(ValueError)
    else
      var scores := TableScores(ts, table);
      var order := StableArgsort(scores);
      var sorted := Apply(scores, order);
      var (lo, hi) := Neighbours(sorted, Closest(sorted, t), t);
      var low, high := table[order[lo]], table[order[hi]];
      Success(Found(NanToNumRow(low), NanToNumRow(high), NanProd(Weighted(ts, low)), NanProd(Weighted(ts, high))))
  }

  /** The corrected floor never lies above the corrected ceiling. */
  lemma CorrectedOrdered(ts: seq<Option<real>>, table: seq<seq<Option<real>>>, tDes: Option<real>, tDesired: real)
    requires forall k :: 0 <= k < |table| ==> |table[k]| == |ts|
    requires |table| > 0
    ensures FindConfigsCorrected(ts, table, tDes, tDesired).value.tLow
         <= FindConfigsCorrected(ts, table, tDes, tDesired).value.tHigh
  {
    var t := Target(tDes, tDesired);
    var scores := TableScores(ts, table);
    var order := StableArgsort(scores);
    var sorted := Apply(scores, order);
    var (lo, hi) := Neighbours(sorted, Closest(sorted, t), t);
    var r := FindConfigsCorrected(ts, table, tDes, tDesired).value;
    assert r.tLow == scores[order[lo]] == sorted[lo];
    assert r.tHigh == scores[order[hi]] == sorted[hi];
    assert Ascending(sorted);
  }

  /** On the table of every in/out combination the corrected search is the
      solid-attenuator calculator's `find_configs`. */
  lemma CorrectedIsMain(ts: seq<Option<real>>, tDes: Option<real>, tDesired: real)
    ensures var m := Calculator.FindConfigs(ts, Target(tDes, tDesired));
            FindConfigsCorrected(ts, InOutAttenuator(|ts|), tDes, tDesired)
              == Success(Found(m.floor.filterStates, m.ceiling.filterStates,
                               m.floor.transmission, m.ceiling.transmission))
  {
    var t := Target(tDes, tDesired);
    var table := InOutAttenuator(|ts|);
    ScoresAreProducts(ts);
    var order := StableArgsort(Products(ts));
    var sorted := Apply(Products(ts), order);
    var (lo, hi) := Neighbours(sorted, Closest(sorted, t), t);
    RowConfig(ts, order[lo]);
    RowConfig(ts, order[hi]);
  }

  /** The products of the in/out table are the solid-attenuator
      calculator's. */
  lemma ScoresAreProducts(ts: seq<Option<real>>)
    ensures TableScores(ts, InOutAttenuator(|ts|)) == Products(ts)
  {
    forall k | 0 <= k < Pow2(|ts|)
      ensures TableScores(ts, InOutAttenuator(|ts|))[k] == Products(ts)[k]
    {
      WeightedRow(ts, k);
    }
  }

  /** Where the search as written and the corrected one part: the ceiling's
      transmission always agrees; the floor differs only when the nearest
      product comes first in the sort and lies above the target, and then
      it is the largest product; and `IndexError` comes only when the
      nearest product comes last and lies below the target. */
  lemma AsWrittenAgreement(ts: seq<Option<real>>, table: seq<seq<Option<real>>>, tDes: Option<real>, tDesired: real)
    requires forall k :: 0 <= k < |table| ==> |table[k]| == |ts|
    requires |table| > 0
    ensures var r := FindConfigs(ts, table, tDes, tDesired);
            var c := FindConfigsCorrected(ts, table, tDes, tDesired).value;
            var t := Target(tDes, tDesired);
            var sorted := Apply(TableScores(ts, table), StableArgsort(TableScores(ts, table)));
            (r.Success? ==> r.value.tHigh == c.tHigh) &&
            (r.Success? && r.value.tLow != c.tLow ==>
               Closest(sorted, t) == 0 && c.tLow == c.tHigh && c.tHigh > t &&
               r.value.tLow == sorted[|sorted| - 1]) &&
            (r.Failure? ==> Closest(sorted, t) == |sorted| - 1 && c.tLow == c.tHigh && c.tHigh < t)
  {
    var t := Target(tDes, tDesired);
    var order := StableArgsort(TableScores(ts, table));
    var sorted := Apply(TableScores(ts, table), order);
    var i := Closest(sorted, t);
    FindConfigsAt(ts, table, tDes, tDesired, t, order, sorted, i);
    CorrectedAt(ts, table, tDes, tDesired, t, order, sorted, i);
    SelectAgreement(ts, table, order, sorted, i, t);
  }

  /** The corrected transmissions are the sorted products at the
      neighbours of the nearest one. */
  lemma CorrectedAt(ts: seq<Option<real>>, table: seq<seq<Option<real>>>, tDes: Option<real>, tDesired: real,
                    t: real, order: seq<nat>, sorted: seq<real>, i: nat)
    requires forall k :: 0 <= k < |table| ==> |table[k]| == |ts|
    requires |table| > 0 && t == Target(tDes, tDesired)
    requires order == StableArgsort(TableScores(ts, table)) && sorted == Apply(TableScores(ts, table), order)
    requires i == Closest(sorted, t)
    ensures var c := FindConfigsCorrected(ts, table, tDes, tDesired).value;
            c.tLow == sorted[Neighbours(sorted, i, t).0] && c.tHigh == sorted[Neighbours(sorted, i, t).1]
  {
  }

  /** The choice around position `i` against the clamped neighbours: the
      ceiling is the clamped ceiling, the floor differs only at the wrap
      from position 0, and `IndexError` comes only from the last position
      below the target. */
  lemma SelectAgreement(ts: seq<Option<real>>, table: seq<seq<Option<real>>>, order: seq<nat>,
                        sorted: seq<real>, i: nat, t: real)
    requires forall k :: 0 <= k < |table| ==> |table[k]| == |ts|
    requires |order| == |sorted| == |table| && InRange(order, |table|) && i < |order|
    requires forall k :: 0 <= k < |order| ==> sorted[k] == NanProd(Weighted(ts, table[order[k]]))
    ensures var r := SelectAt(ts, table, order, i, t);
            var (lo, hi) := Neighbours(sorted, i, t);
            (r.Success? ==> r.value.tHigh == sorted[hi]) &&
            (r.Success? && r.value.tLow != sorted[lo] ==>
               i == 0 && sorted[lo] == sorted[hi] && sorted[hi] > t && r.value.tLow == sorted[|sorted| - 1]) &&
            (r.Failure? ==> i == |sorted| - 1 && sorted[lo] == sorted[hi] && sorted[hi] < t)
  {
    if sorted[i] > t {
      AboveRows(ts, table, order, i, t);
    } else if sorted[i] < t && i + 1 < |order| {
      BelowRows(ts, table, order, i, t);
    }
  }

  /** The floor states the search as written returns are the corrected
      search's, except in the wrap-round case. */
  lemma AsWrittenLowStates(ts: seq<Option<real>>, table: seq<seq<Option<real>>>, tDes: Option<real>, tDesired: real)
    requires forall k :: 0 <= k < |table| ==> |table[k]| == |ts|
    requires |table| > 0
    ensures var r := FindConfigs(ts, table, tDes, tDesired);
            var t := Target(tDes, tDesired);
            var sorted := Apply(TableScores(ts, table), StableArgsort(TableScores(ts, table)));
            r.Success? && !(Closest(sorted, t) == 0 && sorted[0] > t) ==>
              r.value.low == FindConfigsCorrected(ts, table, tDes, tDesired).value.low
  {
    var t := Target(tDes, tDesired);
    var scores := TableScores(ts, table);
    var order := StableArgsort(scores);
    var sorted := Apply(scores, order);
    var i := Closest(sorted, t);
    SearchRows(ts, table, tDes, tDesired, t, order, sorted, i);
  }

  /** The corrected search's rows, at the neighbours of the nearest
      product. */
  lemma CorrectedRows(ts: seq<Option<real>>, table: seq<seq<Option<real>>>, tDes: Option<real>, tDesired: real,
                      t: real, order: seq<nat>, sorted: seq<real>, i: nat)
    requires forall k :: 0 <= k < |table| ==> |table[k]| == |ts|
    requires |table| > 0 && t == Target(tDes, tDesired)
    requires order == StableArgsort(TableScores(ts, table)) && sorted == Apply(TableScores(ts, table), order)
    requires i == Closest(sorted, t)
    ensures var c := FindConfigsCorrected(ts, table, tDes, tDesired).value;
            c.low == NanToNumRow(table[order[Neighbours(sorted, i, t).0]]) &&
            c.high == NanToNumRow(table[order[Neighbours(sorted, i, t).1]])
  {
  }

  /** The rows the search as written picks, by the position of the nearest
      product against the target: the floor is the corrected one outside
      the wrap-round case, and the ceiling row is cast directly exactly when
      the nearest product lies above the target. */
  lemma SearchRows(ts: seq<Option<real>>, table: seq<seq<Option<real>>>, tDes: Option<real>, tDesired: real,
                   t: real, order: seq<nat>, sorted: seq<real>, i: nat)
    requires forall k :: 0 <= k < |table| ==> |table[k]| == |ts|
    requires |table| > 0 && t == Target(tDes, tDesired)
    requires order == StableArgsort(TableScores(ts, table)) && sorted == Apply(TableScores(ts, table), order)
    requires i == Closest(sorted, t)
    ensures var r := FindConfigs(ts, table, tDes, tDesired);
            var c := FindConfigsCorrected(ts, table, tDes, tDesired).value;
            var ceilingRow := table[order[Neighbours(sorted, i, t).1]];
            (r.Success? && !(i == 0 && sorted[0] > t) ==> r.value.low == c.low) &&
            (r.Success? ==> r.value.high == if sorted[i] > t then AsIntRow(ceilingRow) else NanToNumRow(ceilingRow))
  {
    CorrectedRows(ts, table, tDes, tDesired, t, order, sorted, i);
    FindConfigsAt(ts, table, tDes, tDesired, t, order, sorted, i);
    if sorted[i] > t {
      AboveRows(ts, table, order, i, t);
    } else if sorted[i] < t && i + 1 < |order| {
      BelowRows(ts, table, order, i, t);
    }
  }

  /** The choice when the nearest row's product lies above the target. */
  lemma AboveRows(ts: seq<Option<real>>, table: seq<seq<Option<real>>>, order: seq<nat>, i: nat, t: real)
    requires forall k :: 0 <= k < |table| ==> |table[k]| == |ts|
    requires |order| == |table| && InRange(order, |table|) && i < |order|
    requires NanProd(Weighted(ts, table[order[i]])) > t
    ensures SelectAt(ts, table, order, i, t)
         == Success(Found(NanToNumRow(table[order[PyIndex(i - 1, |order|)]]), AsIntRow(table[order[i]]),
                          NanProd(Weighted(ts, table[order[PyIndex(i - 1, |order|)]])),
                          NanProd(Weighted(ts, table[order[i]]))))
  {
  }

  /** The choice when the nearest row's product lies below the target. */
  lemma BelowRows(ts: seq<Option<real>>, table: seq<seq<Option<real>>>, order: seq<nat>, i: nat, t: real)
    requires forall k :: 0 <= k < |table| ==> |table[k]| == |ts|
    requires |order| == |table| && InRange(order, |table|) && i + 1 < |order|
    requires NanProd(Weighted(ts, table[order[i]])) < t
    ensures SelectAt(ts, table, order, i, t)
         == Success(Found(NanToNumRow(table[order[i]]), NanToNumRow(table[order[i + 1]]),
                          NanProd(Weighted(ts, table[order[i]])), NanProd(Weighted(ts, table[order[i + 1]]))))
  {
  }

  /** The ceiling states the search as written returns are the corrected
      search's, except that when the nearest product lies above the target
      the ceiling row's NaN entries are cast to the smallest int64 instead
      of 0. */
  lemma AsWrittenHighStates(ts: seq<Option<real>>, table: seq<seq<Option<real>>>, tDes: Option<real>, tDesired: real)
    requires forall k :: 0 <= k < |table| ==> |table[k]| == |ts|
    requires |table| > 0
    ensures var r := FindConfigs(ts, table, tDes, tDesired);
            var c := FindConfigsCorrected(ts, table, tDes, tDesired).value;
            var t := Target(tDes, tDesired);
            var order := StableArgsort(TableScores(ts, table));
            var sorted := Apply(TableScores(ts, table), order);
            var i := Closest(sorted, t);
            var ceilingRow := table[order[Neighbours(sorted, i, t).1]];
            r.Success? ==> forall j :: 0 <= j < |ts| ==>
              r.value.high[j] == if sorted[i] > t && ceilingRow[j].None? then Int64Min else c.high[j]
  {
    var t := Target(tDes, tDesired);
    var order := StableArgsort(TableScores(ts, table));
    var sorted := Apply(TableScores(ts, table), order);
    var i := Closest(sorted, t);
    var ceilingRow := table[order[Neighbours(sorted, i, t).1]];
    AsWrittenHighRow(ts, table, tDes, tDesired);
    CastDiffers(ceilingRow, sorted[i] > t);
  }

  /** The ceiling row as written: cast directly when the nearest product
      lies above the target, through `nan_to_num` otherwise, as the
      corrected search does. */
  lemma AsWrittenHighRow(ts: seq<Option<real>>, table: seq<seq<Option<real>>>, tDes: Option<real>, tDesired: real)
    requires forall k :: 0 <= k < |table| ==> |table[k]| == |ts|
    requires |table| > 0
    ensures var r := FindConfigs(ts, table, tDes, tDesired);
            var t := Target(tDes, tDesired);
            var order := StableArgsort(TableScores(ts, table));
            var sorted := Apply(TableScores(ts, table), order);
            var i := Closest(sorted, t);
            var ceilingRow := table[order[Neighbours(sorted, i, t).1]];
            FindConfigsCorrected(ts, table, tDes, tDesired).value.high == NanToNumRow(ceilingRow) &&
            (r.Success? ==> r.value.high == if sorted[i] > t then AsIntRow(ceilingRow) else NanToNumRow(ceilingRow))
  {
    var t := Target(tDes, tDesired);
    var order := StableArgsort(TableScores(ts, table));
    var sorted := Apply(TableScores(ts, table), order);
    var i := Closest(sorted, t);
    CorrectedRows(ts, table, tDes, tDesired, t, order, sorted, i);
    SearchRows(ts, table, tDes, tDesired, t, order, sorted, i);
  }

  /** Casting a row directly and through `nan_to_num` differ exactly at its
      NaN entries, which the direct cast turns into the smallest int64. */
  lemma CastDiffers(row: seq<Option<real>>, direct: bool)
    ensures var cast := if direct then AsIntRow(row) else NanToNumRow(row);
            |cast| == |row| &&
            forall j :: 0 <= j < |row| ==>
              cast[j] == if direct && row[j].None? then Int64Min else NanToNumRow(row)[j]
  {
  }

  /** The in/out table of one blade: removed, then inserted. */
  lemma OneBladeTable()
    ensures InOutAttenuator(1) == [[None], [Some(1.0)]]
  {
    var table := InOutAttenuator(1);
    assert Pow2(1) == 2;
    AttenuatorAt(1, 0, 0);
    AttenuatorAt(1, 1, 0);
    assert !Bit(0, 0) && Bit(1, 0);
    assert table[0] == [None] && table[1] == [Some(1.0)];
  }

  /** Two distinct products sorted: the smaller first. */
  lemma SortTwo(scores: seq<real>)
    requires |scores| == 2 && scores[0] > scores[1]
    ensures StableArgsort(scores) == [1, 0]
  {
    var order := StableArgsort(scores);
    PermutationInjective(order, 2, 0, 1);
    assert Apply(scores, order)[0] <= Apply(scores, order)[1];
  }

  /** When the nearest product comes first in the sort and lies above the
      target, the floor is the row sorted last. */
  lemma WrapCase(ts: seq<Option<real>>, table: seq<seq<Option<real>>>, tDes: Option<real>, tDesired: real)
    requires forall k :: 0 <= k < |table| ==> |table[k]| == |ts|
    requires |table| > 0
    requires var scores := TableScores(ts, table);
             var sorted := Apply(scores, StableArgsort(scores));
             Closest(sorted, Target(tDes, tDesired)) == 0 && sorted[0] > Target(tDes, tDesired)
    ensures var order := StableArgsort(TableScores(ts, table));
            var low := table[order[|table| - 1]];
            var high := table[order[0]];
            FindConfigs(ts, table, tDes, tDesired)
              == Success(Found(NanToNumRow(low), AsIntRow(high), NanProd(Weighted(ts, low)), NanProd(Weighted(ts, high))))
  {
    var t := Target(tDes, tDesired);
    var order := StableArgsort(TableScores(ts, table));
    var sorted := Apply(TableScores(ts, table), order);
    var i := Closest(sorted, t);
    FindConfigsAt(ts, table, tDes, tDesired, t, order, sorted, i);
    AboveRows(ts, table, order, i, t);
  }

  /** One blade of transmission 0.5 and a target of 0.2: the nearest
      product 0.5 comes first in the sort and lies above the target, and the
      floor wraps round to the blade removed, transmission 1.0, above the
      ceiling. */
  lemma FloorWraps(ts: seq<Option<real>>, table: seq<seq<Option<real>>>, tDes: Option<real>, tDesired: real)
    requires ts == [Some(0.5)] && table == InOutAttenuator(1) && tDes == Some(0.2) && tDesired == 0.5
    ensures FindConfigs(ts, table, tDes, tDesired) == Success(Found([0], [1], 1.0, 0.5))
  {
    var order: seq<nat> := [1, 0];
    OneBladeTable();
    OneBladeScores();
    OneBladeOrder();
    assert Target(tDes, tDesired) == 0.2;
    FindConfigsAt(ts, table, tDes, tDesired, 0.2, order, [0.5, 1.0], 0);
    OneBladeRows();
    assert table[order[0]] == [Some(1.0)] && table[order[1]] == [None];
    AboveRows(ts, table, order, 0, 0.2);
    assert PyIndex(-1, 2) == 1;
  }

  /** One blade of transmission 0.5 and a target of 0.9: the nearest
      product 1.0, the blade removed, lies above the target, so the
      ceiling row is cast directly and the removed blade's state is the
      smallest int64. */
  lemma CeilingCastAsWritten(ts: seq<Option<real>>, table: seq<seq<Option<real>>>, tDes: Option<real>, tDesired: real)
    requires ts == [Some(0.5)] && table == InOutAttenuator(1) && tDes == Some(0.9) && tDesired == 0.5
    ensures FindConfigs(ts, table, tDes, tDesired) == Success(Found([1], [Int64Min], 0.5, 1.0))
  {
    var order: seq<nat> := [1, 0];
    OneBladeTable();
    OneBladeScores();
    OneBladeOrder();
    assert Target(tDes, tDesired) == 0.9;
    ClosestAbove();
    FindConfigsAt(ts, table, tDes, tDesired, 0.9, order, [0.5, 1.0], 1);
    OneBladeRows();
    assert table[order[0]] == [Some(1.0)] && table[order[1]] == [None];
    AboveRows(ts, table, order, 1, 0.9);
    CastRows();
  }

  /** The one-blade rows cast: the inserted row through `nan_to_num`, the
      removed row directly. */
  lemma CastRows()
    ensures NanToNumRow([Some(1.0)]) == [1] && AsIntRow([None]) == [Int64Min]
  {
    assert AsInt(Some(1.0)) == 1;
  }

  /** The nearest of the one-blade products to 0.9 is the second, 1.0. */
  lemma ClosestAbove()
    ensures Closest([0.5, 1.0], 0.9) == 1
  {
    var d := Distances([0.5, 1.0], 0.9);
    assert d[0] == 0.4 && d[1] == 0.1;
  }

  /** When the nearest product lies above the target and is not the first
      in the sort, the floor is the row before it and the ceiling is its
      own row cast directly. */
  lemma AboveCase(ts: seq<Option<real>>, table: seq<seq<Option<real>>>, tDes: Option<real>, tDesired: real)
    requires forall k :: 0 <= k < |table| ==> |table[k]| == |ts|
    requires |table| > 0
    requires var scores := TableScores(ts, table);
             var sorted := Apply(scores, StableArgsort(scores));
             var i := Closest(sorted, Target(tDes, tDesired));
             i > 0 && sorted[i] > Target(tDes, tDesired)
    ensures var scores := TableScores(ts, table);
            var order := StableArgsort(scores);
            var i := Closest(Apply(scores, order), Target(tDes, tDesired));
            var low := table[order[i - 1]];
            var high := table[order[i]];
            FindConfigs(ts, table, tDes, tDesired)
              == Success(Found(NanToNumRow(low), AsIntRow(high), NanProd(Weighted(ts, low)), NanProd(Weighted(ts, high))))
  {
    var t := Target(tDes, tDesired);
    var order := StableArgsort(TableScores(ts, table));
    var sorted := Apply(TableScores(ts, table), order);
    var i := Closest(sorted, t);
    FindConfigsAt(ts, table, tDes, tDesired, t, order, sorted, i);
    AboveRows(ts, table, order, i, t);
  }

  /** The products of the one-blade table: removed, then inserted. */
  lemma OneBladeScores()
    ensures TableScores([Some(0.5)], InOutAttenuator(1)) == [1.0, 0.5]
  {
    OneBladeTable();
    OneBladeRows();
  }

  /** The one-blade products sorted, and the nearest to 0.2 among them. */
  lemma OneBladeOrder()
    ensures StableArgsort([1.0, 0.5]) == [1, 0]
    ensures Apply([1.0, 0.5], [1, 0]) == [0.5, 1.0]
    ensures Closest([0.5, 1.0], 0.2) == 0
  {
    SortTwo([1.0, 0.5]);
    ClosestOfTwo();
  }

  lemma ClosestOfTwo()
    ensures Closest([0.5, 1.0], 0.2) == 0
  {
    var d := Distances([0.5, 1.0], 0.2);
    assert d[0] == 0.3 && d[1] == 0.8;
  }

  /** The states and transmissions of the two one-blade rows. */
  lemma OneBladeRows()
    ensures NanToNumRow([None]) == [0] && AsIntRow([Some(1.0)]) == [1]
    ensures NanProd(Weighted([Some(0.5)], [None])) == 1.0
    ensures NanProd(Weighted([Some(0.5)], [Some(1.0)])) == 0.5
  {
    assert AsInt(Some(1.0)) == 1;
    assert AsInt(Some(0.0)) == 0;
    assert Weighted([Some(0.5)], [None]) == [None];
    assert Weighted([Some(0.5)], [Some(1.0)]) == [Some(0.5)];
  }

  /** The reply of `get_config`: states, transmission and target. */
  datatype Reply = Reply(states: seq<int>, transmission: real, target: real)

  /** `get_config`: the search always runs with the system's desired
      transmission, since `find_configs` is called without the argument;
      the argument, or the desired transmission in its place, is only
      echoed back. The floor for mode `"Floor"`, the ceiling for any other
      mode. */
  function GetConfig(ts: seq<Option<real>>, table: seq<seq<Option<real>>>, tDes: Option<real>, tDesired: real,
                     mode: string): (r: Result<Reply>)
    requires forall k :: 0 <= k < |table| ==> |table[k]| == |ts|
    ensures r.Success? <==> FindConfigs(ts, table, None, tDesired).Success?
    ensures r.Success? ==> r.value.target == Target(tDes, tDesired)
    ensures r.Success? && mode == "Floor" ==>
      r.value.states == FindConfigs(ts, table, None, tDesired).value.low &&
      r.value.transmission == FindConfigs(ts, table, None, tDesired).value.tLow
    ensures r.Success? && mode != "Floor" ==>
      r.value.states == FindConfigs(ts, table, None, tDesired).value.high &&
      r.value.transmission == FindConfigs(ts, table, None, tDesired).value.tHigh
  {
    match FindConfigs(ts, table, None, tDesired)
    case Failure(e) => Failure(e)
    case Success(found) =>
      var target := Target(tDes, tDesired);
      if mode == "Floor" then Success(Reply(found.low, found.tLow, target))
      else Success(Reply(found.high, found.tHigh, target))
  }

  /** The configuration `get_config` picks does not depend on its
      argument. */
  lemma GetConfigIgnoresTarget(ts: seq<Option<real>>, table: seq<seq<Option<real>>>, a: Option<real>, b: Option<real>,
                               tDesired: real, mode: string)
    requires forall k :: 0 <= k < |table| ==> |table[k]| == |ts|
    ensures GetConfig(ts, table, a, tDesired, mode).Success? == GetConfig(ts, table, b, tDesired, mode).Success?
    ensures GetConfig(ts, table, a, tDesired, mode).Success? ==>
      GetConfig(ts, table, a, tDesired, mode).value.states == GetConfig(ts, table, b, tDesired, mode).value.states &&
      GetConfig(ts, table, a, tDesired, mode).value.transmission == GetConfig(ts, table, b, tDesired, mode).value.transmission
  {
  }
}

=== FILE: sequences.dfy ===
/** Index permutations and sorting, as numpy's `argsort`/`argmin` and
    Python's stable `sorted` use them. A permutation of `0..n-1` is stated
    through multisets; a sort order is a permutation along which the keys
    ascend. */
module Sequences {

  import opened Common

  function Iota(n: nat): (r: seq<nat>)
    ensures |r| == n
    ensures forall i :: 0 <= i < n ==> r[i] == i
  {
    seq(n, i => i)
  }

  /** `p` lists every index `0..n-1` exactly once. */
  predicate IsPermutation(p: seq<nat>, n: nat) {
    |p| == n && multiset(p) == multiset(Iota(n))
  }

  predicate InRange(p: seq<nat>, n: nat) {
    forall k :: 0 <= k < |p| ==> p[k] < n
  }

  /** `vals` read in the order `p` gives: `vals[p]` in numpy's fancy indexing. */
  function Apply<T>(vals: seq<T>, p: seq<nat>): (r: seq<T>)
    requires InRange(p, |vals|)
    ensures |r| == |p|
    ensures forall k :: 0 <= k < |p| ==> r[k] == vals[p[k]]
  {
    seq(|p|, k requires 0 <= k < |p| => vals[p[k]])
  }

  predicate Ascending(s: seq<real>) {
    forall i, j :: 0 <= i < j < |s| ==> s[i] <= s[j]
  }

  /** `p` is a sort order of `keys`: one of the answers `np.argsort(keys)` may give. */
  predicate SortsBy(p: seq<nat>, keys: seq<real>) {
    IsPermutation(p, |keys|) && InRange(p, |keys|) && Ascending(Apply(keys, p))
  }

  /** Among equal keys, `p` keeps the original index order (Python's `sorted`). */
  predicate Stable(p: seq<nat>, keys: seq<real>) {
    InRange(p, |keys|) &&
    forall i, j :: 0 <= i < j < |p| && keys[p[i]] == keys[p[j]] ==> p[i] < p[j]
  }

  predicate Distinct<T(==)>(s: seq<T>) {
    forall i, j :: 0 <= i < j < |s| ==> s[i] != s[j]
  }

  /** The tail of a sequence without repeats has none. */
  lemma DistinctTail<T>(s: seq<T>)
    requires |s| > 0 && Distinct(s)
    ensures Distinct(s[1..])
  {
    forall i, j | 0 <= i < j < |s[1..]|
      ensures s[1..][i] != s[1..][j]
    {
      assert s[1..][i] == s[i + 1] && s[1..][j] == s[j + 1];
    }
  }

  /** The head of a sequence without repeats does not recur in its tail. */
  lemma HeadNotInTail<T>(s: seq<T>)
    requires |s| > 0 && Distinct(s)
    ensures s[0] !in s[1..]
  {
    forall b | 0 <= b < |s[1..]|
      ensures s[1..][b] != s[0]
    {
      assert s[1..][b] == s[b + 1];
    }
  }

  function Distances(s: seq<real>, t: real): (r: seq<real>)
    ensures |r| == |s|
    ensures forall k :: 0 <= k < |s| ==> r[k] == Abs(s[k] - t)
  {
    seq(|s|, k requires 0 <= k < |s| => Abs(s[k] - t))
  }

  // ---- permutations ----

  lemma {:induction false} IotaCount(n: nat, x: nat)
    ensures multiset(Iota(n))[x] == if x < n then 1 else 0
  {
    if n > 0 {
      assert Iota(n) == Iota(n - 1) + [n - 1];
      IotaCount(n - 1, x);
    }
  }

  lemma PermutationInRange(p: seq<nat>, n: nat)
    requires IsPermutation(p, n)
    ensures InRange(p, n)
  {
    forall k | 0 <= k < |p|
      ensures p[k] < n
    {
      assert p[k] in multiset(p);
      IotaCount(n, p[k]);
    }
  }

  /** Every index `r < n` occurs in a permutation of `0..n-1`. */
  lemma PositionOf(p: seq<nat>, n: nat, r: nat) returns (k: nat)
    requires IsPermutation(p, n) && r < n
    ensures k < |p| && p[k] == r
  {
    IotaCount(n, r);
    assert r in multiset(p);
    k :| 0 <= k < |p| && p[k] == r;
  }

  lemma TwiceCounted<T>(s: seq<T>, i: nat, j: nat)
    requires i < j < |s| && s[i] == s[j]
    ensures multiset(s)[s[i]] >= 2
  {
    assert s == s[..j] + s[j..];
    assert s[i] == s[..j][i];
    assert s[j] == s[j..][0];
    assert multiset(s) == multiset(s[..j]) + multiset(s[j..]);
  }

  lemma PermutationInjective(p: seq<nat>, n: nat, i: nat, j: nat)
    requires IsPermutation(p, n) && i < j < n
    ensures p[i] != p[j]
  {
    if p[i] == p[j] {
      TwiceCounted(p, i, j);
      IotaCount(n, p[i]);
      assert false;
    }
  }

  lemma ApplyConcat<T>(vals: seq<T>, a: seq<nat>, b: seq<nat>)
    requires InRange(a, |vals|) && InRange(b, |vals|)
    ensures InRange(a + b, |vals|)
    ensures Apply(vals, a + b) == Apply(vals, a) + Apply(vals, b)
  {
  }

  /** Removing the entry at `j` removes one copy of it from the multiset. */
  lemma RemoveAt<T>(q: seq<T>, j: nat)
    requires j < |q|
    ensures multiset(q[..j] + q[j + 1..]) == multiset(q) - multiset{q[j]}
  {
    assert q == q[..j] + [q[j]] + q[j + 1..];
    assert multiset(q) == multiset(q[..j]) + multiset{q[j]} + multiset(q[j + 1..]);
  }

  /** Reading `vals` in two orders with the same multiset of indices gives the
      same multiset of values. */
  lemma {:induction false} ApplyMultiset<T>(vals: seq<T>, p: seq<nat>, q: seq<nat>)
    requires InRange(p, |vals|) && InRange(q, |vals|)
    requires multiset(p) == multiset(q)
    ensures multiset(Apply(vals, p)) == multiset(Apply(vals, q))
  {
    if |p| == 0 {
      assert |q| == |multiset(q)| == 0;
    } else {
      var j := RemoveMatching(p, q);
      ApplyMultiset(vals, p[1..], q[..j] + q[j + 1..]);
      ApplyMultisetStep(vals, p, q, j);
    }
  }

  /** Finds `p[0]` in `q`; what is left of both still holds the same entries. */
  lemma RemoveMatching<T>(p: seq<T>, q: seq<T>) returns (j: nat)
    requires |p| > 0 && multiset(p) == multiset(q)
    ensures j < |q| && q[j] == p[0]
    ensures multiset(p[1..]) == multiset(q[..j] + q[j + 1..])
  {
    assert p[0] in multiset(q);
    j :| 0 <= j < |q| && q[j] == p[0];
    RemoveAt(q, j);
    assert p == [p[0]] + p[1..];
    assert multiset(p) == multiset{p[0]} + multiset(p[1..]);
  }

  lemma ApplyMultisetStep<T>(vals: seq<T>, p: seq<nat>, q: seq<nat>, j: nat)
    requires InRange(p, |vals|) && InRange(q, |vals|)
    requires |p| > 0 && j < |q| && q[j] == p[0]
    requires InRange(q[..j] + q[j + 1..], |vals|)
    requires multiset(Apply(vals, p[1..])) == multiset(Apply(vals, q[..j] + q[j + 1..]))
    ensures multiset(Apply(vals, p)) == multiset(Apply(vals, q))
  {
    ApplySplit(vals, p, 0);
    ApplySplit(vals, q, j);
    ApplyConcat(vals, q[..j], q[j + 1..]);
    var ap, ap1 := Apply(vals, p), Apply(vals, p[1..]);
    var aq, aq1, aq2 := Apply(vals, q), Apply(vals, q[..j]), Apply(vals, q[j + 1..]);
    assert Apply(vals, p[..0]) == [];
    MultisetOfSplit(ap, [], vals[p[0]], ap1);
    MultisetOfSplit(aq, aq1, vals[p[0]], aq2);
  }

  lemma MultisetOfSplit<T>(s: seq<T>, a: seq<T>, v: T, b: seq<T>)
    requires s == a + [v] + b
    ensures multiset(s) == multiset(a) + multiset{v} + multiset(b)
  {
  }

  /** Reading `vals` along `q` splits around any position `j`. */
  lemma ApplySplit<T>(vals: seq<T>, q: seq<nat>, j: nat)
    requires InRange(q, |vals|) && j < |q|
    ensures InRange(q[..j], |vals|) && InRange(q[j + 1..], |vals|)
    ensures Apply(vals, q) == Apply(vals, q[..j]) + [vals[q[j]]] + Apply(vals, q[j + 1..])
  {
  }

  /** A permutation reorders the values without adding or losing any. */
  lemma ApplyPermutation<T>(vals: seq<T>, p: seq<nat>)
    requires IsPermutation(p, |vals|)
    ensures InRange(p, |vals|)
    ensures multiset(Apply(vals, p)) == multiset(vals)
  {
    PermutationInRange(p, |vals|);
    ApplyMultiset(vals, p, Iota(|vals|));
    assert Apply(vals, Iota(|vals|)) == vals;
  }

  /** Two ascending sequences holding the same values are equal. */
  lemma {:induction false} SortedUnique(a: seq<real>, b: seq<real>)
    requires Ascending(a) && Ascending(b)
    requires multiset(a) == multiset(b)
    ensures a == b
  {
    assert |a| == |multiset(a)| == |multiset(b)| == |b|;
    if |a| > 0 {
      SortedHeads(a, b);
      DropHeads(a, b);
      SortedUnique(a[1..], b[1..]);
      assert a == [a[0]] + a[1..] && b == [b[0]] + b[1..];
    }
  }

  lemma DropHeads<T>(a: seq<T>, b: seq<T>)
    requires |a| > 0 && |b| > 0 && a[0] == b[0]
    requires multiset(a) == multiset(b)
    ensures multiset(a[1..]) == multiset(b[1..])
  {
    assert a == [] + [a[0]] + a[1..] && b == [] + [b[0]] + b[1..];
    MultisetOfSplit(a, [], a[0], a[1..]);
    MultisetOfSplit(b, [], b[0], b[1..]);
    forall y
      ensures multiset(a[1..])[y] == multiset(b[1..])[y]
    {
      assert multiset(a)[y] == multiset(a[1..])[y] + multiset{a[0]}[y];
      assert multiset(b)[y] == multiset(b[1..])[y] + multiset{a[0]}[y];
    }
  }

  /** Ascending sequences with the same values start with the same value. */
  lemma SortedHeads(a: seq<real>, b: seq<real>)
    requires Ascending(a) && Ascending(b) && |a| > 0
    requires multiset(a) == multiset(b)
    ensures |b| > 0 && a[0] == b[0]
  {
    assert a[0] in multiset(b);
    var j :| 0 <= j < |b| && b[j] == a[0];
    assert b[0] in multiset(a);
    var i :| 0 <= i < |a| && a[i] == b[0];
  }

  /** Whichever order `np.argsort` picks among ties, the sorted values are the same. */
  lemma SortsByUnique(keys: seq<real>, p: seq<nat>, q: seq<nat>)
    requires SortsBy(p, keys) && SortsBy(q, keys)
    ensures Apply(keys, p) == Apply(keys, q)
  {
    ApplyPermutation(keys, p);
    ApplyPermutation(keys, q);
    SortedUnique(Apply(keys, p), Apply(keys, q));
  }

  /** Distinct keys read along a permutation stay distinct. */
  lemma ApplyDistinct(keys: seq<real>, p: seq<nat>)
    requires IsPermutation(p, |keys|) && InRange(p, |keys|) && Distinct(keys)
    ensures Distinct(Apply(keys, p))
  {
    forall i, j | 0 <= i < j < |p|
      ensures Apply(keys, p)[i] != Apply(keys, p)[j]
    {
      PermutationInjective(p, |keys|, i, j);
      if p[i] < p[j] {
        assert keys[p[i]] != keys[p[j]];
      } else {
        assert keys[p[j]] != keys[p[i]];
      }
    }
  }

  // ---- Python's stable sort, as an insertion sort of indices ----

  /** Inserts index `k` after every entry whose key is at most `keys[k]`. */
  function InsertStable(keys: seq<real>, s: seq<nat>, k: nat): (r: seq<nat>)
    requires k < |keys| && InRange(s, k)
    requires Ascending(Apply(keys, s)) && Stable(s, keys)
    ensures multiset(r) == multiset(s) + multiset{k}
    ensures |r| == |s| + 1 && InRange(r, k + 1)
    ensures Ascending(Apply(keys, r)) && Stable(r, keys)
    decreases |s|
  {
    if |s| == 0 then [k]
    else if keys[s[|s| - 1]] <= keys[k] then
      AppendAtMost(keys, s, k);
      s + [k]
    else
      FrontKeeps(keys, s, k);
      var r' := InsertStable(keys, s[..|s| - 1], k);
      InsertBelowLast(keys, s, k, r');
      r' + [s[|s| - 1]]
  }

  /** Dropping the last entry keeps `s` in range, ascending and stable. */
  lemma FrontKeeps(keys: seq<real>, s: seq<nat>, k: nat)
    requires k < |keys| && InRange(s, k) && |s| > 0
    requires Ascending(Apply(keys, s)) && Stable(s, keys)
    ensures InRange(s[..|s| - 1], k)
    ensures Ascending(Apply(keys, s[..|s| - 1])) && Stable(s[..|s| - 1], keys)
  {
    var front := s[..|s| - 1];
    assert forall i :: 0 <= i < |front| ==> front[i] == s[i];
    assert forall i :: 0 <= i < |front| ==> Apply(keys, front)[i] == Apply(keys, s)[i];
  }

  /** Putting the last entry of `s` after the insertion into its front
      completes the insertion into `s`. */
  lemma InsertBelowLast(keys: seq<real>, s: seq<nat>, k: nat, r': seq<nat>)
    requires k < |keys| && InRange(s, k) && |s| > 0
    requires Ascending(Apply(keys, s)) && Stable(s, keys)
    requires keys[k] < keys[s[|s| - 1]]
    requires multiset(r') == multiset(s[..|s| - 1]) + multiset{k}
    requires |r'| == |s| && InRange(r', k + 1)
    requires Ascending(Apply(keys, r')) && Stable(r', keys)
    ensures multiset(r' + [s[|s| - 1]]) == multiset(s) + multiset{k}
    ensures InRange(r' + [s[|s| - 1]], k + 1)
    ensures Ascending(Apply(keys, r' + [s[|s| - 1]])) && Stable(r' + [s[|s| - 1]], keys)
  {
    var last := s[|s| - 1];
    assert s == s[..|s| - 1] + [last];
    InsertKeepsBelow(keys, s, k, r');
    AppendAbove(keys, r', last);
  }

  /** Appending `k`, larger than every index in `s` and with a key no smaller
      than the last, keeps `s` ascending and stable. */
  lemma AppendAtMost(keys: seq<real>, s: seq<nat>, k: nat)
    requires k < |keys| && InRange(s, k) && |s| > 0
    requires Ascending(Apply(keys, s)) && Stable(s, keys)
    requires keys[s[|s| - 1]] <= keys[k]
    ensures multiset(s + [k]) == multiset(s) + multiset{k} && InRange(s + [k], k + 1)
    ensures Ascending(Apply(keys, s + [k])) && Stable(s + [k], keys)
  {
    var a := Apply(keys, s + [k]);
    forall i, j | 0 <= i < j < |a|
      ensures a[i] <= a[j]
    {
      if j == |s| {
        assert a[i] == Apply(keys, s)[i];
        if i < |s| - 1 {
          assert Apply(keys, s)[i] <= Apply(keys, s)[|s| - 1];
        }
      } else {
        assert a[i] == Apply(keys, s)[i] && a[j] == Apply(keys, s)[j];
      }
    }
  }

  /** Appending `last` after entries that all sort before it keeps the order
      ascending and stable. */
  lemma AppendAbove(keys: seq<real>, r: seq<nat>, last: nat)
    requires last < |keys| && InRange(r, |keys|)
    requires Ascending(Apply(keys, r)) && Stable(r, keys)
    requires forall i :: 0 <= i < |r| ==> keys[r[i]] <= keys[last]
    requires forall i :: 0 <= i < |r| && keys[r[i]] == keys[last] ==> r[i] < last
    ensures Ascending(Apply(keys, r + [last])) && Stable(r + [last], keys)
  {
    var a := Apply(keys, r + [last]);
    forall i, j | 0 <= i < j < |a|
      ensures a[i] <= a[j]
    {
      if j < |r| {
        assert a[i] == Apply(keys, r)[i] && a[j] == Apply(keys, r)[j];
      }
    }
  }

  /** Every entry of the insertion into the front of `s` sorts before the last
      entry of `s`, when `k` itself does. */
  lemma InsertKeepsBelow(keys: seq<real>, s: seq<nat>, k: nat, r: seq<nat>)
    requires k < |keys| && InRange(s, k) && |s| > 0
    requires Ascending(Apply(keys, s)) && Stable(s, keys)
    requires keys[k] < keys[s[|s| - 1]]
    requires multiset(r) == multiset(s[..|s| - 1]) + multiset{k}
    ensures InRange(r, |keys|)
    ensures forall i :: 0 <= i < |r| ==> keys[r[i]] <= keys[s[|s| - 1]]
    ensures forall i :: 0 <= i < |r| && keys[r[i]] == keys[s[|s| - 1]] ==> r[i] < s[|s| - 1]
  {
    var last := s[|s| - 1];
    var front := s[..|s| - 1];
    forall i | 0 <= i < |r|
      ensures r[i] < |keys| && keys[r[i]] <= keys[last]
      ensures keys[r[i]] == keys[last] ==> r[i] < last
    {
      assert r[i] in multiset(r);
      if r[i] != k {
        assert r[i] in multiset(front);
        var m :| 0 <= m < |front| && front[m] == r[i];
        assert s[m] == r[i];
        assert Apply(keys, s)[m] <= Apply(keys, s)[|s| - 1];
      }
    }
  }

  function SortPrefix(keys: seq<real>, n: nat): (r: seq<nat>)
    requires n <= |keys|
    ensures IsPermutation(r, n) && InRange(r, n)
    ensures Ascending(Apply(keys, r)) && Stable(r, keys)
  {
    if n == 0 then []
    else
      var r' := SortPrefix(keys, n - 1);
      assert Iota(n) == Iota(n - 1) + [n - 1];
      InsertStable(keys, r', n - 1)
  }

  /** Python's `sorted` of the indices by key: ascending, ties in index order. */
  function StableArgsort(keys: seq<real>): (r: seq<nat>)
    ensures SortsBy(r, keys) && Stable(r, keys)
  {
    SortPrefix(keys, |keys|)
  }

  // ---- np.argmin ----

  /** `np.argmin`: the first position of the smallest value. */
  function FirstArgmin(d: seq<real>): (r: nat)
    requires |d| > 0
    ensures r < |d|
    ensures forall k :: 0 <= k < |d| ==> d[r] <= d[k]
    ensures forall k :: 0 <= k < r ==> d[r] < d[k]
  {
    if |d| == 1 then 0
    else
      var r' := FirstArgmin(d[..|d| - 1]);
      assert forall k :: 0 <= k < |d| - 1 ==> d[..|d| - 1][k] == d[k];
      if d[|d| - 1] < d[r'] then |d| - 1 else r'
  }

  /** The first position whose value is at most `t` (`np.where(s <= t)[0]`). */
  function FirstAtMost(s: seq<real>, t: real): (r: Option<nat>)
    ensures r.Some? ==> r.value < |s| && s[r.value] <= t
    ensures r.Some? ==> forall m :: 0 <= m < r.value ==> s[m] > t
    ensures r.None? ==> forall m :: 0 <= m < |s| ==> s[m] > t
  {
    if |s| == 0 then None
    else if s[0] <= t then Some(0)
    else match FirstAtMost(s[1..], t)
      case None => None
      case Some(k) => Some(k + 1)
  }

  /** The first position whose value is at least `t` (`np.where(s >= t)[0]`). */
  function FirstAtLeast(s: seq<real>, t: real): (r: Option<nat>)
    ensures r.Some? ==> r.value < |s| && s[r.value] >= t
    ensures r.Some? ==> forall m :: 0 <= m < r.value ==> s[m] < t
    ensures r.None? ==> forall m :: 0 <= m < |s| ==> s[m] < t
  {
    if |s| == 0 then None
    else if s[0] >= t then Some(0)
    else match FirstAtLeast(s[1..], t)
      case None => None
      case Some(k) => Some(k + 1)
  }
}

=== FILE: text.dfy ===
/** Python's decimal formatting of integers (`str(i)`), the two-digit zero
    padding of `str(i).zfill(2)` and `f'{i:02d}'`, and `int(s, 2)`. */
module Text {

  import opened Common

  predicate IsDigit(c: char) {
    '0' <= c <= '9'
  }

  predicate AllDigits(s: string) {
    forall i :: 0 <= i < |s| ==> IsDigit(s[i])
  }

  function DigitChar(d: nat): (c: char)
    requires d < 10
    ensures IsDigit(c) && (c == '0' <==> d == 0)
  {
    ('0' as int + d) as char
  }

  function DigitOf(c: char): nat
    requires IsDigit(c)
  {
    c as int - '0' as int
  }

  /** The decimal digits of `n`, without leading zeros. */
  function Digits(n: nat): (r: string)
    ensures |r| > 0 && AllDigits(r)
    ensures r[0] == '0' <==> n == 0
    decreases n
  {
    if n < 10 then [DigitChar(n)] else Digits(n / 10) + [DigitChar(n % 10)]
  }

  /** The value of a string of decimal digits. */
  function DigitsValue(s: string): nat
    requires AllDigits(s)
  {
    if |s| == 0 then 0 else 10 * DigitsValue(s[..|s| - 1]) + DigitOf(s[|s| - 1])
  }

  lemma {:induction false} DigitsValueOfDigits(n: nat)
    ensures DigitsValue(Digits(n)) == n
    decreases n
  {
    if n >= 10 {
      var s := Digits(n);
      assert s[..|s| - 1] == Digits(n / 10);
      DigitsValueOfDigits(n / 10);
    }
  }

  /** `str(i)`. */
  function Decimal(i: int): (r: string)
    ensures |r| > 0
    ensures i < 0 <==> r[0] == '-'
    ensures i >= 0 ==> AllDigits(r)
  {
    if i < 0 then "-" + Digits(-i) else Digits(i)
  }

  /** Different integers print differently. */
  lemma DecimalInjective(i: int, j: int)
    requires Decimal(i) == Decimal(j)
    ensures i == j
  {
    if i < 0 {
      assert j < 0;
      assert Decimal(i)[1..] == Digits(-i) && Decimal(j)[1..] == Digits(-j);
      DigitsInjective(-i, -j);
    } else {
      assert j >= 0;
      DigitsInjective(i, j);
    }
  }

  lemma DigitsInjective(a: nat, b: nat)
    requires Digits(a) == Digits(b)
    ensures a == b
  {
    DigitsValueOfDigits(a);
    DigitsValueOfDigits(b);
  }

  /** `str(i).zfill(2)`, and equally `f'{i:02d}'`: a one-digit natural gets a
      leading zero; anything already two characters wide is left alone. */
  function Pad2(i: int): (r: string)
    ensures |r| >= 2
    ensures 0 <= i < 10 ==> r == ['0', DigitChar(i)]
    ensures !(0 <= i < 10) ==> r == Decimal(i)
  {
    if 0 <= i < 10 then "0" + Decimal(i)
    else
      assert i >= 10 ==> |Digits(i)| == |Digits(i / 10)| + 1;
      Decimal(i)
  }

  /** Zero padding keeps distinct indices apart, so the padded names of
      different filters never collide. */
  lemma Pad2Injective(i: int, j: int)
    requires Pad2(i) == Pad2(j)
    ensures i == j
  {
    if 0 <= i < 10 && 0 <= j < 10 {
      assert DigitChar(i) == DigitChar(j);
    } else if !(0 <= i < 10) && !(0 <= j < 10) {
      DecimalInjective(i, j);
    }
  }

  /** The string formed by printing each entry and joining the pieces
      (`''.join(str(c) for c in xs)`). */
  function JoinDecimal(xs: seq<int>): (r: string)
    ensures (forall k :: 0 <= k < |xs| ==> 0 <= xs[k] < 10) ==>
      |r| == |xs| && forall k :: 0 <= k < |xs| ==> r[k] == DigitChar(xs[k])
  {
    if |xs| == 0 then "" else Decimal(xs[0]) + JoinDecimal(xs[1..])
  }

  predicate IsBinaryDigit(c: char) {
    c == '0' || c == '1'
  }

  /** The value of a string of binary digits, first digit most significant. */
  function BinaryValue(s: string): (r: nat)
    requires forall k :: 0 <= k < |s| ==> IsBinaryDigit(s[k])
    ensures r < Pow2(|s|)
  {
    if |s| == 0 then 0
    else (if s[0] == '1' then Pow2(|s| - 1) else 0) + BinaryValue(s[1..])
  }

  /** `int(s, 2)` on strings made of decimal digits and minus signs: an
      optional leading sign followed by at least one binary digit; anything
      else is a `ValueError`. */
  function ParseBinary(s: string): (r: Result<int>)
    ensures r.Failure? ==> r.error == ValueError
    ensures |s| == 0 ==> r.Failure?
    ensures (|s| > 0 && forall k :: 0 <= k < |s| ==> IsBinaryDigit(s[k])) ==>
      r == Success(BinaryValue(s))
    ensures (exists k :: 0 <= k < |s| && '2' <= s[k] <= '9') ==> r.Failure?
  {
    var body := if |s| > 0 && (s[0] == '-' || s[0] == '+') then s[1..] else s;
    if |body| == 0 || exists k :: 0 <= k < |body| && !IsBinaryDigit(body[k]) then
      Failure(ValueError)
    else if |s| > 0 && s[0] == '-' then
      Success(-(BinaryValue(body) as int))
    else
      Success(BinaryValue(body))
  }
}
